=== FILE: README.md ===
# Task tracker core, modelled in Dafny

This project models the domain logic of a Telegram task tracker. The bot keeps
tasks in two stores:

- an SQLite store (`TaskDatabase`);
- an older per-user YAML file that the first generation of agents reads (`TaskManagerAgent`).

On top of the stores the bot runs:

- a six-step onboarding wizard, driven by inline-button callbacks;
- an evening reflection: review each active task, give one gratitude answer, then get a daily summary;
- scheduled notifications: a daily digest, deadline reminders and a new-task notice;
- an orchestrator that routes a message to one of several agents.

The model keeps every decision the code makes and drops the transport. Some
inputs become parameters:

- language-model answers are `Option<string>`, with `None` meaning the call raised;
- the clock is `now`, in Unix seconds;
- the uuid of a new task is `taskId`.

Both stores are immutable values: the SQLite database is a record of tables, and
the YAML file is a map from user id to a per-user record.

Modules:

| module | what it holds |
|---|---|
| `Seqs`, `Text` | Sequence and string helpers, kept apart from the domain. They cover order-preserving filter, counting, insertion sort, lower-casing, substring search, and Python's `str.split` and `int()`. |
| `Tasks` | The task record, the status and priority names, and the guarded completion rate. |
| `TaskDatabase`, `TaskDatabaseFacts` | The SQLite store: task CRUD scoped by `(task_id, user_id)`, analytics, the user row, and the one-row-per-day tables. |
| `AgentStore`, `TaskManagerAgent`, `TaskManagerFacts` | The YAML store and the task tools of its agent. |
| `EveningTracker`, `EveningFacts` | The evening reflection state machine. |
| `Onboarding`, `OnboardingFacts` | The wizard: step numbers, progress bar, callbacks, toggles, the anxiety questionnaire, and the bounded mentor history. |
| `Notifications` | Recipient gating, the 24-hour completion window, the deadline window, the digest and the reminder. |
| `Orchestrator` | The deterministic parts of the newer agents. These are the welcome-step successor, field dispatch, the priority filter, the evening start check, value coercion, and routing fallbacks. |

## Model

| member | source | states |
|---|---|---|
| Tasks.CompletionRate | task_database.py:281-283 | The rate is 0 when there are no tasks; otherwise rate·total = completed·100, and the rate lies in [0, 100] whenever completed ≤ total. |
| Tasks.StatusCountsBounded | task_database.py:255-263 | The completed, in-progress and pending counts of any task list add up to at most its length, because the three statuses are distinct. |
| TaskDatabase.CreateTask | task_database.py:136-151 | Insertion succeeds iff the id is not already taken; the uuid becomes the `taskId` argument. On success exactly one task is appended, with the given user, title, description, priority and due date. It gets status pending (the column default), created_at = updated_at = now and no completion stamp, and every other table is unchanged. |
| TaskDatabase.GetTasks | task_database.py:156-178 | A task is listed iff it belongs to the user and, when the status filter is non-empty, has that status. Each such task appears exactly as often as in the table, and the list is ordered newest first by created_at. |
| TaskDatabase.NewestFirst | task_database.py:164 | Sorting by the negated creation time means created_at never increases along the list. |
| TaskDatabase.UpdateTaskStatus | task_database.py:183-202 | The update succeeds iff some task has that id and user. On failure nothing changes. Otherwise every matching task gets the new status and updated_at = now, and completed_at = now iff the new status is "completed", otherwise null. All other tasks and tables are untouched. |
| TaskDatabase.UpdateTaskPriority | task_database.py:207-225 | The update succeeds iff some task has that id and user. A task of another user with the same id is not touched. Only priority and updated_at of the matching task change. |
| TaskDatabase.DeleteTask | task_database.py:230-245 | The delete succeeds iff some task has that id and user. Every row with that (id, user) pair is removed and every other row keeps its multiplicity, so the remaining tasks are exactly the old ones minus that pair. The list shrinks on success, and nothing changes on failure. |
| TaskDatabase.GetTaskAnalytics | task_database.py:250-289 | total is the user's task count. completed, in_progress and pending are the numbers of the user's tasks with each status, so together they are at most total. The completion rate is the guarded rate, in [0, 100]. There is one priority group per priority among the user's tasks: keys are distinct, each group's count is the number of the user's tasks with that priority, and the counts sum to total. |
| TaskDatabase.GroupByPriority | task_database.py:269-278 | One group per priority that occurs: keys are distinct, each count is the number of tasks with that priority (and positive), and the counts sum to the number of tasks. |
| TaskDatabase.Bump | task_database.py:277-278 | Counting one more task either increments the existing group for its priority or appends a new group with count 1. Keys stay distinct and the total grows by one. |
| TaskDatabase.CountPriorityIsCount | task_database.py:269-278 | The per-priority counter equals the number of tasks with that priority. |
| TaskDatabase.EnsureUserExists | task_database.py:299-315 | Afterwards the user row exists. An existing row is left alone. A new row gets every column, with started_at, created_at and updated_at = now and the column defaults elsewhere. |
| TaskDatabase.NewUserFields | task_database.py:36-56 | A new user row has exactly the columns of the tracker_users table. |
| TaskDatabase.EnsureUserIdempotent | task_database.py:303-304 | Ensuring a user twice is the same as ensuring it once, whatever the two clocks say. |
| TaskDatabase.SetColumns | task_database.py:336-347 | The updated row has the given columns set, updated_at = now, and every other column unchanged. |
| TaskDatabase.UpdateUserData | task_database.py:330-352 | With no fields the call is a no-op returning true. It fails, changing nothing, when a field names a column the table lacks. Otherwise only that user's row changes, and in the way SetColumns describes. |
| TaskDatabase.InsertDayRow | task_database.py:90 | A (user, date) row is accepted iff no row for that pair exists. On acceptance it is appended, so one-row-per-day is preserved. |
| TaskDatabase.InsertEveningSession | task_database.py:76-91 | The UNIQUE(user_id, date) constraint of evening_sessions: accepted iff that pair is new, and the constraint keeps holding. |
| TaskDatabase.InsertDailySummary | task_database.py:95-111 | The same constraint for daily_summaries. |
| TaskDatabase.SecondSessionSameDayRefused | task_database.py:90 | A second evening session for the same user and date is refused. |
| TaskDatabaseFacts.CreateKeepsValid | task_database.py:136-151 | Creation keeps the store invariant: ids are unique, and a completion stamp is present exactly on completed tasks. |
| TaskDatabaseFacts.UpdateStatusKeepsValid | task_database.py:183-202 | The status update keeps the invariant, because it sets or clears the stamp along with the status. |
| TaskDatabaseFacts.UpdatePriorityKeepsValid | task_database.py:207-225 | The priority update keeps the invariant. |
| TaskDatabaseFacts.DeleteKeepsValid | task_database.py:230-245 | Deletion keeps the invariant. |
| TaskDatabaseFacts.CreateThenDelete | task_database.py:136-151 | Deleting a task right after creating it succeeds and gives back the original store. This restores the user's task count. |
| TaskDatabaseFacts.StatusUpdateIsolated | task_database.py:190-194 | A status update by one user leaves every listing of any other user unchanged. |
| TaskDatabaseFacts.PriorityUpdateIsolated | task_database.py:213-217 | The same for a priority update. |
| TaskDatabaseFacts.DeleteIsolated | task_database.py:234-237 | The same for a delete. |
| TaskDatabaseFacts.CreateIsolated | task_database.py:143-147 | The same for a create. |
| TaskDatabaseFacts.CreateCounted | task_database.py:255-263 | After a create, the creator's total and pending counts go up by one, and the completed and in-progress counts stay the same. |
| TaskDatabaseFacts.EmptyUserAnalytics | task_database.py:255-289 | A user without tasks gets 0 for every count, a 0 rate and no priority groups; no field is missing. |
| TaskDatabaseFacts.RateMonotone | task_database.py:281-283 | For a fixed number of tasks, more completed tasks never give a lower rate, and strictly more give a strictly higher rate. |
| TaskManagerAgent.CreateTask | ai_agents.py:229-254 | A missing user gets a fresh record. Exactly one pending task is appended to that user's list, with created_at = updated_at = now. Other users and the user's earlier tasks are unchanged. |
| TaskManagerAgent.GetTasks | ai_agents.py:256-286 | An unknown user gets an empty list. An empty status filter gives the user's whole list. Otherwise the result is the sublist of the user's tasks with that status, in stored order, each task as often as it is stored. |
| TaskManagerAgent.FindTask | ai_agents.py:300 | Gives the first index whose task has the id, or None iff no task has it. |
| TaskManagerAgent.UpdateTaskStatus | ai_agents.py:288-318 | Three outcomes. "user not found" iff the user has no record. "task not found" iff no task of theirs has the id. Otherwise only the first task with the id changes: its status, its updated_at, and completed_at when the new status is completed. The stamp is never cleared. |
| TaskManagerAgent.UpdateTaskPriority | ai_agents.py:320-347 | The same three outcomes. On success only the priority and updated_at of the first task with the id change. |
| TaskManagerAgent.DeleteTask | ai_agents.py:349-374 | The same three outcomes. On success the list is the old list minus every task with that id, in the original order. |
| TaskManagerAgent.PriorityCountsBounded | ai_agents.py:391-396 | The four named priority counts add up to at most the number of tasks. |
| TaskManagerAgent.GetTaskAnalytics | ai_agents.py:376-409 | Returns None iff the user has no record. Otherwise total is the list length; completed, in_progress and pending count the tasks with each status; urgent, high, medium and low count the tasks with each priority. The rate is the guarded rate, 0 when there are no tasks. |
| TaskManagerFacts.ReopenKeepsStamp | ai_agents.py:304-308 | Moving a completed task to any other status succeeds but keeps its old completion stamp, so the stamp and the status disagree afterwards. |
| TaskManagerFacts.StoresDisagreeOnReopen | ai_agents.py:304-308 | For any completed task present with the same id and user in both stores, reopening it makes the SQLite store clear completed_at on every addressed row while the YAML store keeps the old stamp. |
| TaskManagerFacts.CreateThenDelete | ai_agents.py:242-243 | Creating a task with a fresh id and deleting it succeeds and restores the user's record. |
| TaskManagerFacts.CreatedTaskListedLast | ai_agents.py:243 | A new task is listed last among the user's pending tasks, after the earlier ones in their order. |
| TaskManagerFacts.PriorityUpdateKeepsStatusCounts | ai_agents.py:320-347 | After a successful priority update, the user's total, completed, in-progress and pending counts and the completion rate are unchanged. |
| AgentStore.SaveRecord | ai_agents.py:152-169 | The save the code intends. It reports success, the record replaces the user's entry, and every other user's entry in the file is kept. |
| AgentStore.SaveAsWritten | ai_agents.py:164-169 | The save as written. It reports failure and leaves the file with no user at all, because the file is emptied at :165 before the dump at :166 raises. |
| TaskManagerFacts.CreateLostAsWritten | ai_agents.py:238-252 | With the save as written, `_create_task` always answers with the save error. The user's listing is then empty, and the next status update answers "user not found". With the intended save, the new task is listed last. |
| TaskManagerFacts.CreateCounted | ai_agents.py:386-389 | After a create, total and pending grow by one and completed is unchanged. |
| EveningTracker.StartSession | ai_agents.py:462-497 | Four outcomes. "no user" iff the user has no record. "no active tasks" iff the user has no pending or in-progress task. "already today" iff there are active tasks and the stored session is dated today. Otherwise the new session holds one fresh review item per active task, in task order, and tasks_count is their number. |
| EveningTracker.OpenSession | ai_agents.py:481-484 | A new session starts in task review at item 0, with one fresh item per active task and empty gratitude, summary and transcript. |
| EveningTracker.NextItem | ai_agents.py:563-579 | The index advances by exactly one. The state becomes gratitude iff the index reaches the number of items; otherwise the next task is announced as number index+2 of the total. |
| EveningTracker.ReviewReply | ai_agents.py:533-561 | Only the current item changes. On a first reply the progress text is stored, and needs_help is set iff the lower-cased reply contains a help phrase. On a second reply after a help request the reply is stored as help_provided and the item completes. Otherwise the item completes and the session moves on. A failed language-model call aborts the message. |
| EveningTracker.GratitudeReply | ai_agents.py:581-589 | Stores the answer and moves to summary. Fails iff the language-model call fails. |
| EveningTracker.Productivity | ai_agents.py:649 | "high" iff more than 70% of the reviewed items show progress, "medium" iff some but not that many do, and "low" iff none do. |
| EveningTracker.SummaryEntry | ai_agents.py:639-650 | The entry counts the reviewed items, those with progress (a progress text without "ничего") and those needing help; both counts are at most the number reviewed. The gratitude theme is the first 100 characters of the answer. |
| EveningTracker.Remember | ai_agents.py:671-675 | The new entry is last and at most 30 entries are kept, dropping the oldest ones. |
| EveningTracker.SummaryReply | ai_agents.py:635-686 | When the language model answers: the summary is stored, the entry is remembered, and the session is completed and stamped. When it fails: nothing changes and the error reply is given. |
| EveningTracker.ProcessMessage | ai_agents.py:499-531 | Without a user record or a stored session, nothing changes. Otherwise the user's turn is logged and the state picks the handler: task_review runs ReviewReply (an index past the end is a processing error), gratitude runs GratitudeReply, summary runs SummaryReply, and starting or completed answer "unknown state". A handler failure changes nothing. Otherwise the session, with the reply logged, and the summaries are stored again; other users, the tasks, the user and the date stay the same. |
| EveningFacts.StartKeepsShape | ai_agents.py:480-487 | A fresh session satisfies the session invariant. Under it the index is within bounds, items before the index are completed, and later items are untouched. The state is task review iff items remain, and the session is stamped iff completed. |
| EveningFacts.ReviewKeepsShape | ai_agents.py:533-561 | A review reply keeps the session invariant. |
| EveningFacts.ProcessKeepsShape | ai_agents.py:499-531 | Every message keeps the invariant of the whole store, including at most 30 summaries per user. |
| EveningFacts.TwoRepliesPerItem | ai_agents.py:537-561 | From a fresh item, a non-empty first reply stores the progress and the help flag. It offers help iff a help phrase occurs. The second reply, whatever it is, advances to the next item. |
| EveningFacts.NoSecondSessionSameDay | ai_agents.py:525 | Once the summary is written, the completed session stays stored, so a new session on the same date is refused. |
| EveningFacts.CompletedSessionIsInert | ai_agents.py:518-519 | A completed session answers "unknown state" and changes nothing but its transcript. |
| EveningFacts.GratitudeMovesToSummary | ai_agents.py:581-589 | In the gratitude state the answer is stored as given and the session moves to summary, with the reviews, the index and the long-term memory unchanged. |
| EveningFacts.StartLostAsWritten | ai_agents.py:486-504 | With the save as written, a start that reports success leaves no session in the file, so the next message gets "session not found". |
| EveningFacts.StartingSessionIsInert | ai_agents.py:518-519 | A session still in the starting state answers every message with "unknown state" and changes nothing but its transcript. |
| Onboarding.StepNumber | tracker.py:109-121 | Every step maps into 1..6, and any unknown step maps to 1. |
| Onboarding.StepNumberFollowsOrder | tracker.py:111-120 | Step numbers never decrease along the wizard's order, and the two anxiety steps share number 2. |
| Onboarding.ProgressBar | tracker.py:103-107 | For 0 ≤ k ≤ n the bar is k filled glyphs, then n−k empty ones, a space, and "k/n". |
| Onboarding.ProgressNeverShrinks | tracker.py:103-121 | A glyph filled at one step stays filled at every later step. |
| Onboarding.NewTrackerUser | tracker.py:27-44 | A new user has the given id, starts at the greeting (step 1) with started_at = now, is not completed, and has no answers, goals or history. Of the notification flags, only "enabled" is on. |
| Onboarding.ToggleGoal | tracker.py:325-331 | An absent goal is appended. A present goal has one occurrence removed. Other goals keep their membership, and a list without duplicates stays without duplicates. |
| Onboarding.ToggleGoalTwice | tracker.py:325-331 | Toggling a goal twice restores membership, and restores the exact list when the goal was absent. |
| Onboarding.RemoveFirst | tracker.py:329 | Removing a present element shortens the list by one and removes exactly one occurrence. |
| Onboarding.ToggleFlag | tracker.py:346-350 | Exactly one flag is negated, with a missing key read as false. Every other flag is unchanged. |
| Onboarding.ToggleFlagTwice | tracker.py:346-350 | Toggling a flag twice restores every flag's value, and restores the exact map when the key was present. |
| Onboarding.ToggleMissingMasterSwitch | tracker.py:349 | A missing "enabled" key reads as on, and the first toggle of it also leaves it on. |
| Onboarding.PadTo | tracker.py:300-301 | The answers are padded with zeros up to a length, and the old answers are kept as a prefix. |
| Onboarding.SetAnswer | tracker.py:300-303 | For an index q ≥ 0 the list grows to max(length, q+1), answer q is the score and the other entries are unchanged. A negative q counts from the end, as a Python index does. An index before the start raises. |
| Onboarding.AnswerNext | tracker.py:300-303 | Answering the next unanswered question appends the score. |
| Onboarding.ShowQuestion | tracker.py:495-500 | A question index of 5 or more finishes the survey and sets the step to goals. Indices in range, negative ones included, show that question. An index below −5 raises. |
| Onboarding.AnswerCallback | tracker.py:293-307 | An answer button changes only the answers, plus the step when the survey ends. |
| Onboarding.BackCallback | tracker.py:309-318 | "Back" changes nothing except the step when it reaches the end of the survey. |
| Onboarding.Chat | tracker.py:206-249 | On an answer from the language model, one user/assistant pair is appended and the history is trimmed to its last 20 entries. The user is also marked as having met the mentor. On a failed call the record is unchanged. |
| Onboarding.Complete | tracker.py:743-746 | The wizard is marked completed and the step becomes completed; nothing else changes. |
| Onboarding.Callback | tracker.py:266-401 | The user id and start time never change. Completion changes only on the completion button. Answers change only on the survey start or an answer button, goals only on a goal toggle, flags only on a notification toggle, and the history only on "meet the mentor" with an answer. |
| Onboarding.WelcomeMessage | tracker.py:403-418 | A message during the wizard re-shows the current step. At the completion step it also completes the wizard. |
| Onboarding.Message | tracker.py:251-264 | A finished user bypasses the wizard. They get a mentor answer iff they have met the mentor and the text is not all whitespace, using Python's whitespace set; otherwise the status screen. An unfinished user goes through the wizard. |
| OnboardingFacts.SplitAnswerData | tracker.py:294-297 | The data of an answer button splits on '_' into five fields, with the question and score in fields 3 and 4. |
| OnboardingFacts.AnswerButton | tracker.py:293-307 | Pressing answer button (q, score) pads the answers to max(length, q+1), sets answer q, and shows question q+1. |
| OnboardingFacts.BackButton | tracker.py:309-318 | "Back" from question q > 0 shows question q−1. From question 0 it shows the intro, and the step is unchanged. |
| OnboardingFacts.GoalButton | tracker.py:325-333 | A goal button toggles exactly the goal named after the prefix and shows the goals screen. |
| OnboardingFacts.NotificationButton | tracker.py:346-352 | A notification button toggles exactly the flag named after the prefix and shows the notifications screen. |
| OnboardingFacts.Navigation | tracker.py:277-369 | Each navigation button sets its fixed target step, shows its screen and changes nothing else. |
| OnboardingFacts.AnxietyStart | tracker.py:282-286 | Starting the survey sets the survey step, clears the answers and shows question 0. |
| OnboardingFacts.MeetMentor | tracker.py:371-372 | "Meet the mentor" runs one mentor chat with the greeting message. |
| OnboardingFacts.MentorContinueButton | tracker.py:374-387 | "Continue" only shows the chat hint. |
| OnboardingFacts.StartMainButton | tracker.py:394-401 | "Start" only shows the ready screen. |
| OnboardingFacts.CompletionButton | tracker.py:389-392 | The completion button completes the wizard and shows the completion screen. |
| OnboardingFacts.CompletionBypassesWizard | tracker.py:259-261 | After completion, every message goes to the main tracker: the step stays completed and the user gets either the status screen or a mentor answer. |
| OnboardingFacts.FullQuestionnaire | tracker.py:282-307 | Starting the survey and pressing one answer for each of the five questions in order gives exactly those five answers. It also moves the step to goals and shows the results. |
| OnboardingFacts.ChatKeepsShape | tracker.py:235-240 | The mentor history keeps alternating user/assistant entries, starting with a user entry, and its length stays even and at most 20. |
| OnboardingFacts.CallbackKeepsShape | tracker.py:266-401 | Every callback keeps that history shape. |
| OnboardingFacts.MessageKeepsShape | tracker.py:251-264 | Every message keeps that history shape. |
| Notifications.Recipients | notifications.py:113-120 | A user receives a scheduled job iff "enabled" (default on) and the job's flag (default off) are both set and the wizard is completed. |
| Notifications.DigestRecipients | notifications.py:109-122 | The digest goes exactly to the users passing that gate for "daily_digest". |
| Notifications.ReminderRecipients | notifications.py:137-150 | Reminders go exactly to the users passing that gate for "deadline_reminders". |
| Notifications.SendsNewTaskNotice | notifications.py:263-266 | The new-task notice is sent iff "enabled" is missing or on and "new_task_notifications" is present and on. |
| Notifications.NewTaskNoticeIgnoresWizard | notifications.py:255-266 | Unlike the scheduled jobs, the new-task notice does not depend on whether the wizard is completed. |
| Notifications.NewUserGetsNothing | notifications.py:254-266 | A user with the wizard's default flags gets no digest, no reminder and no new-task notice. |
| Notifications.DigestToggleSubscribes | notifications.py:113-122 | Switching the digest flag on puts a completed, enabled user on the digest list. |
| Notifications.CompletedToday | notifications.py:276-288 | A task is listed iff it is completed, has a non-zero completion stamp, and was stamped at or after now − 24 h. Each listed task appears as often as in the task list, so the digest's count is the number of such entries. |
| Notifications.CompletedTodayConcat | notifications.py:276-288 | The selection keeps list order: selecting from a concatenation is the concatenation of the selections. |
| Notifications.CompletedTodayWindow | notifications.py:279-285 | A completed task stamped in the past is listed iff it was stamped at most 24 hours ago. |
| Notifications.UpcomingDeadlines | notifications.py:290-305 | The result is sorted by time left. It is a permutation of the tasks that have a non-zero due date, are pending or in progress, and are due by now + hours. Overdue tasks are included. |
| Notifications.UpcomingComplete | notifications.py:296-301 | Every task inside that window is in the list, paired with its time left. |
| Notifications.UrgentAreActiveImportant | notifications.py:173-174 | The urgent tasks are, as a multiset, exactly the pending or in-progress tasks with priority high or urgent. |
| Notifications.UrgentTasks | notifications.py:173-174 | Every listed task is pending or in progress and high or urgent. The list is the important pending tasks followed by the important in-progress tasks, each in stored order, so no pending task comes after an in-progress one. |
| Notifications.TipOfDay | notifications.py:200-206 | The Pomodoro tip iff more than 3 urgent tasks. The rest tip iff at most 3 urgent and nothing pending or in progress. The default tip otherwise. |
| Notifications.DailyDigest | notifications.py:158-213 | The digest counts pending, in-progress and recently completed tasks. It lists the first min(3, urgent) urgent tasks plus a count of the rest, and picks the tip from those counts. |
| Notifications.RestTipWhenIdle | notifications.py:201-204 | The rest tip is given iff no task is pending or in progress. |
| Notifications.Wording | notifications.py:234-239 | Less than an hour left (including overdue) gives "less than an hour". Under a day gives the whole hours. Otherwise the whole days. |
| Notifications.DeadlineReminder | notifications.py:215-252 | Nothing is sent iff no deadline is within 24 h. Otherwise the reminder counts them all, lists the first min(5, count) with their wording, and counts the rest. |
| Notifications.ReminderSoonestFirst | notifications.py:303-304 | Listed reminder lines are in non-decreasing due-date order. |
| Orchestrator.NextStep | enhanced_ai_agents.py:104-115 | Each successor is one step closer to completed, measured by steps remaining. Any unknown step, completion included, goes straight to completed. The step number never decreases. |
| Orchestrator.NextFollowsOrder | enhanced_ai_agents.py:107-114 | Along the wizard's order each step's successor is the next step. |
| Orchestrator.AdvanceReachesCompleted | enhanced_ai_agents.py:104-115 | Applying the successor at least "remaining" times from any step reaches completed. |
| Orchestrator.SevenStepsComplete | enhanced_ai_agents.py:104-115 | Seven applications reach completed from any step. |
| Orchestrator.UpdateTask | enhanced_ai_agents.py:208-229 | Field "status" goes to the store's status update and "priority" to its priority update. Any other field fails without touching the store. Success means a known field and a matching (id, user) task. |
| Orchestrator.FilterTasks | enhanced_ai_agents.py:260-276 | Ensures the user row. Lists exactly the user's tasks that pass the status filter and, when a priority is given, have that priority, each as often as it is stored. The list stays newest first. |
| Orchestrator.StartEvening | enhanced_ai_agents.py:357-379 | Accepted iff the user has a pending or in-progress task, with tasks_count the length of the pending list plus the in-progress list. There is no same-day check. |
| Orchestrator.StartEveningCountsActive | enhanced_ai_agents.py:361 | tasks_count is the number of the user's active tasks. |
| Orchestrator.StartEveningIgnoresSessions | enhanced_ai_agents.py:369-376 | The result does not depend on stored sessions, because the date is computed and never used. |
| Orchestrator.Truncate | enhanced_ai_agents.py:607 | `int()` of a float truncates toward zero. |
| Orchestrator.CoerceInt | enhanced_ai_agents.py:597-607 | A missing, null or non-numeric value counts as 0. An int counts as itself, a bool as 0 or 1, and a float is truncated toward zero, as `int()` does after the isinstance guard. |
| Orchestrator.GetUserState | enhanced_ai_agents.py:588-617 | total_tasks is kept when it is a number (int, bool or float) and is 0 otherwise. active = coerced total − coerced completed. A truthy completion rate is passed through unchanged, and a falsy or missing one (including an empty list or dict) becomes 0. The welcome step is always completed. |
| Orchestrator.AnalyticsJson | task_database.py:285-289 | The analytics dictionary carries total, completed and rate under their keys. |
| Orchestrator.StateFromStore | enhanced_ai_agents.py:593-613 | With the store's own analytics, total is kept, and active = total − completed is at least pending + in-progress. |
| Orchestrator.CoerceReal | enhanced_ai_agents.py:457-463 | An int or float rate is kept as a real, a bool becomes 1.0 or 0.0, and anything else becomes 0.0. |
| Orchestrator.GetUserContext | enhanced_ai_agents.py:445-465 | recent_tasks is the prefix of min(5, n) tasks. total and rate are coerced. |
| Orchestrator.ContextFromStore | enhanced_ai_agents.py:449-464 | Fed from the store, total is the user's task count and the rate is in [0, 100]. Every recent task is one of the user's. |
| Orchestrator.Delegate | enhanced_ai_agents.py:559-582 | The four named agents are chosen iff the name is exactly theirs. Every other value goes to the mentor. |
| Orchestrator.Route | enhanced_ai_agents.py:514-557 | A failed or non-object routing answer goes to AI_MENTOR with confidence 0.1. Otherwise a present agent name and a present confidence are passed through as given; a missing agent means AI_MENTOR and a missing confidence means 0.5. The chosen agent is Delegate of the name. |
| Orchestrator.RoutingTotal | enhanced_ai_agents.py:532-582 | A non-mentor agent is chosen only when the answer names one of the four agents exactly. |
| Orchestrator.WelcomeDelegation | enhanced_ai_agents.py:562-565 | The welcome agent moves one step closer to completed from the state's welcome step (completed stays), and from the greeting to anxiety_intro when there is no state. |
| Orchestrator.WelcomeDelegationFixed | enhanced_ai_agents.py:562-565 | With the state the orchestrator builds, the welcome agent's successor step is always completed. When the state lookup failed it is anxiety_intro, starting from greeting. |
| Text.ParseInt | tracker.py:296-297 | `int()` of a string: after stripping Python's whitespace, an optional sign and at least one decimal digit give the number, negated for '-'; anything else raises. |
| Text.ParseIntPrinted | tracker.py:296-297 | Parsing a printed integer gives it back. |
| Text.ParseIntPadded | tracker.py:296-297 | Surrounding whitespace, an explicit sign and leading zeros do not change the value: " +007 " parses to 7 and "-007" to -7. |
| Text.SplitJoin | tracker.py:295 | Splitting a join of parts that do not contain the separator gives back the parts. |
| Text.ContainsAt | ai_agents.py:542 | A substring occurs iff it occurs at some position. |

## Left out

- Transport, interface and I/O. This covers Telegram handlers, keyboards, message text and Markdown, and the files behind the SQLite and YAML stores. Loads and SQLite statements are taken to succeed, and SQLite exceptions are not modelled. The YAML save is the one exception: it is modelled both as written and as intended (see "## Findings").
- TaskManagerAgent: every mutating tool call (`_create_task`, `_update_task_status`, `_update_task_priority`, `_delete_task`) is modelled with the intended save (`AgentStore.SaveRecord`). As written, every save raises at ai_agents.py:166, so each of these calls answers "Ошибка сохранения" (ai_agents.py:252, 316, 345, 372) and leaves tracker_data.yaml empty. `TaskManagerFacts.CreateLostAsWritten` proves this for the create.
- EveningTracker.StartSession: the result stores the new session with the intended save. As written, `start_evening_session` ignores the failed save at ai_agents.py:487 and reports success with nothing stored; `EveningFacts.StartLostAsWritten` proves that the next message then gets "session not found". The model also assumes the real `TrackerUserData`. Under the fallback class at ai_agents.py:70-73, a record is built with only `user_id` and `tasks` plus the stored keys (ai_agents.py:136-137). For a record without a `current_evening_session` key, the check at ai_agents.py:477 raises AttributeError, and the source answers with success false and the error text where the model answers `Started`.
- Language models, LangChain chains and the agent executors. Their outputs are parameters. The router's JSON answer is an input (`RouterAnswer`), and the texts of `_format_user_state` and `process_notification_request` are not modelled.
- The scheduler thread, asyncio and the `if not self.bot` guards (notifications.py:35-100). `now` is a parameter.
- TaskDatabase.GetTaskAnalytics: the rate is exact; the source rounds it to two decimals (task_database.py:287).
- TaskDatabase.GetTasks: rows with equal created_at are ordered by the sort, but SQLite leaves their order unspecified. Only the order by created_at is promised.
- EveningTracker.Productivity: "high" is decided by 10·p > 7·n. The source compares p with the float n·0.7, which rounds below 7n/10 for some n; at n = 90 and p = 63 the source says high where the exact rule says medium.
- Onboarding: the anxiety average, its rounding and its level thresholds are floats (tracker.py:528-544, 709-715). The model neither computes anxiety_level nor sets custom_goal.
- Text.Lower: lower-cases ASCII and the basic Cyrillic alphabet only. Python's `str.lower` covers all of Unicode.
- Text.ParseInt: accepts ASCII digits only. Python's `int()` also accepts other Unicode decimal digits, and underscores between digits.
- Notifications: the digest and reminder texts and `format_task_text` are not modelled, and the task helpers `get_tasks_by_status` and `create_task` of the tracker module are not part of this model. Hours left are compared in whole seconds rather than as a float.
- The `int(user_id_str)` conversion of the broadcast loops and its failure are not modelled. The model's user map is keyed by integers.
- EveningTracker.OpenSession: the model assumes a session class that starts in task review with an index of 0 and an empty transcript, the only start from which the flow proceeds. tracker.py defines no `EveningTrackingSession`, so the import at ai_agents.py:18-25 falls back to the classes at ai_agents.py:75-88. Those sessions have no `state`, `current_task_index` or `ai_conversation`. A stored session without an `ai_conversation` key makes `process_evening_message` raise at ai_agents.py:509; the method then answers with the error text and saves nothing. The model does not follow that fallback.
- EveningTracker.ProcessMessage: assumes the real `TrackerUserData` and session classes. Under the fallback classes at ai_agents.py:70-88, an object has only the keys that were stored, and the outcome depends on them:
  - no user record, or a stored `current_evening_session` that is empty: the "not found" text of ai_agents.py:503-504, as in the model;
  - a record without a `current_evening_session` key: the test at :503 raises AttributeError, and the answer is the error text of :531;
  - a stored session without an `ai_conversation` key: the same error text, raised at :509.

  In the last two cases nothing is saved, and the model instead dispatches by state as the real classes would.
- EveningTracker.SummaryReply: assumes the real `TrackerUserData`, where `daily_summaries` always exists. Under the fallback class at ai_agents.py:70-73, a record without a stored `daily_summaries` key makes ai_agents.py:671 raise AttributeError. The source then answers "Произошла ошибка при создании дневного саммари." and neither remembers the summary nor completes the session, where the model appends the entry.
- Deleting a task by a phrase, confirming a delete, and choosing among several matches are not modelled: that code is not part of this model.
- `route_request` re-fetching the state when the state passed in is empty is not modelled. `WelcomeDelegation` takes the state it ends up with.
- `_delegate_to_agent` returns only the welcome agent's text and drops its next step. The model proves which step it would be (`WelcomeDelegationFixed`), but nothing stores it.
- The evening agent of the newer code (`process_evening_message` with a session state) and the mentor chat are language-model calls only. Apart from the start check, they are not modelled.
- TaskDatabase.UpdateUserData: a `user_id` field returns false in the model, because user_id is not among the updatable columns. In the source such a field clashes with the `user_id` parameter of `update_user_data(self, user_id, **kwargs)` (task_database.py:330), so the call raises TypeError while its arguments are bound, before the method's try block, and nothing reaches SQL.
- TaskDatabase.UpdateUserData: column names are compared exactly. SQLite matches them case-insensitively, so a field such as "Step" is refused by the model but updates the step column in the source.

## Findings

| source | as written | input that shows it | evidently intended | confidence | as-written member | corrected member |
|---|---|---|---|---|---|---|
| ai_agents.py:164-169 | `_save_user_data` opens tracker_data.yaml with `'w'`, which empties it, and then calls `yaml.dump(data, f, ensure_ascii=False, indent=2)`. `ensure_ascii` is a keyword of `json.dump`; PyYAML's `dump_all` does not accept it and raises TypeError, and the handler returns False. | Any call, for example `_create_task` with `{"user_id": 1, "title": "x"}`: the answer is "Ошибка сохранения", the file is left empty, and a following `_update_task_status` for the same task answers "Пользователь не найден". | The user's record is written back next to the other users' records, and the call reports success (a dump with `allow_unicode=True` in place of `ensure_ascii=False`). | high; not executed | TaskManagerFacts.CreateLostAsWritten | AgentStore.SaveRecord |

=== FILE: agent_store.dfy ===
/** The per-user records of the YAML-backed agents: a user's task list, the
    stored evening session and the rolling list of daily summaries. The whole
    file is a map from user id to one such record. Loading it is taken to
    succeed; saving it is modelled both as written and as intended. */
module AgentStore {
  import opened Seqs
  import opened Tasks

  datatype SessionState = Starting | TaskReview | Gratitude | Summary | Completed

  /** One task under evening review. */
  datatype ReviewItem = ReviewItem(
    taskId: string,
    taskTitle: string,
    progress: string,
    needsHelp: bool,
    helpProvided: string,
    aiSupport: string,
    completed: bool)

  /** Where the reflection goes after an item is closed. */
  datatype NextStep = NextTask(number: nat, total: nat, title: string) | AskGratitude

  /** The assistant side of the evening conversation; `text` fields carry
      the language model's output, which the model does not interpret. */
  datatype Reply =
    | SessionNotFound
    | ProcessingError
    | UnknownState
    | Support(text: string)
    | HelpOffer(text: string)
    | Advance(help: Option<string>, next: NextStep)
    | GratitudeAck(text: string)
    | SummaryReady(text: string)
    | SummaryError

  datatype Turn = UserTurn(message: string) | AssistantTurn(reply: Reply)

  datatype EveningSession = EveningSession(
    userId: int,
    date: string,
    state: SessionState,
    reviews: seq<ReviewItem>,
    index: nat,
    gratitude: string,
    summary: string,
    conversation: seq<Turn>,
    completedAt: Option<int>)

  /** One entry of the long-term memory kept after each evening. */
  datatype DailySummary = DailySummary(
    date: string,
    reviewed: nat,
    withProgress: nat,
    needingHelp: nat,
    gratitudeTheme: string,
    productivity: string,
    summaryText: string)

  datatype AgentUser = AgentUser(
    tasks: seq<Task>,
    session: Option<EveningSession>,
    summaries: seq<DailySummary>)

  type Store = map<int, AgentUser>

  /** A user record as first created by the task manager: no tasks yet. */
  const NewAgentUser: AgentUser := AgentUser([], None, [])

  /** The end of a save: what `_save_user_data` returned and what the file
      holds afterwards. */
  datatype Saved = Saved(ok: bool, store: Store)

  /** `_save_user_data` as written. `open(TRACKER_STORAGE, 'w')` empties the
      file, and then `yaml.dump(data, f, ensure_ascii=False, indent=2)`
      raises TypeError, because `ensure_ascii` is a keyword of `json.dump`
      that PyYAML's `dump_all` does not take. The handler returns False and
      the empty file loads as `{}`, so every record is gone. */
  function SaveAsWritten(store: Store, user: int, record: AgentUser): (r: Saved)
    ensures !r.ok
    ensures forall u :: u !in r.store
  {
    Saved(false, map[])
  }

  /** `_save_user_data` as intended (a dump that accepts its keywords): the
      record replaces the user's entry and every other entry read back from
      the file is written out unchanged. */
  function SaveRecord(store: Store, user: int, record: AgentUser): (r: Saved)
    ensures r.ok
    ensures r.store.Keys == store.Keys + {user}
    ensures r.store[user] == record
    ensures forall u :: u in store && u != user ==> r.store[u] == store[u]
  {
    Saved(true, store[user := record])
  }
}

=== FILE: evening_facts.dfy ===
/** Properties of the evening reflection across messages: the shape every
    stored session keeps, the two-reply protocol of a review item, and the
    once-a-day rule. */
module EveningFacts {
  import opened Seqs
  import opened Tasks
  import opened AgentStore
  import opened EveningTracker

  /** The shape of a session between two messages: items before the index
      are closed, the item at the index is open, items after it are
      untouched; the state follows the index. */
  ghost predicate SessionShape(s: EveningSession)
  {
    && |s.reviews| > 0
    && s.index <= |s.reviews|
    && s.state != Starting
    && (s.state == TaskReview <==> s.index < |s.reviews|)
    && (s.state == Completed <==> s.completedAt.Some?)
    && (forall k :: 0 <= k < s.index ==> s.reviews[k].completed)
    && (s.index < |s.reviews| ==> !s.reviews[s.index].completed)
    && (forall k :: s.index < k < |s.reviews| ==> IsFresh(s.reviews[k]))
  }

  /** What every stored user record keeps: a well-shaped session, if any,
      and at most thirty remembered days. */
  ghost predicate StoreShape(store: Store)
  {
    forall u :: u in store ==>
      && |store[u].summaries| <= SUMMARY_LIMIT
      && (store[u].session.Some? ==> SessionShape(store[u].session.value))
  }

  lemma StartKeepsShape(store: Store, user: int, today: string)
    requires StoreShape(store)
    ensures StartSession(store, user, today).Started? ==> StoreShape(StartSession(store, user, today).store)
  {
  }

  /** One review reply keeps the shape. */
  lemma {:induction false} ReviewKeepsShape(s: EveningSession, message: string, llm: Option<string>)
    requires SessionShape(s) && s.state == TaskReview
    ensures ReviewReply(s, message, llm).Some? ==> SessionShape(ReviewReply(s, message, llm).value.0)
  {
    var r := ReviewReply(s, message, llm);
    if r.Some? {
      var s' := r.value.0;
      var cur := s.reviews[s.index];
      if cur.progress != "" {
        assert s'.index == s.index + 1;
        assert s'.reviews[s.index].completed;
        forall k | 0 <= k < s'.index
          ensures s'.reviews[k].completed
        {
          if k < s.index {
            assert s'.reviews[k] == s.reviews[k];
          }
        }
      }
    }
  }

  /** Storing a well-shaped session with at most thirty days keeps the
      store in shape. */
  lemma SaveKeepsShape(store: Store, user: int, s: EveningSession, summaries: seq<DailySummary>, reply: Reply)
    requires StoreShape(store) && user in store
    requires SessionShape(s) && |summaries| <= SUMMARY_LIMIT
    ensures StoreShape(Save(store, user, s, summaries, reply).store)
  {
    assert SessionShape(s.(conversation := s.conversation + [AssistantTurn(reply)]));
  }

  /** `process_evening_message` keeps every stored record in shape. */
  lemma {:induction false} ProcessKeepsShape(store: Store, user: int, message: string,
                                             llm: Option<string>, now: int)
    requires StoreShape(store)
    ensures StoreShape(ProcessMessage(store, user, message, llm, now).store)
  {
    if user in store && store[user].session.Some? {
      var u := store[user];
      var s := u.session.value.(conversation := u.session.value.conversation + [UserTurn(message)]);
      assert SessionShape(s);
      var r := ProcessMessage(store, user, message, llm, now);
      match s.state
      case TaskReview =>
        if s.index < |s.reviews| && ReviewReply(s, message, llm).Some? {
          var next := ReviewReply(s, message, llm).value;
          ReviewKeepsShape(s, message, llm);
          SaveKeepsShape(store, user, next.0, u.summaries, next.1);
          assert r == Save(store, user, next.0, u.summaries, next.1);
        }
      case Gratitude =>
        if llm.Some? {
          var next := GratitudeReply(s, message, llm).value;
          SaveKeepsShape(store, user, next.0, u.summaries, next.1);
          assert r == Save(store, user, next.0, u.summaries, next.1);
        }
      case Summary =>
        var (s', summaries, reply) := SummaryReply(s, u.summaries, llm, now);
        SaveKeepsShape(store, user, s', summaries, reply);
        assert r == Save(store, user, s', summaries, reply);
      case Completed =>
        SaveKeepsShape(store, user, s, u.summaries, UnknownState);
        assert r == Save(store, user, s, u.summaries, UnknownState);
      case Starting =>
    }
  }

  /** Each review item takes exactly two replies: the first records the
      progress and leaves the item open, the second closes it and moves the
      index on by one. */
  lemma {:induction false} TwoRepliesPerItem(store: Store, user: int, m1: string, m2: string,
                                             text1: string, text2: string, now1: int, now2: int)
    requires user in store && store[user].session.Some?
    requires var s := store[user].session.value;
             s.state == TaskReview && s.index < |s.reviews| && IsFresh(s.reviews[s.index])
    requires m1 != ""
    ensures var s := store[user].session.value;
            var i := s.index;
            var r1 := ProcessMessage(store, user, m1, Some(text1), now1);
            var r2 := ProcessMessage(r1.store, user, m2, Some(text2), now2);
            var s1 := r1.store[user].session.value;
            var s2 := r2.store[user].session.value;
            var help := AsksForHelp(m1);
            && s1.index == i && s1.state == TaskReview
            && s1.reviews[i] == s.reviews[i].(progress := m1, needsHelp := help)
            && (r1.reply.HelpOffer? <==> help)
            && s2.index == i + 1
            && s2.state == (if i + 1 == |s.reviews| then Gratitude else TaskReview)
            && s2.reviews[i] == s.reviews[i].(progress := m1, needsHelp := help,
                                              helpProvided := if help then m2 else "",
                                              aiSupport := if help then text2 else "",
                                              completed := true)
  {
    var s := store[user].session.value;
    var i := s.index;
    var r1 := ProcessMessage(store, user, m1, Some(text1), now1);
    var sIn := s.(conversation := s.conversation + [UserTurn(m1)]);
    var a := ReviewReply(sIn, m1, Some(text1)).value;
    assert r1 == Save(store, user, a.0, store[user].summaries, a.1);
    var s1 := r1.store[user].session.value;
    assert s1.index == i && s1.state == TaskReview;
    assert s1.reviews[i].progress == m1;
    var sIn2 := s1.(conversation := s1.conversation + [UserTurn(m2)]);
    var b := ReviewReply(sIn2, m2, Some(text2)).value;
    var r2 := ProcessMessage(r1.store, user, m2, Some(text2), now2);
    assert r2 == Save(r1.store, user, b.0, r1.store[user].summaries, b.1);
    var s2 := r2.store[user].session.value;
    var help := AsksForHelp(m1);
    assert s1.reviews[i] == s.reviews[i].(progress := m1, needsHelp := help);
    assert r1.reply.HelpOffer? <==> help;
    assert s2.index == i + 1;
    assert s2.state == (if i + 1 == |s.reviews| then Gratitude else TaskReview);
    assert s2.reviews[i] == s.reviews[i].(progress := m1, needsHelp := help,
                                          helpProvided := if help then m2 else "",
                                          aiSupport := if help then text2 else "",
                                          completed := true);
  }

  /** Once the summary is written the session stays stored with its date,
      so a second session the same day is refused. */
  lemma {:induction false} NoSecondSessionSameDay(store: Store, user: int, message: string, text: string, now: int)
    requires user in store && store[user].session.Some?
    requires store[user].session.value.state == Summary
    ensures var r := ProcessMessage(store, user, message, Some(text), now);
            && r.reply == SummaryReady(text)
            && r.store[user].session.value.state == Completed
            && StartSession(r.store, user, store[user].session.value.date).Refused?
  {
    var r := ProcessMessage(store, user, message, Some(text), now);
    assert r.store[user].session.value.date == store[user].session.value.date;
  }

  /** A completed session answers every further message with "unknown
      state" and changes nothing but its transcript. */
  lemma CompletedSessionIsInert(store: Store, user: int, message: string, llm: Option<string>, now: int)
    requires user in store && store[user].session.Some?
    requires store[user].session.value.state == Completed
    ensures var r := ProcessMessage(store, user, message, llm, now);
            var (before, after) := (store[user].session.value, r.store[user].session.value);
            && r.reply == UnknownState
            && after == before.(conversation := after.conversation)
            && r.store[user].summaries == store[user].summaries
  {
  }

  /** The gratitude answer is stored as given and the session moves on to
      the summary; the reviews and the long-term memory stay as they were. */
  lemma GratitudeMovesToSummary(store: Store, user: int, message: string, text: string, now: int)
    requires user in store && store[user].session.Some?
    requires store[user].session.value.state == Gratitude
    ensures var r := ProcessMessage(store, user, message, Some(text), now);
            var (before, after) := (store[user].session.value, r.store[user].session.value);
            && r.reply == GratitudeAck(text)
            && after.state == Summary && after.gratitude == message
            && after.reviews == before.reviews && after.index == before.index
            && r.store[user].summaries == store[user].summaries
  {
  }

  /** A session that never left `starting` cannot progress: every message
      is answered with "unknown state". */
  lemma StartingSessionIsInert(store: Store, user: int, message: string, llm: Option<string>, now: int)
    requires user in store && store[user].session.Some?
    requires store[user].session.value.state == Starting
    ensures var r := ProcessMessage(store, user, message, llm, now);
            var (before, after) := (store[user].session.value, r.store[user].session.value);
            && r.reply == UnknownState
            && after == before.(conversation := after.conversation)
  {
  }

  /** With the save as written, a start still reports success, but the
      session is not in the file: the next message finds no session. */
  lemma StartLostAsWritten(store: Store, user: int, today: string, message: string,
                           llm: Option<string>, now: int)
    requires StartSession(store, user, today).Started?
    ensures var lost := SaveAsWritten(store, user, store[user].(session := Some(StartSession(store, user, today).session))).store;
            ProcessMessage(lost, user, message, llm, now) == Step(lost, SessionNotFound)
  {
  }
}

=== FILE: evening_tracker.dfy ===
/** The evening reflection of the YAML-backed assistant: a session walks the
    user's active tasks one by one (two replies per task), asks for one
    gratitude answer, then writes a daily summary into the user's long-term
    memory. Language-model output is an argument: `Some(text)` when the call
    answered, `None` when it raised. */
module EveningTracker {
  import opened Seqs
  import opened Tasks
  import opened Text
  import opened AgentStore

  /** Lower-cased phrases that mark a first reply as "no progress". */
  const HELP_PHRASES: seq<string> := ["ничего", "не делал", "не получилось", "проблема", "застрял"]

  /** Whether the lower-cased reply contains one of the help phrases. */
  predicate AsksForHelp(message: string)
  {
    exists k :: 0 <= k < |HELP_PHRASES| && Contains(Lower(message), HELP_PHRASES[k])
  }

  /** The review item a task starts with. */
  function NewReview(t: Task): ReviewItem
  {
    ReviewItem(t.id, t.title, "", false, "", "", false)
  }

  predicate IsFresh(item: ReviewItem)
  {
    item.progress == "" && !item.needsHelp && item.helpProvided == "" && item.aiSupport == "" && !item.completed
  }

  // ---------------------------------------------------------------------
  // Starting a session

  datatype StartError = NoUser | NoActiveTasks | AlreadyToday

  datatype StartResult =
    | Started(store: Store, session: EveningSession, tasksCount: nat)
    | Refused(reason: StartError)

  /** `start_evening_session`: refused without a user, without pending or
      in-progress tasks, or when the stored session is dated today (whether
      it finished or not); otherwise one fresh review item per active task,
      in task order. */
  function StartSession(store: Store, user: int, today: string): (r: StartResult)
    ensures user !in store <==> r == Refused(NoUser)
    ensures r == Refused(NoActiveTasks) <==>
      user in store && forall i :: 0 <= i < |store[user].tasks| ==> !IsActive(store[user].tasks[i])
    ensures r == Refused(AlreadyToday) <==>
      && user in store
      && (exists i :: 0 <= i < |store[user].tasks| && IsActive(store[user].tasks[i]))
      && store[user].session.Some? && store[user].session.value.date == today
    ensures r.Started? ==>
      var (s, active) := (r.session, Filter(store[user].tasks, IsActive));
      && r.tasksCount == |s.reviews| == |active| > 0
      && (forall k :: 0 <= k < |active| ==> s.reviews[k] == NewReview(active[k]))
      && s.userId == user && s.date == today && s.state == TaskReview && s.index == 0
      && s.gratitude == "" && s.summary == "" && s.conversation == [] && s.completedAt == None
      && r.store == store[user := store[user].(session := Some(s))]
  {
    if user !in store then Refused(NoUser)
    else
      var active := Filter(store[user].tasks, IsActive);
      FilterNone(store[user].tasks, IsActive);
      if |active| == 0 then
        Refused(NoActiveTasks)
      else if store[user].session.Some? && store[user].session.value.date == today then
        Refused(AlreadyToday)
      else
        var s := OpenSession(user, today, active);
        Started(SaveRecord(store, user, store[user].(session := Some(s))).store, s, |active|)
  }

  /** A session reviewing `active` from its first item, with nothing said
      yet. */
  function OpenSession(user: int, today: string, active: seq<Task>): (s: EveningSession)
    ensures |s.reviews| == |active|
    ensures forall k :: 0 <= k < |active| ==> s.reviews[k] == NewReview(active[k])
    ensures s.userId == user && s.date == today && s.state == TaskReview && s.index == 0
    ensures s.gratitude == "" && s.summary == "" && s.conversation == [] && s.completedAt == None
  {
    var reviews := seq(|active|, k requires 0 <= k < |active| => NewReview(active[k]));
    EveningSession(user, today, TaskReview, reviews, 0, "", "", [], None)
  }

  // ---------------------------------------------------------------------
  // One reply at a time

  /** `_get_next_task_or_gratitude`: the index moves on by one; past the
      last item the session asks for gratitude. */
  function NextItem(s: EveningSession): (r: (EveningSession, NextStep))
    requires s.index < |s.reviews|
    ensures r.0 == s.(index := s.index + 1, state := r.0.state)
    ensures r.0.state == if s.index + 1 == |s.reviews| then Gratitude else s.state
    ensures r.1.AskGratitude? <==> s.index + 1 == |s.reviews|
    ensures r.1.NextTask? ==> r.1.number == s.index + 2 && r.1.total == |s.reviews|
                              && r.1.title == s.reviews[s.index + 1].taskTitle
  {
    var i := s.index + 1;
    if i < |s.reviews| then (s.(index := i), NextTask(i + 1, |s.reviews|, s.reviews[i].taskTitle))
    else (s.(index := i, state := Gratitude), AskGratitude)
  }

  /** `_handle_task_review`: the first reply records the progress (and
      whether help is needed); a second reply records the help request when
      help was needed and in any case closes the item. */
  function ReviewReply(s: EveningSession, message: string, llm: Option<string>): (r: Option<(EveningSession, Reply)>)
    requires s.index < |s.reviews|
    ensures r.Some? ==> |r.value.0.reviews| == |s.reviews| && r.value.0.conversation == s.conversation
    ensures r.Some? ==> forall k :: 0 <= k < |s.reviews| && k != s.index ==> r.value.0.reviews[k] == s.reviews[k]
    ensures var (cur, item) := (s.reviews[s.index], if r.Some? then r.value.0.reviews[s.index] else s.reviews[s.index]);
      && (cur.progress == "" ==>
            && (r.None? <==> llm.None?)
            && (r.Some? ==> r.value.0 == s.(reviews := r.value.0.reviews)
                            && item == cur.(progress := message, needsHelp := cur.needsHelp || AsksForHelp(message))
                            && (r.value.1.HelpOffer? <==> AsksForHelp(message))))
      && (cur.progress != "" && cur.needsHelp && cur.helpProvided == "" ==>
            && (r.None? <==> llm.None?)
            && (r.Some? ==> item == cur.(helpProvided := message, aiSupport := llm.value, completed := true)
                            && r.value.1 == Advance(llm, NextItem(s).1)))
      && (cur.progress != "" && !(cur.needsHelp && cur.helpProvided == "") ==>
            && r.Some?
            && item == cur.(completed := true)
            && r.value.1 == Advance(None, NextItem(s).1))
      && (cur.progress != "" && r.Some? ==> r.value.0 == NextItem(s).0.(reviews := r.value.0.reviews))
  {
    var cur := s.reviews[s.index];
    if cur.progress == "" then
      match llm
      case None => None
      case Some(text) =>
        var help := AsksForHelp(message);
        var item := cur.(progress := message, needsHelp := cur.needsHelp || help);
        var reply := if help then HelpOffer(text) else Support(text);
        Some((s.(reviews := s.reviews[s.index := item]), reply))
    else if cur.needsHelp && cur.helpProvided == "" then
      match llm
      case None => None
      case Some(text) =>
        var item := cur.(helpProvided := message, aiSupport := text, completed := true);
        var (s', next) := NextItem(s.(reviews := s.reviews[s.index := item]));
        Some((s', Advance(Some(text), next)))
    else
      var item := cur.(completed := true);
      var (s', next) := NextItem(s.(reviews := s.reviews[s.index := item]));
      Some((s', Advance(None, next)))
  }

  /** `_handle_gratitude`: stores the answer and moves on to the summary. */
  function GratitudeReply(s: EveningSession, message: string, llm: Option<string>): (r: Option<(EveningSession, Reply)>)
    ensures r.None? <==> llm.None?
    ensures r.Some? ==> r.value.0 == s.(gratitude := message, state := Summary)
    ensures r.Some? ==> r.value.1 == GratitudeAck(llm.value)
  {
    match llm
    case None => None
    case Some(text) => Some((s.(gratitude := message, state := Summary), GratitudeAck(text)))
  }

  // ---------------------------------------------------------------------
  // The daily summary

  /** A reply counts as progress when it is present and does not say
      "ничего" ("nothing"). */
  predicate HasProgress(item: ReviewItem)
  {
    item.progress != "" && !Contains(Lower(item.progress), "ничего")
  }

  function ReviewHasProgress(): ReviewItem -> bool
  {
    (item: ReviewItem) => HasProgress(item)
  }

  function ReviewNeedsHelp(): ReviewItem -> bool
  {
    (item: ReviewItem) => item.needsHelp
  }

  /** `high` above 70% of the reviewed tasks, `medium` with any progress,
      `low` otherwise; `withProgress > 0.7 * reviewed` in integers. */
  function Productivity(withProgress: nat, reviewed: nat): (level: string)
    ensures level == "high" <==> 10 * withProgress > 7 * reviewed
    ensures level == "medium" <==> 10 * withProgress <= 7 * reviewed && withProgress > 0
    ensures level == "low" <==> withProgress == 0 && 10 * withProgress <= 7 * reviewed
  {
    if 10 * withProgress > 7 * reviewed then "high"
    else if withProgress > 0 then "medium"
    else "low"
  }

  /** How many summaries the long-term memory keeps. */
  const SUMMARY_LIMIT: nat := 30

  /** The summary entry of a finished review. */
  function SummaryEntry(s: EveningSession, text: string): (entry: DailySummary)
    ensures entry.date == s.date && entry.reviewed == |s.reviews|
    ensures entry.withProgress == Count(s.reviews, ReviewHasProgress()) <= entry.reviewed
    ensures entry.needingHelp == Count(s.reviews, ReviewNeedsHelp()) <= entry.reviewed
    ensures entry.gratitudeTheme <= s.gratitude && |entry.gratitudeTheme| <= 100
    ensures |s.gratitude| <= 100 ==> entry.gratitudeTheme == s.gratitude
    ensures entry.productivity == Productivity(entry.withProgress, entry.reviewed)
    ensures entry.summaryText == text
  {
    var withProgress := Count(s.reviews, ReviewHasProgress());
    DailySummary(
      s.date, |s.reviews|, withProgress, Count(s.reviews, ReviewNeedsHelp()),
      Take(s.gratitude, 100), Productivity(withProgress, |s.reviews|), text)
  }

  /** Appends to the long-term memory, dropping the oldest entries past the
      limit. */
  function Remember(summaries: seq<DailySummary>, entry: DailySummary): (all: seq<DailySummary>)
    ensures |all| == if |summaries| < SUMMARY_LIMIT then |summaries| + 1 else SUMMARY_LIMIT
    ensures all[|all| - 1] == entry
    ensures all[..|all| - 1] == summaries[|summaries| + 1 - |all|..]
  {
    var all := KeepLast(summaries + [entry], SUMMARY_LIMIT);
    assert all[..|all| - 1] == summaries[|summaries| + 1 - |all|..];
    all
  }

  /** `_generate_daily_summary`: on a model failure nothing but the reply
      changes; otherwise a summary entry is remembered and the session is
      completed. */
  function SummaryReply(s: EveningSession, summaries: seq<DailySummary>, llm: Option<string>, now: int)
    : (r: (EveningSession, seq<DailySummary>, Reply))
    ensures llm.None? ==> r == (s, summaries, SummaryError)
    ensures llm.Some? ==>
      && r.0 == s.(summary := llm.value, state := Completed, completedAt := Some(now))
      && r.1 == Remember(summaries, SummaryEntry(s, llm.value))
      && r.2 == SummaryReady(llm.value)
  {
    match llm
    case None => (s, summaries, SummaryError)
    case Some(text) =>
      (s.(summary := text, state := Completed, completedAt := Some(now)),
       Remember(summaries, SummaryEntry(s, text)), SummaryReady(text))
  }

  // ---------------------------------------------------------------------
  // process_evening_message

  datatype Step = Step(store: Store, reply: Reply)

  /** The session with the user's turn appended. */
  function Logged(s: EveningSession, message: string): EveningSession
  {
    s.(conversation := s.conversation + [UserTurn(message)])
  }

  /** Stores the session with the assistant's turn appended. */
  function Save(store: Store, user: int, s: EveningSession, summaries: seq<DailySummary>, reply: Reply): (r: Step)
    requires user in store
  {
    var s' := s.(conversation := s.conversation + [AssistantTurn(reply)]);
    Step(SaveRecord(store, user, store[user].(session := Some(s'), summaries := summaries)).store, reply)
  }

  /** `process_evening_message`: the user's turn is logged, the reply is
      chosen by the session state, the assistant's turn is logged and the
      session is stored again, even after the summary completed it. A
      failure anywhere (a review index past the end, a model call that
      raised) leaves the store as it was. */
  function ProcessMessage(store: Store, user: int, message: string, llm: Option<string>, now: int): (r: Step)
    ensures user !in store || store[user].session.None? ==> r == Step(store, SessionNotFound)
    ensures r.reply == ProcessingError ==> r.store == store
    ensures r.store != store ==>
      && user in store && store[user].session.Some? && r.store.Keys == store.Keys
      && (forall u :: u in store && u != user ==> r.store[u] == store[u])
      && r.store[user].tasks == store[user].tasks
      && r.store[user].session.Some?
      && var (before, after) := (store[user].session.value, r.store[user].session.value);
         && after.conversation == before.conversation + [UserTurn(message), AssistantTurn(r.reply)]
         && after.userId == before.userId && after.date == before.date
    ensures user in store && store[user].session.Some? ==>
      var (s, summaries) := (Logged(store[user].session.value, message), store[user].summaries);
      && (s.state == TaskReview && s.index >= |s.reviews| ==> r == Step(store, ProcessingError))
      && (s.state == TaskReview && s.index < |s.reviews| ==>
            var next := ReviewReply(s, message, llm);
            && (next.None? ==> r == Step(store, ProcessingError))
            && (next.Some? ==> r == Save(store, user, next.value.0, summaries, next.value.1)))
      && (s.state == Gratitude ==>
            var next := GratitudeReply(s, message, llm);
            && (next.None? ==> r == Step(store, ProcessingError))
            && (next.Some? ==> r == Save(store, user, next.value.0, summaries, next.value.1)))
      && (s.state == Summary ==>
            var next := SummaryReply(s, summaries, llm, now);
            r == Save(store, user, next.0, next.1, next.2))
      && (s.state == Starting || s.state == Completed ==> r == Save(store, user, s, summaries, UnknownState))
  {
    if user !in store || store[user].session.None? then Step(store, SessionNotFound)
    else
      var u := store[user];
      var s := Logged(u.session.value, message);
      match s.state
      case TaskReview =>
        if s.index >= |s.reviews| then Step(store, ProcessingError)
        else
          (match ReviewReply(s, message, llm)
           case None => Step(store, ProcessingError)
           case Some(next) => Save(store, user, next.0, u.summaries, next.1))
      case Gratitude =>
        (match GratitudeReply(s, message, llm)
         case None => Step(store, ProcessingError)
         case Some(next) => Save(store, user, next.0, u.summaries, next.1))
      case Summary =>
        var (s', summaries, reply) := SummaryReply(s, u.summaries, llm, now);
        Save(store, user, s', summaries, reply)
      case _ => Save(store, user, s, u.summaries, UnknownState)
  }
}

=== FILE: notifications.dfy ===
/** The notification jobs: who receives the morning digest and the deadline
    reminder, which tasks each message selects, and the tip of the day.
    The scheduler, the clock and the bot are outside the model: `now` is a
    parameter and a message is a value describing what would be sent. */
module Notifications {
  import opened Seqs
  import opened Tasks
  import Onboarding

  const DAY: int := 24 * 60 * 60
  const HOUR: int := 60 * 60
  const DIGEST_LISTED: nat := 3
  const REMINDER_LISTED: nat := 5

  // ---------------------------------------------------------------------
  // Who gets what

  /** A notification kind is on when the master switch (missing means on)
      and the kind's own flag (missing means off) are both set. */
  predicate KindOn(m: map<string, bool>, kind: string)
  {
    Onboarding.FlagOr(m, Onboarding.ENABLED, true) && Onboarding.FlagOr(m, kind, false)
  }

  /** Users the broadcast job sends `kind` to: the kind is on and the
      onboarding wizard is finished. */
  function Recipients(users: map<int, Onboarding.TrackerUser>, kind: string): (r: set<int>)
    ensures forall id :: id in r <==> id in users && KindOn(users[id].notifications, kind) && users[id].completed
  {
    set id | id in users && KindOn(users[id].notifications, kind) && users[id].completed
  }

  /** The morning digest's recipients. */
  function DigestRecipients(users: map<int, Onboarding.TrackerUser>): (r: set<int>)
    ensures r <= users.Keys
    ensures forall id :: id in r <==> id in users && KindOn(users[id].notifications, Onboarding.DAILY_DIGEST) && users[id].completed
  {
    Recipients(users, Onboarding.DAILY_DIGEST)
  }

  /** The deadline reminder's recipients. */
  function ReminderRecipients(users: map<int, Onboarding.TrackerUser>): (r: set<int>)
    ensures r <= users.Keys
    ensures forall id :: id in r <==> id in users && KindOn(users[id].notifications, Onboarding.DEADLINE_REMINDERS) && users[id].completed
  {
    Recipients(users, Onboarding.DEADLINE_REMINDERS)
  }

  /** The new-task notice needs the master switch and its own flag, but not
      a finished wizard. */
  predicate SendsNewTaskNotice(u: Onboarding.TrackerUser): (b: bool)
    ensures var m := u.notifications;
            b <==> (Onboarding.ENABLED !in m || m[Onboarding.ENABLED])
                   && Onboarding.NEW_TASK_NOTIFICATIONS in m && m[Onboarding.NEW_TASK_NOTIFICATIONS]
  {
    KindOn(u.notifications, Onboarding.NEW_TASK_NOTIFICATIONS)
  }

  /** Unlike the scheduled messages, the new-task notice does not wait for
      the wizard to finish. */
  lemma NewTaskNoticeIgnoresWizard(u: Onboarding.TrackerUser, completed: bool)
    ensures SendsNewTaskNotice(u.(completed := completed)) == SendsNewTaskNotice(u)
  {
  }

  /** A user fresh from the wizard's defaults gets no scheduled message and
      no new-task notice: every kind starts switched off. */
  lemma NewUserGetsNothing(id: int, now: int)
    ensures var u := Onboarding.NewTrackerUser(id, now);
            && id !in DigestRecipients(map[id := u])
            && id !in ReminderRecipients(map[id := u])
            && !SendsNewTaskNotice(u)
  {
  }

  /** Switching the digest on in the wizard, with notifications enabled and
      the wizard finished, puts the user on the digest list. */
  lemma DigestToggleSubscribes(users: map<int, Onboarding.TrackerUser>, id: int)
    requires id in users && users[id].completed
    requires Onboarding.FlagOr(users[id].notifications, Onboarding.ENABLED, true)
    requires !Onboarding.FlagOr(users[id].notifications, Onboarding.DAILY_DIGEST, false)
    ensures var u := users[id];
            id in DigestRecipients(users[id := u.(notifications := Onboarding.ToggleFlag(u.notifications, Onboarding.DAILY_DIGEST))])
  {
  }

  // ---------------------------------------------------------------------
  // Task selections

  /** Completed, with a completion time that is set (neither missing nor 0)
      and no more than a day old. */
  predicate CompletedSince(t: Task, since: int)
  {
    t.status == COMPLETED && IsSetTime(t.completedAt) && t.completedAt.value >= since
  }

  /** The tasks finished in the last twenty-four hours, in list order. */
  function CompletedToday(tasks: seq<Task>, now: int): (r: seq<Task>)
    ensures |r| <= |tasks|
    ensures forall t :: t in r <==> t in tasks && CompletedSince(t, now - DAY)
    ensures forall t :: (multiset(r)[t] == if CompletedSince(t, now - DAY) then multiset(tasks)[t] else 0)
    ensures forall i :: 0 <= i < |r| ==> r[i].status == COMPLETED
  {
    Filter(tasks, (t: Task) => CompletedSince(t, now - DAY))
  }

  /** The selection keeps list order: selecting from two lists one after the
      other is selecting from their concatenation. */
  lemma CompletedTodayConcat(a: seq<Task>, b: seq<Task>, now: int)
    ensures CompletedToday(a + b, now) == CompletedToday(a, now) + CompletedToday(b, now)
  {
    FilterConcat(a, b, (t: Task) => CompletedSince(t, now - DAY));
  }

  /** A task marked completed at a set time counts as completed today for
      the following twenty-four hours, and not after. */
  lemma CompletedTodayWindow(tasks: seq<Task>, i: nat, now: int)
    requires i < |tasks| && tasks[i].status == COMPLETED && IsSetTime(tasks[i].completedAt)
    requires tasks[i].completedAt.value <= now
    ensures tasks[i] in CompletedToday(tasks, now) <==> now <= tasks[i].completedAt.value + DAY
  {
    assert tasks[i] in tasks;
  }

  /** A task with a deadline and the seconds left until it (negative when
      overdue). The source divides by 3600 to get hours; ordering by
      seconds is the same ordering. */
  datatype Upcoming = Upcoming(task: Task, secondsLeft: int)

  /** Active, with a set due date no later than `now + hours` hours.
      Overdue tasks qualify: there is no lower bound. */
  predicate DueWithin(t: Task, now: int, hours: int)
  {
    IsSetTime(t.dueDate) && IsActive(t) && t.dueDate.value <= now + hours * HOUR
  }

  function WithTimeLeft(tasks: seq<Task>, now: int): (r: seq<Upcoming>)
    ensures |r| == |tasks|
    ensures forall i :: 0 <= i < |r| ==> r[i].task == tasks[i]
    ensures forall i :: 0 <= i < |r| && tasks[i].dueDate.Some? ==> r[i].secondsLeft == tasks[i].dueDate.value - now
  {
    seq(|tasks|, i requires 0 <= i < |tasks| =>
      Upcoming(tasks[i], if tasks[i].dueDate.Some? then tasks[i].dueDate.value - now else 0))
  }

  function SecondsLeft(u: Upcoming): int
  {
    u.secondsLeft
  }

  /** A deadline entry for a task of `tasks` due within `hours` hours,
      carrying its true time left. */
  predicate Qualifies(u: Upcoming, tasks: seq<Task>, now: int, hours: int)
  {
    && u.task in tasks && DueWithin(u.task, now, hours)
    && u.secondsLeft == u.task.dueDate.value - now
  }

  lemma DueEntriesQualify(tasks: seq<Task>, now: int, hours: int)
    ensures forall u :: u in WithTimeLeft(Filter(tasks, (t: Task) => DueWithin(t, now, hours)), now) ==>
              Qualifies(u, tasks, now, hours)
  {
    var f := Filter(tasks, (t: Task) => DueWithin(t, now, hours));
    var due := WithTimeLeft(f, now);
    forall u | u in due ensures Qualifies(u, tasks, now, hours) {
      var i :| 0 <= i < |due| && due[i] == u;
      assert f[i] in f;
    }
  }

  /** The tasks due within `hours` hours, soonest first. */
  function UpcomingDeadlines(tasks: seq<Task>, now: int, hours: int): (r: seq<Upcoming>)
    ensures SortedBy(r, SecondsLeft)
    ensures multiset(r) == multiset(WithTimeLeft(Filter(tasks, (t: Task) => DueWithin(t, now, hours)), now))
    ensures forall i :: 0 <= i < |r| ==> Qualifies(r[i], tasks, now, hours)
  {
    var due := WithTimeLeft(Filter(tasks, (t: Task) => DueWithin(t, now, hours)), now);
    var r := SortBy(due, SecondsLeft);
    DueEntriesQualify(tasks, now, hours);
    assert forall i :: 0 <= i < |r| ==> r[i] in multiset(due);
    r
  }

  /** Every qualifying task appears in the deadline list, once per time it
      appears in the task list. */
  lemma UpcomingComplete(tasks: seq<Task>, now: int, hours: int, t: Task)
    requires t in tasks && DueWithin(t, now, hours)
    ensures Upcoming(t, t.dueDate.value - now) in UpcomingDeadlines(tasks, now, hours)
  {
    var f := Filter(tasks, (t: Task) => DueWithin(t, now, hours));
    var due := WithTimeLeft(f, now);
    var i :| 0 <= i < |f| && f[i] == t;
    assert due[i] == Upcoming(t, t.dueDate.value - now);
    assert due[i] in multiset(due);
  }

  // ---------------------------------------------------------------------
  // The morning digest

  /** High or urgent: what the digest calls important. */
  predicate IsImportant(t: Task)
  {
    t.priority == HIGH || t.priority == URGENT
  }

  /** Pending tasks followed by in-progress tasks, keeping the important
      ones. */
  function UrgentTasks(tasks: seq<Task>): (r: seq<Task>)
    ensures forall i :: 0 <= i < |r| ==> IsActive(r[i]) && IsImportant(r[i])
    ensures r == Filter(Filter(tasks, WithStatus(PENDING)), IsImportant)
                 + Filter(Filter(tasks, WithStatus(IN_PROGRESS)), IsImportant)
    ensures forall i, j :: 0 <= i < j < |r| && r[j].status == PENDING ==> r[i].status == PENDING
  {
    var (p, q) := (Filter(tasks, WithStatus(PENDING)), Filter(tasks, WithStatus(IN_PROGRESS)));
    FilterConcat(p, q, IsImportant);
    PendingFirst(Filter(p, IsImportant), Filter(q, IsImportant));
    Filter(p + q, IsImportant)
  }

  /** Important pending entries followed by important in-progress entries:
      all are active and important, and no pending entry comes after an
      in-progress one. */
  lemma PendingFirst(fp: seq<Task>, fq: seq<Task>)
    requires forall i :: 0 <= i < |fp| ==> fp[i].status == PENDING && IsImportant(fp[i])
    requires forall i :: 0 <= i < |fq| ==> fq[i].status == IN_PROGRESS && IsImportant(fq[i])
    ensures var r := fp + fq;
            && (forall i :: 0 <= i < |r| ==> IsActive(r[i]) && IsImportant(r[i]))
            && (forall i, j :: 0 <= i < j < |r| && r[j].status == PENDING ==> r[i].status == PENDING)
  {
    var r := fp + fq;
    assert forall k :: |fp| <= k < |r| ==> r[k] == fq[k - |fp|];
    assert forall k :: 0 <= k < |fp| ==> r[k] == fp[k];
  }

  /** How often one task occurs in the important list. */
  lemma UrgentOccurrences(tasks: seq<Task>, x: Task)
    ensures multiset(UrgentTasks(tasks))[x]
            == multiset(Filter(tasks, (t: Task) => IsActive(t) && IsImportant(t)))[x]
  {
    var p := Filter(tasks, WithStatus(PENDING));
    var q := Filter(tasks, WithStatus(IN_PROGRESS));
    var both := Filter(tasks, (t: Task) => IsActive(t) && IsImportant(t));
    assert multiset(UrgentTasks(tasks))[x] == if IsImportant(x) then multiset(p + q)[x] else 0;
    assert multiset(p + q)[x] == multiset(p)[x] + multiset(q)[x];
    assert multiset(p)[x] == if x.status == PENDING then multiset(tasks)[x] else 0;
    assert multiset(q)[x] == if x.status == IN_PROGRESS then multiset(tasks)[x] else 0;
    assert multiset(both)[x] == if IsActive(x) && IsImportant(x) then multiset(tasks)[x] else 0;
  }

  /** The important list holds exactly the active important tasks, each as
      often as in the task list; only the order differs (pending first). */
  lemma UrgentAreActiveImportant(tasks: seq<Task>)
    ensures multiset(UrgentTasks(tasks)) == multiset(Filter(tasks, (t: Task) => IsActive(t) && IsImportant(t)))
  {
    forall x
      ensures multiset(UrgentTasks(tasks))[x]
              == multiset(Filter(tasks, (t: Task) => IsActive(t) && IsImportant(t)))[x]
    {
      UrgentOccurrences(tasks, x);
    }
  }

  datatype Tip = PomodoroTip | RestTip | FirstThingTip

  /** More than three important tasks: work in focused sprints; nothing
      pending or in progress: rest or plan; otherwise start with the most
      important task. */
  function TipOfDay(urgent: nat, pending: nat, inProgress: nat): (tip: Tip)
    ensures tip == PomodoroTip <==> urgent > 3
    ensures tip == RestTip <==> urgent <= 3 && pending == 0 && inProgress == 0
  {
    if urgent > 3 then PomodoroTip
    else if pending == 0 && inProgress == 0 then RestTip
    else FirstThingTip
  }

  /** What the digest says. `more` is the number of important tasks not
      listed. */
  datatype Digest = Digest(
    pending: nat,
    inProgress: nat,
    completedToday: nat,
    listed: seq<Task>,
    more: nat,
    tip: Tip)

  function DailyDigest(tasks: seq<Task>, now: int): (d: Digest)
    ensures d.pending == Count(tasks, WithStatus(PENDING))
    ensures d.inProgress == Count(tasks, WithStatus(IN_PROGRESS))
    ensures d.completedToday == |CompletedToday(tasks, now)|
    ensures |d.listed| == if |UrgentTasks(tasks)| < DIGEST_LISTED then |UrgentTasks(tasks)| else DIGEST_LISTED
    ensures d.listed <= UrgentTasks(tasks)
    ensures |d.listed| + d.more == |UrgentTasks(tasks)|
    ensures d.tip == TipOfDay(|UrgentTasks(tasks)|, d.pending, d.inProgress)
  {
    var urgent := UrgentTasks(tasks);
    var listed := if |urgent| <= DIGEST_LISTED then urgent else urgent[..DIGEST_LISTED];
    Digest(Count(tasks, WithStatus(PENDING)), Count(tasks, WithStatus(IN_PROGRESS)),
           |CompletedToday(tasks, now)|, listed, |urgent| - |listed|,
           TipOfDay(|urgent|, Count(tasks, WithStatus(PENDING)), Count(tasks, WithStatus(IN_PROGRESS))))
  }

  /** The rest tip appears exactly when no task is pending or in progress. */
  lemma RestTipWhenIdle(tasks: seq<Task>, now: int)
    ensures DailyDigest(tasks, now).tip == RestTip <==> forall i :: 0 <= i < |tasks| ==> !IsActive(tasks[i])
  {
    var p := Filter(tasks, WithStatus(PENDING));
    var q := Filter(tasks, WithStatus(IN_PROGRESS));
    if !forall i :: 0 <= i < |tasks| ==> !IsActive(tasks[i]) {
      var i :| 0 <= i < |tasks| && IsActive(tasks[i]);
      assert tasks[i] in tasks;
      if tasks[i].status == PENDING {
        assert tasks[i] in p;
      } else {
        assert tasks[i] in q;
      }
    }
  }

  // ---------------------------------------------------------------------
  // The deadline reminder

  /** How the time left is worded: under an hour (overdue included), whole
      hours, or whole days. */
  datatype TimeLeft = LessThanHour | Hours(hours: nat) | Days(days: nat)

  function Wording(secondsLeft: int): (w: TimeLeft)
    ensures w.LessThanHour? <==> secondsLeft < HOUR
    ensures w.Hours? ==> 1 <= w.hours < 24 && w.hours * HOUR <= secondsLeft < (w.hours + 1) * HOUR
    ensures w.Days? ==> 1 <= w.days && w.days * DAY <= secondsLeft < (w.days + 1) * DAY
    ensures w.Days? <==> secondsLeft >= DAY
  {
    if secondsLeft < HOUR then LessThanHour
    else if secondsLeft < DAY then Hours(secondsLeft / HOUR)
    else Days(secondsLeft / DAY)
  }

  datatype ReminderLine = ReminderLine(task: Task, left: TimeLeft)

  /** What the reminder says: how many tasks are due, the first five with
      their wording, and how many are not listed. */
  datatype Reminder = Reminder(count: nat, lines: seq<ReminderLine>, more: nat)

  /** `None` when nothing is due within a day: no message is sent. */
  function DeadlineReminder(tasks: seq<Task>, now: int): (r: Option<Reminder>)
    ensures r.None? <==> |UpcomingDeadlines(tasks, now, 24)| == 0
    ensures r.Some? ==>
              var up := UpcomingDeadlines(tasks, now, 24);
              && r.value.count == |up|
              && |r.value.lines| == (if |up| < REMINDER_LISTED then |up| else REMINDER_LISTED)
              && |r.value.lines| + r.value.more == |up|
              && (forall i :: 0 <= i < |r.value.lines| ==>
                    r.value.lines[i] == ReminderLine(up[i].task, Wording(up[i].secondsLeft)))
  {
    var up := UpcomingDeadlines(tasks, now, 24);
    if |up| == 0 then None
    else
      var n := if |up| < REMINDER_LISTED then |up| else REMINDER_LISTED;
      var lines := seq(n, i requires 0 <= i < n => ReminderLine(up[i].task, Wording(up[i].secondsLeft)));
      Some(Reminder(|up|, lines, |up| - n))
  }

  /** The reminder lists the soonest deadlines first. */
  lemma ReminderSoonestFirst(tasks: seq<Task>, now: int, i: nat, j: nat)
    requires DeadlineReminder(tasks, now).Some?
    requires i < j < |DeadlineReminder(tasks, now).value.lines|
    ensures DeadlineReminder(tasks, now).value.lines[i].task.dueDate.value
            <= DeadlineReminder(tasks, now).value.lines[j].task.dueDate.value
  {
    var up := UpcomingDeadlines(tasks, now, 24);
    assert SecondsLeft(up[i]) <= SecondsLeft(up[j]);
  }
}

=== FILE: onboarding.dfy ===
/** The onboarding wizard of the task tracker: six numbered steps (greeting,
    anxiety questionnaire, goals, notifications, the mentor, completion), the
    inline-button callbacks that move between them, and the text messages a
    user sends before and after finishing. Screens are reduced to which
    screen is shown; the mentor's answers come from a language model and are
    passed in as `Option<string>` (`None` when the call fails). */
module Onboarding {
  import opened Seqs
  import opened Text

  // ---------------------------------------------------------------------
  // Steps and their numbers

  const GREETING: string := "greeting"
  const ANXIETY_INTRO: string := "anxiety_intro"
  const ANXIETY_SURVEY: string := "anxiety_survey"
  const GOALS: string := "goals"
  const NOTIFICATIONS: string := "notifications"
  const AI_MENTOR: string := "ai_mentor"
  const COMPLETION: string := "completion"
  const COMPLETED: string := "completed"

  /** The steps in the order the wizard visits them. */
  const STEP_ORDER: seq<string> :=
    [GREETING, ANXIETY_INTRO, ANXIETY_SURVEY, GOALS, NOTIFICATIONS, AI_MENTOR, COMPLETION, COMPLETED]

  const TOTAL_STEPS: int := 6
  const QUESTION_COUNT: int := 5
  const HISTORY_LIMIT: nat := 20

  /** The number shown in the progress bar for a step; anything unknown
      counts as the first step. */
  function StepNumber(step: string): (n: int)
    ensures 1 <= n <= TOTAL_STEPS
    ensures step !in STEP_ORDER ==> n == 1
  {
    if step == GREETING then 1
    else if step == ANXIETY_INTRO || step == ANXIETY_SURVEY then 2
    else if step == GOALS then 3
    else if step == NOTIFICATIONS then 4
    else if step == AI_MENTOR then 5
    else if step == COMPLETION || step == COMPLETED then 6
    else 1
  }

  /** Walking the wizard forward never lowers the step number, and the two
      anxiety steps are the only pair sharing a number before the end. */
  lemma {:induction false} StepNumberFollowsOrder(i: nat, j: nat)
    requires i <= j < |STEP_ORDER|
    ensures StepNumber(STEP_ORDER[i]) <= StepNumber(STEP_ORDER[j])
    ensures StepNumber(STEP_ORDER[i]) == (if i <= 1 then i + 1 else if i >= 6 then 6 else i)
  {
    assert STEP_ORDER[0] == GREETING && STEP_ORDER[1] == ANXIETY_INTRO && STEP_ORDER[2] == ANXIETY_SURVEY;
    assert STEP_ORDER[3] == GOALS && STEP_ORDER[4] == NOTIFICATIONS && STEP_ORDER[5] == AI_MENTOR;
    assert STEP_ORDER[6] == COMPLETION && STEP_ORDER[7] == COMPLETED;
  }

  /** `current` filled circles, `total - current` empty ones, then
      " current/total". */
  function ProgressBar(current: int, total: int): (r: string)
    ensures 0 <= current <= total ==>
              && |r| > total
              && (forall i :: 0 <= i < current ==> r[i] == '●')
              && (forall i :: current <= i < total ==> r[i] == '○')
              && r[total] == ' '
              && r[total + 1..] == IntToString(current) + "/" + IntToString(total)
  {
    var bar := Repeat('●', current) + Repeat('○', total - current);
    var caption := IntToString(current) + "/" + IntToString(total);
    if 0 <= current <= total then
      assert forall i :: 0 <= i < current ==> bar[i] == '●';
      assert forall i :: current <= i < total ==> bar[i] == '○';
      assert |bar| == total;
      var shown := bar + " " + caption;
      assert shown[total + 1..] == caption;
      shown
    else bar + " " + caption
  }

  /** The bar drawn for a step has one circle per step, and moving forward
      in the wizard only fills circles, never empties them. */
  lemma ProgressNeverShrinks(i: nat, j: nat, k: nat)
    requires i <= j < |STEP_ORDER| && k < TOTAL_STEPS as nat
    ensures ProgressBar(StepNumber(STEP_ORDER[i]), TOTAL_STEPS)[k] == '●'
            ==> ProgressBar(StepNumber(STEP_ORDER[j]), TOTAL_STEPS)[k] == '●'
  {
    StepNumberFollowsOrder(i, j);
  }

  // ---------------------------------------------------------------------
  // The per-user record

  datatype Role = UserRole | AssistantRole

  datatype MentorTurn = MentorTurn(role: Role, content: string)

  /** What the wizard stores per user. The anxiety level (a rounded float
      average) and the never-written custom goal are not part of the model. */
  datatype TrackerUser = TrackerUser(
    userId: int,
    step: string,
    completed: bool,
    startedAt: int,
    anxietyAnswers: seq<int>,
    goals: seq<string>,
    notifications: map<string, bool>,
    metMentor: bool,
    history: seq<MentorTurn>)

  const DAILY_DIGEST: string := "daily_digest"
  const DEADLINE_REMINDERS: string := "deadline_reminders"
  const NEW_TASK_NOTIFICATIONS: string := "new_task_notifications"
  const ENABLED: string := "enabled"

  /** A fresh record: first step, nothing chosen, every notification off
      except the master switch. */
  function NewTrackerUser(userId: int, now: int): (u: TrackerUser)
    ensures u.userId == userId && u.step == GREETING && u.startedAt == now
    ensures StepNumber(u.step) == 1 && !u.completed && !u.metMentor
    ensures |u.anxietyAnswers| == 0 && |u.goals| == 0 && |u.history| == 0
    ensures u.notifications.Keys == {DAILY_DIGEST, DEADLINE_REMINDERS, NEW_TASK_NOTIFICATIONS, ENABLED}
    ensures forall k :: k in u.notifications ==> (u.notifications[k] <==> k == ENABLED)
  {
    TrackerUser(userId, GREETING, false, now, [], [],
                map[DAILY_DIGEST := false, DEADLINE_REMINDERS := false,
                    NEW_TASK_NOTIFICATIONS := false, ENABLED := true],
                false, [])
  }

  /** `notifications.get(key, default)`. */
  function FlagOr(m: map<string, bool>, key: string, default: bool): bool
  {
    if key in m then m[key] else default
  }

  // ---------------------------------------------------------------------
  // Goal and notification toggles

  ghost predicate NoDuplicates(s: seq<string>)
  {
    forall x :: multiset(s)[x] <= 1
  }

  /** `list.remove(x)`: drops the first occurrence. */
  function RemoveFirst<T(==)>(s: seq<T>, x: T): (r: seq<T>)
    requires x in s
    ensures |r| == |s| - 1
    ensures multiset(r) == multiset(s) - multiset{x}
  {
    assert s == [s[0]] + s[1..];
    if s[0] == x then s[1..] else [s[0]] + RemoveFirst(s[1..], x)
  }

  /** Select a goal that is not selected, deselect one that is. */
  function ToggleGoal(goals: seq<string>, g: string): (r: seq<string>)
    ensures g !in goals ==> r == goals + [g]
    ensures g in goals ==> multiset(r) == multiset(goals) - multiset{g}
    ensures NoDuplicates(goals) ==> NoDuplicates(r)
    ensures NoDuplicates(goals) ==> (g in r <==> g !in goals)
    ensures forall x :: x != g ==> (x in r <==> x in goals)
  {
    if g in goals then
      var r := RemoveFirst(goals, g);
      forall x | x != g
        ensures x in r <==> x in goals
      {
        assert multiset(r)[x] == multiset(goals)[x];
        assert x in r <==> x in multiset(r);
        assert x in goals <==> x in multiset(goals);
      }
      r
    else goals + [g]
  }

  /** Toggling the same goal twice gives back the same selection; when the
      goal was not selected it gives back the very same list. */
  lemma ToggleGoalTwice(goals: seq<string>, g: string)
    requires NoDuplicates(goals)
    ensures forall x :: x in ToggleGoal(ToggleGoal(goals, g), g) <==> x in goals
    ensures g !in goals ==> ToggleGoal(ToggleGoal(goals, g), g) == goals
  {
    var once := ToggleGoal(goals, g);
    if g !in goals {
      assert g in once;
      assert once == goals + [g];
      assert multiset(RemoveFirst(once, g)) == multiset(goals);
      RemoveLast(goals, g);
    }
  }

  /** Removing the first occurrence of an element appended to a list that
      did not hold it gives the list back. */
  lemma {:induction false} RemoveLast<T>(s: seq<T>, x: T)
    requires x !in s
    ensures RemoveFirst(s + [x], x) == s
  {
    if |s| > 0 {
      assert (s + [x])[1..] == s[1..] + [x];
      RemoveLast(s[1..], x);
      assert s == [s[0]] + s[1..];
    }
  }

  /** `notifications[key] = not notifications.get(key, False)`. */
  function ToggleFlag(m: map<string, bool>, key: string): (r: map<string, bool>)
    ensures r.Keys == m.Keys + {key}
    ensures r[key] == !FlagOr(m, key, false)
    ensures forall k :: k in m && k != key ==> r[k] == m[k]
  {
    m[key := !FlagOr(m, key, false)]
  }

  /** Toggling a flag twice restores every flag as read with a `False`
      default, and restores the map itself when the key was present. */
  lemma ToggleFlagTwice(m: map<string, bool>, key: string)
    ensures forall k :: FlagOr(ToggleFlag(ToggleFlag(m, key), key), k, false) == FlagOr(m, k, false)
    ensures key in m ==> ToggleFlag(ToggleFlag(m, key), key) == m
  {
  }

  /** The toggle reads a missing key as off while the screens and the
      scheduler read a missing master switch as on: on a record without the
      `enabled` key the first toggle of the master switch leaves
      notifications enabled. */
  lemma ToggleMissingMasterSwitch(m: map<string, bool>)
    requires ENABLED !in m
    ensures FlagOr(m, ENABLED, true)
    ensures FlagOr(ToggleFlag(m, ENABLED), ENABLED, true)
  {
  }

  // ---------------------------------------------------------------------
  // Questionnaire answers

  /** Extends `answers` with zeros up to length `n`. */
  function PadTo(answers: seq<int>, n: nat): (r: seq<int>)
    ensures |r| == if |answers| < n then n else |answers|
    ensures answers <= r
    ensures forall i :: |answers| <= i < |r| ==> r[i] == 0
  {
    if |answers| < n then answers + seq(n - |answers|, _ => 0) else answers
  }

  /** `answers[q] = score` after padding with zeros while the list is too
      short; a negative `q` counts from the end as in Python, and one
      before the start raises (`None`). */
  function SetAnswer(answers: seq<int>, q: int, score: int): (r: Option<seq<int>>)
    ensures r.None? <==> q < -|answers|
    ensures q >= 0 ==>
              && r.Some?
              && |r.value| == (if |answers| <= q then q + 1 else |answers|)
              && r.value[q] == score
              && (forall i :: 0 <= i < |r.value| && i != q ==>
                    r.value[i] == if i < |answers| then answers[i] else 0)
    ensures -|answers| <= q < 0 ==>
              && r.Some? && |r.value| == |answers|
              && r.value[|answers| + q] == score
              && (forall i :: 0 <= i < |answers| && i != |answers| + q ==> r.value[i] == answers[i])
  {
    if q >= 0 then Some(PadTo(answers, q + 1)[q := score])
    else if q >= -|answers| then Some(answers[|answers| + q := score])
    else None
  }

  /** Answering the next unanswered question appends the score. */
  lemma AnswerNext(answers: seq<int>, score: int)
    ensures SetAnswer(answers, |answers|, score) == Some(answers + [score])
  {
    assert PadTo(answers, |answers| + 1)[|answers| := score] == answers + [score];
  }

  // ---------------------------------------------------------------------
  // Mentor conversation

  const MENTOR_GREETING: string := "Привет! Это наша первая встреча в рамках настройки трекера задач."

  /** One exchange with the mentor. When the model answers, the question and
      the answer are appended, the history is cut to its last twenty turns
      and the user counts as having met the mentor; when the call fails the
      record is unchanged. */
  function Chat(u: TrackerUser, message: string, llm: Option<string>): (r: (TrackerUser, Option<string>))
    ensures r.1 == llm
    ensures llm.None? ==> r.0 == u
    ensures llm.Some? ==>
              var h := r.0.history;
              && r.0 == u.(history := h, metMentor := true)
              && |h| == (if |u.history| + 2 <= HISTORY_LIMIT then |u.history| + 2 else HISTORY_LIMIT)
              && h[|h| - 2..] == [MentorTurn(UserRole, message), MentorTurn(AssistantRole, llm.value)]
              && h[..|h| - 2] == u.history[|u.history| + 2 - |h|..]
  {
    match llm
    case None => (u, None)
    case Some(answer) =>
      var h := KeepLast(u.history + [MentorTurn(UserRole, message), MentorTurn(AssistantRole, answer)], HISTORY_LIMIT);
      assert h[..|h| - 2] == u.history[|u.history| + 2 - |h|..];
      (u.(history := h, metMentor := true), llm)
  }

  // ---------------------------------------------------------------------
  // Screens and the callback handler

  /** What the user sees after a callback or a message. `Question` carries
      the question number written into its answer buttons. */
  datatype Screen =
    | GreetingScreen
    | AnxietyIntro
    | Question(number: int)
    | SurveyResults
    | GoalsScreen
    | NotificationsScreen
    | MentorIntro
    | MentorAnswer(answer: Option<string>)
    | MentorContinue
    | CompletionScreen
    | MainReady
    | StatusScreen
    | NoScreen

  /** A handled update, or one whose handler raised; `user` is the record as
      saved when the handler stopped. */
  datatype Outcome = Shown(user: TrackerUser, screen: Screen) | Raised(user: TrackerUser)

  /** Marks the wizard as finished. */
  function Complete(u: TrackerUser): (r: TrackerUser)
    ensures r.completed && r.step == COMPLETED && StepNumber(r.step) == TOTAL_STEPS
    ensures r.(completed := u.completed, step := u.step) == u
  {
    u.(completed := true, step := COMPLETED)
  }

  /** Shows question `q`; past the last question the survey is finished and
      the wizard moves to the goals step. A negative number indexes from the
      end of the question list, and one before its start raises. */
  function ShowQuestion(u: TrackerUser, q: int): (r: Outcome)
    ensures q >= QUESTION_COUNT ==> r == Shown(u.(step := GOALS), SurveyResults)
    ensures -QUESTION_COUNT <= q < QUESTION_COUNT ==> r == Shown(u, Question(q))
    ensures q < -QUESTION_COUNT ==> r == Raised(u)
  {
    if q >= QUESTION_COUNT then Shown(u.(step := GOALS), SurveyResults)
    else if q >= -QUESTION_COUNT then Shown(u, Question(q))
    else Raised(u)
  }

  const ANSWER_PREFIX: string := "tracker_anxiety_answer_"
  const BACK_PREFIX: string := "tracker_anxiety_back_"
  const GOAL_PREFIX: string := "tracker_goal_toggle_"
  const NOTIF_PREFIX: string := "tracker_notif_toggle_"

  const STEP_1_NEXT: string := "tracker_step_1_next"
  const ANXIETY_START: string := "tracker_anxiety_start"
  const ANXIETY_SKIP: string := "tracker_anxiety_skip"
  const STEP_3_GOALS: string := "tracker_step_3_goals"
  const STEP_2_BACK: string := "tracker_step_2_back"
  const STEP_4_NOTIFICATIONS: string := "tracker_step_4_notifications"
  const STEP_3_BACK: string := "tracker_step_3_back"
  const STEP_4_BACK: string := "tracker_step_4_back"
  const STEP_5_AI_MENTOR: string := "tracker_step_5_ai_mentor"
  const MEET_AI_MENTOR: string := "tracker_meet_ai_mentor"
  const AI_MENTOR_CONTINUE: string := "tracker_ai_mentor_continue"
  const STEP_6_COMPLETION: string := "tracker_step_6_completion"
  const START_MAIN: string := "tracker_start_main"

  /** `tracker_anxiety_answer_{q}_{score}`: the fourth and fifth
      underscore-separated fields are parsed with `int`. */
  function AnswerCallback(u: TrackerUser, data: string): (r: Outcome)
    ensures r.Raised? && r.user != u ==> r.user == u.(anxietyAnswers := r.user.anxietyAnswers)
    ensures r.Shown? ==> r.user.(anxietyAnswers := u.anxietyAnswers, step := u.step) == u
    ensures r.Shown? ==> r.user.step == u.step || r.user.step == GOALS
  {
    var parts := Split(data, '_');
    if |parts| < 5 then Raised(u)
    else
      match (ParseInt(parts[3]), ParseInt(parts[4]))
      case (Some(q), Some(score)) =>
        (match SetAnswer(u.anxietyAnswers, q, score)
         case None => Raised(u)
         case Some(answers) => ShowQuestion(u.(anxietyAnswers := answers), q + 1))
      case _ => Raised(u)
  }

  /** `tracker_anxiety_back_{q}`: the previous question, or the
      questionnaire's introduction from the first one. */
  function BackCallback(u: TrackerUser, data: string): (r: Outcome)
    ensures r.Raised? ==> r.user == u
    ensures r.Shown? ==> r.user == u || r.user == u.(step := GOALS)
  {
    var parts := Split(data, '_');
    if |parts| < 4 then Raised(u)
    else
      match ParseInt(parts[3])
      case None => Raised(u)
      case Some(q) => if q > 0 then ShowQuestion(u, q - 1) else Shown(u, AnxietyIntro)
  }

  /** `process_tracker_callback`: the branches in the order the handler
      tests them. Callback data nobody handles changes nothing. */
  function Callback(u: TrackerUser, data: string, llm: Option<string>): (r: Outcome)
    ensures r.user.userId == u.userId && r.user.startedAt == u.startedAt
    ensures r.user.completed != u.completed ==> data == STEP_6_COMPLETION
    ensures r.Raised? ==> ANSWER_PREFIX <= data || BACK_PREFIX <= data
    ensures r.user.anxietyAnswers != u.anxietyAnswers ==> data == ANXIETY_START || ANSWER_PREFIX <= data
    ensures r.user.goals != u.goals ==> GOAL_PREFIX <= data
    ensures r.user.notifications != u.notifications ==> NOTIF_PREFIX <= data
    ensures r.user.history != u.history ==> data == MEET_AI_MENTOR && llm.Some?
  {
    if data == STEP_1_NEXT then Shown(u.(step := ANXIETY_INTRO), AnxietyIntro)
    else if data == ANXIETY_START then ShowQuestion(u.(step := ANXIETY_SURVEY, anxietyAnswers := []), 0)
    else if data == ANXIETY_SKIP then Shown(u.(step := GOALS), GoalsScreen)
    else if ANSWER_PREFIX <= data then AnswerCallback(u, data)
    else if BACK_PREFIX <= data then BackCallback(u, data)
    else if data == STEP_3_GOALS then Shown(u.(step := GOALS), GoalsScreen)
    else if GOAL_PREFIX <= data then
      Shown(u.(goals := ToggleGoal(u.goals, RemoveAll(data, GOAL_PREFIX))), GoalsScreen)
    else if data == STEP_2_BACK then Shown(u.(step := ANXIETY_INTRO), AnxietyIntro)
    else if data == STEP_4_NOTIFICATIONS then Shown(u.(step := NOTIFICATIONS), NotificationsScreen)
    else if NOTIF_PREFIX <= data then
      Shown(u.(notifications := ToggleFlag(u.notifications, RemoveAll(data, NOTIF_PREFIX))), NotificationsScreen)
    else if data == STEP_3_BACK then Shown(u.(step := GOALS), GoalsScreen)
    else if data == STEP_4_BACK then Shown(u.(step := NOTIFICATIONS), NotificationsScreen)
    else if data == STEP_5_AI_MENTOR then Shown(u.(step := AI_MENTOR), MentorIntro)
    else if data == MEET_AI_MENTOR then
      var (v, answer) := Chat(u, MENTOR_GREETING, llm);
      Shown(v, MentorAnswer(answer))
    else if data == AI_MENTOR_CONTINUE then Shown(u, MentorContinue)
    else if data == STEP_6_COMPLETION then Shown(Complete(u.(step := COMPLETION)), CompletionScreen)
    else if data == START_MAIN then Shown(u, MainReady)
    else Shown(u, NoScreen)
  }

  // ---------------------------------------------------------------------
  // Text messages

  /** `handle_welcome_module`: a message during the wizard re-shows the
      current step; at the completion step it finishes the wizard. */
  function WelcomeMessage(u: TrackerUser): (r: Outcome)
    ensures r.Shown?
    ensures r.user == u || (u.step == COMPLETION && r.user == Complete(u))
  {
    if u.step == GREETING then Shown(u, GreetingScreen)
    else if u.step == ANXIETY_INTRO then Shown(u, AnxietyIntro)
    else if u.step == ANXIETY_SURVEY then ShowQuestion(u, 0)
    else if u.step == GOALS then Shown(u, GoalsScreen)
    else if u.step == NOTIFICATIONS then Shown(u, NotificationsScreen)
    else if u.step == AI_MENTOR then Shown(u, MentorIntro)
    else if u.step == COMPLETION then Shown(Complete(u), CompletionScreen)
    else Shown(u, NoScreen)
  }

  /** `process_tracker_message`: once the wizard is finished it is bypassed;
      a non-blank message then goes to the mentor if the user has met it,
      anything else shows the profile status. */
  function Message(u: TrackerUser, text: string, llm: Option<string>): (r: Outcome)
    ensures r.Shown?
    ensures u.completed ==>
              && r.user.(history := u.history, metMentor := u.metMentor) == u
              && (r.screen.MentorAnswer? <==> u.metMentor && !IsBlank(text))
    ensures !u.completed ==> r == WelcomeMessage(u)
  {
    if u.completed then
      var m := Strip(text);
      if u.metMentor && |m| > 0 then
        var (v, answer) := Chat(u, m, llm);
        Shown(v, MentorAnswer(answer))
      else Shown(u, StatusScreen)
    else WelcomeMessage(u)
  }
}

=== FILE: onboarding_facts.dfy ===
/** Properties of the onboarding wizard across callbacks: the buttons the
    screens print are parsed back into what they say, the navigation table,
    the questionnaire walk, and the shape every stored record keeps. */
module OnboardingFacts {
  import opened Seqs
  import opened Text
  import opened Onboarding

  // ---------------------------------------------------------------------
  // Buttons and what the handler reads from them

  /** The data of answer button `score` under question `q`. */
  function AnswerData(q: nat, score: nat): string
  {
    ANSWER_PREFIX + NatToString(q) + "_" + NatToString(score)
  }

  /** The data of the "back" button under question `q`. */
  function BackData(q: nat): string
  {
    BACK_PREFIX + NatToString(q)
  }

  lemma NoUnderscoreInDigits(n: nat)
    ensures '_' !in NatToString(n)
  {
  }

  /** The pieces of an answer button, joined with underscores. */
  lemma JoinAnswerParts(q: nat, score: nat)
    ensures Join(["tracker", "anxiety", "answer", NatToString(q), NatToString(score)], '_') == AnswerData(q, score)
  {
    var a, b := NatToString(q), NatToString(score);
    var parts := ["tracker", "anxiety", "answer", a, b];
    assert Join(parts[4..], '_') == b;
    assert Join(parts[3..], '_') == a + "_" + b;
    assert Join(parts[2..], '_') == "answer" + "_" + (a + "_" + b);
    assert Join(parts[1..], '_') == "anxiety" + "_" + ("answer" + "_" + (a + "_" + b));
  }

  /** An answer button splits back into its question and score. */
  lemma SplitAnswerData(q: nat, score: nat)
    ensures Split(AnswerData(q, score), '_') == ["tracker", "anxiety", "answer", NatToString(q), NatToString(score)]
  {
    var parts := ["tracker", "anxiety", "answer", NatToString(q), NatToString(score)];
    NoUnderscoreInDigits(q);
    NoUnderscoreInDigits(score);
    JoinAnswerParts(q, score);
    assert forall k :: 0 <= k < |parts| ==> '_' !in parts[k];
    SplitJoin(parts, '_');
  }

  /** Pressing answer `score` under question `q` records the score at `q`
      and shows the next question, or the results after the last one. */
  lemma AnswerButton(u: TrackerUser, q: nat, score: nat, llm: Option<string>)
    ensures var answers := SetAnswer(u.anxietyAnswers, q, score).value;
            && |answers| == (if |u.anxietyAnswers| <= q then q + 1 else |u.anxietyAnswers|)
            && answers[q] == score
            && Callback(u, AnswerData(q, score), llm) == ShowQuestion(u.(anxietyAnswers := answers), q + 1)
  {
    var data := AnswerData(q, score);
    assert data == ANSWER_PREFIX + (NatToString(q) + "_" + NatToString(score));
    AnswerDispatch(u, data, llm);
    AnswerParsed(u, q, score);
  }

  /** The answer handler reads back the question and score of the button. */
  lemma AnswerParsed(u: TrackerUser, q: nat, score: nat)
    ensures AnswerCallback(u, AnswerData(q, score))
            == ShowQuestion(u.(anxietyAnswers := SetAnswer(u.anxietyAnswers, q, score).value), q + 1)
  {
    SplitAnswerData(q, score);
    ParseIntPrinted(q);
    ParseIntPrinted(score);
  }

  /** Data starting with the answer prefix reaches the answer branch. */
  lemma AnswerDispatch(u: TrackerUser, data: string, llm: Option<string>)
    requires ANSWER_PREFIX <= data
    ensures Callback(u, data, llm) == AnswerCallback(u, data)
  {
    assert data[8] == 'a' && data[16] == 'a';
    assert STEP_1_NEXT[8] == 's' && ANXIETY_START[16] == 's' && ANXIETY_SKIP[16] == 's';
  }

  /** A "back" button splits back into its question number. */
  lemma SplitBackData(q: nat)
    ensures Split(BackData(q), '_') == ["tracker", "anxiety", "back", NatToString(q)]
  {
    var d := NatToString(q);
    var parts := ["tracker", "anxiety", "back", d];
    NoUnderscoreInDigits(q);
    assert Join(parts[3..], '_') == d;
    assert Join(parts[2..], '_') == "back" + "_" + d;
    assert Join(parts[1..], '_') == "anxiety" + "_" + ("back" + "_" + d);
    assert Join(parts, '_') == BackData(q);
    SplitJoin(parts, '_');
  }

  /** Data starting with the "back" prefix reaches the "back" branch. */
  lemma BackDispatch(u: TrackerUser, data: string, llm: Option<string>)
    requires BACK_PREFIX <= data
    ensures Callback(u, data, llm) == BackCallback(u, data)
  {
    assert data[8] == 'a' && data[16] == 'b';
    assert ANSWER_PREFIX[16] == 'a' && STEP_1_NEXT[8] == 's';
    assert ANXIETY_START[16] == 's' && ANXIETY_SKIP[16] == 's';
  }

  /** The "back" button under question `q` shows question `q - 1` (which
      finishes the questionnaire from question six on), or the
      questionnaire's introduction under the first question. */
  lemma BackButton(u: TrackerUser, q: nat, llm: Option<string>)
    ensures Callback(u, BackData(q), llm) == if q > 0 then ShowQuestion(u, q - 1) else Shown(u, AnxietyIntro)
  {
    SplitBackData(q);
    ParseIntPrinted(q);
    BackDispatch(u, BackData(q), llm);
  }

  /** Data starting with the goal prefix reaches the goal toggle: its ninth
      character tells it apart from every button tested before. */
  lemma GoalDispatch(u: TrackerUser, data: string, llm: Option<string>)
    requires GOAL_PREFIX <= data
    ensures Callback(u, data, llm) == Shown(u.(goals := ToggleGoal(u.goals, RemoveAll(data, GOAL_PREFIX))), GoalsScreen)
  {
    assert data[8] == 'g';
    assert STEP_1_NEXT[8] == 's' && ANXIETY_START[8] == 'a' && ANXIETY_SKIP[8] == 'a';
    assert ANSWER_PREFIX[8] == 'a' && BACK_PREFIX[8] == 'a' && STEP_3_GOALS[8] == 's';
  }

  /** Data starting with the notification prefix reaches the flag toggle. */
  lemma NotificationDispatch(u: TrackerUser, data: string, llm: Option<string>)
    requires NOTIF_PREFIX <= data
    ensures Callback(u, data, llm)
            == Shown(u.(notifications := ToggleFlag(u.notifications, RemoveAll(data, NOTIF_PREFIX))), NotificationsScreen)
  {
    assert data[8] == 'n';
    assert STEP_1_NEXT[8] == 's' && ANXIETY_START[8] == 'a' && ANXIETY_SKIP[8] == 'a';
    assert ANSWER_PREFIX[8] == 'a' && BACK_PREFIX[8] == 'a' && STEP_3_GOALS[8] == 's';
    assert GOAL_PREFIX[8] == 'g' && STEP_2_BACK[8] == 's' && STEP_4_NOTIFICATIONS[8] == 's';
  }

  /** The goal button for `g` toggles exactly `g`. */
  lemma GoalButton(u: TrackerUser, g: string, llm: Option<string>)
    requires !Contains(g, GOAL_PREFIX)
    ensures Callback(u, GOAL_PREFIX + g, llm) == Shown(u.(goals := ToggleGoal(u.goals, g)), GoalsScreen)
  {
    var data := GOAL_PREFIX + g;
    assert data[..|GOAL_PREFIX|] == GOAL_PREFIX;
    assert data[|GOAL_PREFIX|..] == g;
    RemoveAbsent(g, GOAL_PREFIX);
    assert RemoveAll(data, GOAL_PREFIX) == g;
    GoalDispatch(u, data, llm);
  }

  /** The notification button for `key` toggles exactly that flag. */
  lemma NotificationButton(u: TrackerUser, key: string, llm: Option<string>)
    requires !Contains(key, NOTIF_PREFIX)
    ensures Callback(u, NOTIF_PREFIX + key, llm)
            == Shown(u.(notifications := ToggleFlag(u.notifications, key)), NotificationsScreen)
  {
    var data := NOTIF_PREFIX + key;
    assert data[..|NOTIF_PREFIX|] == NOTIF_PREFIX;
    assert data[|NOTIF_PREFIX|..] == key;
    RemoveAbsent(key, NOTIF_PREFIX);
    assert RemoveAll(data, NOTIF_PREFIX) == key;
    NotificationDispatch(u, data, llm);
  }

  // ---------------------------------------------------------------------
  // Navigation

  /** Data that none of the four parsed button families claims. */
  ghost predicate Unprefixed(data: string)
  {
    !(ANSWER_PREFIX <= data) && !(BACK_PREFIX <= data) && !(GOAL_PREFIX <= data) && !(NOTIF_PREFIX <= data)
  }

  /** The fixed buttons are told apart from the parsed ones by their ninth
      character (and the anxiety ones by their seventeenth). */
  lemma FixedButtonsUnprefixed()
    ensures Unprefixed(STEP_1_NEXT) && Unprefixed(ANXIETY_START) && Unprefixed(ANXIETY_SKIP)
    ensures Unprefixed(STEP_3_GOALS) && Unprefixed(STEP_2_BACK) && Unprefixed(STEP_4_NOTIFICATIONS)
    ensures Unprefixed(STEP_3_BACK) && Unprefixed(STEP_4_BACK) && Unprefixed(STEP_5_AI_MENTOR)
    ensures Unprefixed(MEET_AI_MENTOR) && Unprefixed(AI_MENTOR_CONTINUE)
    ensures Unprefixed(STEP_6_COMPLETION) && Unprefixed(START_MAIN)
  {
    assert ANSWER_PREFIX[8] == BACK_PREFIX[8] == 'a' && ANSWER_PREFIX[9] == 'n';
    assert ANSWER_PREFIX[16] == 'a' && BACK_PREFIX[16] == 'b';
    assert GOAL_PREFIX[8] == 'g' && NOTIF_PREFIX[8] == 'n';
    assert STEP_1_NEXT[8] == STEP_3_GOALS[8] == STEP_2_BACK[8] == STEP_4_NOTIFICATIONS[8] == 's';
    assert STEP_3_BACK[8] == STEP_4_BACK[8] == STEP_5_AI_MENTOR[8] == STEP_6_COMPLETION[8] == START_MAIN[8] == 's';
    assert MEET_AI_MENTOR[8] == 'm' && AI_MENTOR_CONTINUE[8] == 'a' && AI_MENTOR_CONTINUE[9] == 'i';
    assert ANXIETY_START[8] == ANXIETY_SKIP[8] == 'a' && ANXIETY_START[16] == ANXIETY_SKIP[16] == 's';
  }

  /** The buttons that only move the wizard: callback data, target step,
      screen shown. */
  const NAVIGATION: seq<(string, string, Screen)> := [
    (STEP_1_NEXT, ANXIETY_INTRO, AnxietyIntro),
    (ANXIETY_SKIP, GOALS, GoalsScreen),
    (STEP_3_GOALS, GOALS, GoalsScreen),
    (STEP_2_BACK, ANXIETY_INTRO, AnxietyIntro),
    (STEP_4_NOTIFICATIONS, NOTIFICATIONS, NotificationsScreen),
    (STEP_3_BACK, GOALS, GoalsScreen),
    (STEP_4_BACK, NOTIFICATIONS, NotificationsScreen),
    (STEP_5_AI_MENTOR, AI_MENTOR, MentorIntro)]

  /** Each navigation button sets its fixed target step and changes nothing
      else. */
  lemma Navigation(u: TrackerUser, k: nat, llm: Option<string>)
    requires k < |NAVIGATION|
    ensures var (data, step, screen) := NAVIGATION[k];
            Callback(u, data, llm) == Shown(u.(step := step), screen)
  {
    FixedButtonsUnprefixed();
    if k == 0 {
      assert Callback(u, STEP_1_NEXT, llm) == Shown(u.(step := ANXIETY_INTRO), AnxietyIntro);
    } else if k == 1 {
      assert Callback(u, ANXIETY_SKIP, llm) == Shown(u.(step := GOALS), GoalsScreen);
    } else if k == 2 {
      assert Callback(u, STEP_3_GOALS, llm) == Shown(u.(step := GOALS), GoalsScreen);
    } else if k == 3 {
      assert Callback(u, STEP_2_BACK, llm) == Shown(u.(step := ANXIETY_INTRO), AnxietyIntro);
    } else if k == 4 {
      assert Callback(u, STEP_4_NOTIFICATIONS, llm) == Shown(u.(step := NOTIFICATIONS), NotificationsScreen);
    } else if k == 5 {
      assert Callback(u, STEP_3_BACK, llm) == Shown(u.(step := GOALS), GoalsScreen);
    } else if k == 6 {
      assert Callback(u, STEP_4_BACK, llm) == Shown(u.(step := NOTIFICATIONS), NotificationsScreen);
    } else {
      assert Callback(u, STEP_5_AI_MENTOR, llm) == Shown(u.(step := AI_MENTOR), MentorIntro);
    }
  }

  /** Starting the questionnaire forgets earlier answers and shows the first
      question. */
  lemma AnxietyStart(u: TrackerUser, llm: Option<string>)
    ensures Callback(u, ANXIETY_START, llm) == Shown(u.(step := ANXIETY_SURVEY, anxietyAnswers := []), Question(0))
  {
    FixedButtonsUnprefixed();
  }

  /** The buttons that only redraw a screen change nothing. */
  lemma MentorContinueButton(u: TrackerUser, llm: Option<string>)
    ensures Callback(u, AI_MENTOR_CONTINUE, llm) == Shown(u, MentorContinue)
  {
    FixedButtonsUnprefixed();
  }

  lemma StartMainButton(u: TrackerUser, llm: Option<string>)
    ensures Callback(u, START_MAIN, llm) == Shown(u, MainReady)
  {
    FixedButtonsUnprefixed();
  }

  /** Meeting the mentor sends the fixed greeting as the first question. */
  lemma MeetMentor(u: TrackerUser, llm: Option<string>)
    ensures Callback(u, MEET_AI_MENTOR, llm) == Shown(Chat(u, MENTOR_GREETING, llm).0, MentorAnswer(llm))
  {
    FixedButtonsUnprefixed();
    var (v, a) := Chat(u, MENTOR_GREETING, llm);
    assert Callback(u, MEET_AI_MENTOR, llm) == Shown(v, MentorAnswer(a));
  }

  /** Finishing marks the wizard completed; from then on every message
      bypasses the wizard and leaves the step where it is. */
  lemma CompletionBypassesWizard(u: TrackerUser, llm: Option<string>, text: string, llm2: Option<string>)
    ensures var r := Callback(u, STEP_6_COMPLETION, llm);
            && r == Shown(Complete(u), CompletionScreen)
            && Message(r.user, text, llm2).user.step == COMPLETED
            && Message(r.user, text, llm2).user.completed
            && Message(r.user, text, llm2).screen in {StatusScreen, MentorAnswer(llm2)}
  {
    CompletionButton(u, llm);
  }

  lemma CompletionButton(u: TrackerUser, llm: Option<string>)
    ensures Callback(u, STEP_6_COMPLETION, llm) == Shown(Complete(u), CompletionScreen)
  {
    FixedButtonsUnprefixed();
    assert Callback(u, STEP_6_COMPLETION, llm) == Shown(Complete(u.(step := COMPLETION)), CompletionScreen);
  }

  // ---------------------------------------------------------------------
  // Walking the questionnaire

  /** Feeds callbacks one after another until one raises. */
  function Replay(o: Outcome, datas: seq<string>, llm: Option<string>): (r: Outcome)
    ensures r.user.userId == o.user.userId
    ensures |datas| == 0 ==> r == o
    decreases |datas|
  {
    if |datas| == 0 || o.Raised? then o
    else Replay(Callback(o.user, datas[0], llm), datas[1..], llm)
  }

  /** The answer buttons pressed in order, one per question. */
  function AnswerButtons(scores: seq<nat>): (r: seq<string>)
    ensures |r| == |scores|
    ensures forall i :: 0 <= i < |r| ==> r[i] == AnswerData(i, scores[i])
  {
    seq(|scores|, i requires 0 <= i < |scores| => AnswerData(i, scores[i]))
  }

  /** Answering the remaining questions in order from question `k` records
      exactly the scores and moves on to the goals step. */
  lemma {:induction false} AnswerRest(u: TrackerUser, screen: Screen, scores: seq<nat>, k: nat, llm: Option<string>)
    requires |scores| == QUESTION_COUNT && k < |scores|
    requires u.anxietyAnswers == scores[..k]
    ensures Replay(Shown(u, screen), AnswerButtons(scores)[k..], llm)
            == Shown(u.(step := GOALS, anxietyAnswers := scores), SurveyResults)
    decreases |scores| - k
  {
    var buttons := AnswerButtons(scores);
    AnswerButton(u, k, scores[k], llm);
    AnswerNext(scores[..k], scores[k]);
    assert scores[..k] + [scores[k]] == scores[..k + 1];
    var v := u.(anxietyAnswers := scores[..k + 1]);
    assert Callback(u, buttons[k], llm) == ShowQuestion(v, k + 1);
    assert buttons[k..][0] == buttons[k];
    assert buttons[k..][1..] == buttons[k + 1..];
    assert Replay(Shown(u, screen), buttons[k..], llm) == Replay(ShowQuestion(v, k + 1), buttons[k + 1..], llm);
    if k + 1 < |scores| {
      AnswerRest(v, Question(k + 1), scores, k + 1, llm);
    } else {
      assert scores[..k + 1] == scores;
      assert buttons[k + 1..] == [];
    }
  }

  /** Starting the questionnaire and answering all five questions in order
      stores exactly the five scores and lands on the goals step. */
  lemma FullQuestionnaire(u: TrackerUser, scores: seq<nat>, llm: Option<string>)
    requires |scores| == QUESTION_COUNT
    ensures Replay(Callback(u, ANXIETY_START, llm), AnswerButtons(scores), llm)
            == Shown(u.(step := GOALS, anxietyAnswers := scores), SurveyResults)
  {
    var v := u.(step := ANXIETY_SURVEY, anxietyAnswers := []);
    AnxietyStart(u, llm);
    assert scores[..0] == [];
    assert AnswerButtons(scores)[0..] == AnswerButtons(scores);
    AnswerRest(v, Question(0), scores, 0, llm);
    assert v.(step := GOALS, anxietyAnswers := scores) == u.(step := GOALS, anxietyAnswers := scores);
  }

  // ---------------------------------------------------------------------
  // The shape of a stored record

  /** Turns alternate, starting with the user. */
  ghost predicate Alternates(h: seq<MentorTurn>)
  {
    forall i :: 0 <= i < |h| ==> h[i].role == (if i % 2 == 0 then UserRole else AssistantRole)
  }

  /** A mentor history of whole question/answer pairs, at most twenty
      turns. */
  ghost predicate HistoryShape(h: seq<MentorTurn>)
  {
    |h| <= HISTORY_LIMIT && |h| % 2 == 0 && Alternates(h)
  }

  ghost predicate RecordShape(u: TrackerUser)
  {
    NoDuplicates(u.goals) && HistoryShape(u.history)
  }

  lemma NewRecordShape(userId: int, now: int)
    ensures RecordShape(NewTrackerUser(userId, now))
  {
  }

  /** Appending a question and its answer to whole pairs gives whole pairs. */
  lemma PairAlternates(h: seq<MentorTurn>, message: string, answer: string)
    requires |h| % 2 == 0 && Alternates(h)
    ensures Alternates(h + [MentorTurn(UserRole, message), MentorTurn(AssistantRole, answer)])
  {
    var full := h + [MentorTurn(UserRole, message), MentorTurn(AssistantRole, answer)];
    forall j | 0 <= j < |full|
      ensures full[j].role == (if j % 2 == 0 then UserRole else AssistantRole)
    {
      if j < |h| {
        assert full[j] == h[j];
      }
    }
  }

  /** Dropping an even number of oldest turns keeps the alternation. */
  lemma DropPairsAlternates(full: seq<MentorTurn>, drop: nat)
    requires Alternates(full) && drop <= |full| && drop % 2 == 0
    ensures Alternates(full[drop..])
  {
    var h := full[drop..];
    forall i | 0 <= i < |h|
      ensures h[i].role == (if i % 2 == 0 then UserRole else AssistantRole)
    {
      assert h[i] == full[i + drop];
      assert (i + drop) % 2 == i % 2;
    }
  }

  /** A mentor exchange keeps whole pairs: the cut at twenty turns drops
      one oldest pair at a time. */
  lemma {:induction false} ChatKeepsShape(u: TrackerUser, message: string, llm: Option<string>)
    requires HistoryShape(u.history)
    ensures HistoryShape(Chat(u, message, llm).0.history)
  {
    if llm.Some? {
      var h := Chat(u, message, llm).0.history;
      var pair := [MentorTurn(UserRole, message), MentorTurn(AssistantRole, llm.value)];
      var drop := |u.history| + 2 - |h|;
      assert drop == 0 || drop == 2;
      assert h == h[..|h| - 2] + h[|h| - 2..];
      assert h == u.history[drop..] + pair;
      DropPairsAlternates(u.history, drop);
      PairAlternates(u.history[drop..], message, llm.value);
    }
  }

  /** Every callback keeps the record's shape, even one that raises. */
  lemma CallbackKeepsShape(u: TrackerUser, data: string, llm: Option<string>)
    requires RecordShape(u)
    ensures RecordShape(Callback(u, data, llm).user)
  {
    var v := Callback(u, data, llm).user;
    if data == MEET_AI_MENTOR {
      MeetMentor(u, llm);
      ChatKeepsShape(u, MENTOR_GREETING, llm);
    } else {
      assert v.history == u.history;
    }
    if GOAL_PREFIX <= data {
      GoalDispatch(u, data, llm);
    } else {
      assert v.goals == u.goals;
    }
  }

  /** Every message keeps the record's shape. */
  lemma MessageKeepsShape(u: TrackerUser, text: string, llm: Option<string>)
    requires RecordShape(u)
    ensures RecordShape(Message(u, text, llm).user)
  {
    ChatKeepsShape(u, Strip(text), llm);
  }
}

=== FILE: orchestrator.dfy ===
/** The deterministic parts of the multi-agent layer over the SQLite store:
    the onboarding agent's step successor, the task agent's update dispatch
    and filter, the evening agent's start check, the state and context the
    orchestrator and the mentor read from the analytics, and how a routing
    answer picks the agent. What the language model says is a parameter. */
module Orchestrator {
  import opened Seqs
  import opened Tasks
  import DB = TaskDatabase
  import OB = Onboarding

  // ---------------------------------------------------------------------
  // Onboarding step successor

  /** How many successors separate `step` from `completed`: an unknown
      step is one away, like `completion`. */
  function Remaining(step: string): (k: nat)
    ensures k <= 7
    ensures k == 0 <==> step == OB.COMPLETED
  {
    if step == OB.GREETING then 7
    else if step == OB.ANXIETY_INTRO then 6
    else if step == OB.ANXIETY_SURVEY then 5
    else if step == OB.GOALS then 4
    else if step == OB.NOTIFICATIONS then 3
    else if step == OB.AI_MENTOR then 2
    else if step == OB.COMPLETED then 0
    else 1
  }

  /** `_determine_next_step`: the step after `step`; `completion`, and any
      step not in the wizard, is followed by `completed`, which stays. */
  function NextStep(step: string): (r: string)
    ensures Remaining(r) == if step == OB.COMPLETED then 0 else Remaining(step) - 1
    ensures OB.StepNumber(r) >= OB.StepNumber(step)
  {
    if step == OB.GREETING then OB.ANXIETY_INTRO
    else if step == OB.ANXIETY_INTRO then OB.ANXIETY_SURVEY
    else if step == OB.ANXIETY_SURVEY then OB.GOALS
    else if step == OB.GOALS then OB.NOTIFICATIONS
    else if step == OB.NOTIFICATIONS then OB.AI_MENTOR
    else if step == OB.AI_MENTOR then OB.COMPLETION
    else OB.COMPLETED
  }

  /** The successor follows the wizard's own step order. */
  lemma NextFollowsOrder(i: nat)
    requires i + 1 < |OB.STEP_ORDER|
    ensures NextStep(OB.STEP_ORDER[i]) == OB.STEP_ORDER[i + 1]
  {
  }

  /** `n` applications of the successor. */
  function Advance(step: string, n: nat): string
    decreases n
  {
    if n == 0 then step else Advance(NextStep(step), n - 1)
  }

  /** Enough successors reach `completed`, which then stays put. */
  lemma {:induction false} AdvanceReachesCompleted(step: string, n: nat)
    requires n >= Remaining(step)
    ensures Advance(step, n) == OB.COMPLETED
    decreases n
  {
    if n > 0 {
      AdvanceReachesCompleted(NextStep(step), n - 1);
    }
  }

  /** Any step reaches `completed` within seven successors. */
  lemma SevenStepsComplete(step: string)
    ensures Advance(step, 7) == OB.COMPLETED
  {
    AdvanceReachesCompleted(step, 7);
  }

  // ---------------------------------------------------------------------
  // Task agent

  /** `_update_task`: the `status` field goes to the status update, the
      `priority` field to the priority update, any other field fails
      without touching the store. */
  function UpdateTask(db: DB.Db, user: int, taskId: string, field: string, value: string, now: int): (r: DB.Outcome)
    ensures field != "status" && field != "priority" ==> r == DB.Outcome(false, db)
    ensures r.ok <==> (field == "status" || field == "priority") && DB.AnyAddressed(db.tasks, taskId, user)
    ensures !r.ok ==> r.db == db
    ensures |r.db.tasks| == |db.tasks|
    ensures forall i :: 0 <= i < |db.tasks| ==>
              var (old_, new_) := (db.tasks[i], r.db.tasks[i]);
              && new_.id == old_.id && new_.userId == old_.userId
              && (new_ != old_ ==> old_.id == taskId && old_.userId == user)
              && (field == "status" && new_ != old_ ==> new_.status == value && new_.priority == old_.priority)
              && (field == "priority" && new_ != old_ ==> new_.priority == value && new_.status == old_.status)
  {
    if field == "status" then DB.UpdateTaskStatus(db, taskId, user, value, now)
    else if field == "priority" then DB.UpdateTaskPriority(db, taskId, user, value, now)
    else DB.Outcome(false, db)
  }

  /** `_filter_tasks`: makes sure the user row exists, lists the user's
      tasks (by status when one is given, newest first) and keeps those of
      the given priority when one is given. */
  function FilterTasks(db: DB.Db, user: int, status: string, priority: string, now: int): (r: (DB.Db, seq<Task>))
    ensures r.0 == DB.EnsureUserExists(db, user, now)
    ensures forall t :: t in r.1 <==>
              && t in db.tasks && t.userId == user
              && (!IsSetText(status) || t.status == status)
              && (!IsSetText(priority) || t.priority == priority)
    ensures forall t :: (multiset(r.1)[t] ==
              if && t.userId == user
                 && (!IsSetText(status) || t.status == status)
                 && (!IsSetText(priority) || t.priority == priority)
              then multiset(db.tasks)[t] else 0)
    ensures forall i, j :: 0 <= i < j < |r.1| ==> r.1[i].createdAt >= r.1[j].createdAt
  {
    var db' := DB.EnsureUserExists(db, user, now);
    var listed := DB.GetTasks(db', user, status);
    assert db'.tasks == db.tasks;
    if IsSetText(priority) then
      var kept := Filter(listed, WithPriority(priority));
      assert SortedBy(listed, DB.Newest);
      FilterSorted(listed, WithPriority(priority), DB.Newest);
      (db', kept)
    else (db', listed)
  }

  // ---------------------------------------------------------------------
  // Evening agent

  datatype StartCheck = Refused | Accepted(tasksCount: nat)

  /** The agent's `start_evening_session`: accepted when the user has
      pending or in-progress tasks. Today's date is computed but not used,
      so an earlier session the same day does not matter. */
  function StartEvening(db: DB.Db, user: int): (r: StartCheck)
    ensures r.Accepted? <==> exists t :: t in db.tasks && t.userId == user && IsActive(t)
    ensures r.Accepted? ==>
              r.tasksCount == |DB.GetTasks(db, user, PENDING)| + |DB.GetTasks(db, user, IN_PROGRESS)|
  {
    var active := DB.GetTasks(db, user, PENDING) + DB.GetTasks(db, user, IN_PROGRESS);
    if |active| == 0 then
      assert forall t :: t in db.tasks && t.userId == user && IsActive(t) ==> t in active;
      Refused
    else
      assert active[0] in active;
      Accepted(|active|)
  }

  /** The user's active tasks are the pending ones plus the in-progress
      ones, counted with multiplicity. */
  lemma ActiveSplit(db: DB.Db, user: int)
    ensures multiset(Filter(Filter(db.tasks, OfUser(user)), IsActive))
         == multiset(DB.GetTasks(db, user, PENDING)) + multiset(DB.GetTasks(db, user, IN_PROGRESS))
  {
    var mine := Filter(db.tasks, OfUser(user));
    var p := DB.GetTasks(db, user, PENDING);
    var q := DB.GetTasks(db, user, IN_PROGRESS);
    var a := Filter(mine, IsActive);
    assert IsSetText(PENDING) && IsSetText(IN_PROGRESS);
    forall t
      ensures multiset(a)[t] == multiset(p)[t] + multiset(q)[t]
    {
      assert multiset(a)[t] == if IsActive(t) then multiset(mine)[t] else 0;
      assert multiset(mine)[t] == if t.userId == user then multiset(db.tasks)[t] else 0;
      assert multiset(p)[t] == if t.userId == user && t.status == PENDING then multiset(db.tasks)[t] else 0;
      assert multiset(q)[t] == if t.userId == user && t.status == IN_PROGRESS then multiset(db.tasks)[t] else 0;
    }
  }

  /** The count covers every active task of the user. */
  lemma StartEveningCountsActive(db: DB.Db, user: int)
    requires StartEvening(db, user).Accepted?
    ensures StartEvening(db, user).tasksCount == Count(Filter(db.tasks, OfUser(user)), IsActive)
  {
    var a := Filter(Filter(db.tasks, OfUser(user)), IsActive);
    var p := DB.GetTasks(db, user, PENDING);
    var q := DB.GetTasks(db, user, IN_PROGRESS);
    ActiveSplit(db, user);
    assert |multiset(a)| == |multiset(p) + multiset(q)|;
  }

  /** Stored evening sessions play no part in the agent's check. */
  lemma StartEveningIgnoresSessions(db: DB.Db, user: int, sessions: seq<DB.DayRow>)
    ensures StartEvening(db.(sessions := sessions), user) == StartEvening(db, user)
  {
    assert DB.GetTasks(db.(sessions := sessions), user, PENDING) == DB.GetTasks(db, user, PENDING);
    assert DB.GetTasks(db.(sessions := sessions), user, IN_PROGRESS) == DB.GetTasks(db, user, IN_PROGRESS);
  }

  // ---------------------------------------------------------------------
  // State read from the analytics

  /** A value of a decoded JSON object, as far as the checks below look at
      it; a list or an object is a `Container`, and only its emptiness
      matters. */
  datatype Json = JNull | JBool(b: bool) | JInt(i: int) | JReal(r: real) | JText(s: string) | Container(empty: bool)

  /** `int(x)` for a float: truncation toward zero. */
  function Truncate(r: real): (i: int)
    ensures r >= 0.0 ==> i as real <= r < i as real + 1.0
    ensures r < 0.0 ==> i as real - 1.0 < r <= i as real
  {
    if r >= 0.0 then r.Floor else -((-r).Floor)
  }

  /** `isinstance(x, (int, float))`; a Python bool is an int. */
  predicate IsNumber(v: Json)
  {
    v.JInt? || v.JBool? || v.JReal?
  }

  /** The guard `x is None or not isinstance(x, (int, float))` replacing a
      value by 0, followed by `int(x)`. */
  function CoerceInt(v: Option<Json>): (i: int)
    ensures !(v.Some? && IsNumber(v.value)) ==> i == 0
    ensures v.Some? && v.value.JInt? ==> i == v.value.i
    ensures v.Some? && v.value.JBool? ==> i == (if v.value.b then 1 else 0)
    ensures v.Some? && v.value.JReal? ==> i == Truncate(v.value.r)
  {
    match v
    case Some(JInt(i)) => i
    case Some(JBool(b)) => if b then 1 else 0
    case Some(JReal(r)) => Truncate(r)
    case _ => 0
  }

  /** Python truthiness of a JSON value. */
  predicate Truthy(v: Json)
  {
    match v
    case JNull => false
    case JBool(b) => b
    case JInt(i) => i != 0
    case JReal(r) => r != 0.0
    case JText(s) => |s| > 0
    case Container(empty) => !empty
  }

  /** What `_get_user_state` returns on success. `welcome_completed`,
      `evening_state` and `welcome_step` are fixed placeholders. */
  datatype UserState = UserState(
    totalTasks: Json,
    activeTasks: int,
    completionRate: Json,
    welcomeStep: string)

  function Lookup(m: map<string, Json>, key: string): Option<Json>
  {
    if key in m then Some(m[key]) else None
  }

  /** `_get_user_state` over the analytics object: total and completed are
      guarded to numbers, `active_tasks = int(total) - int(completed)`, and
      the completion rate only replaces a falsy value by 0. */
  function GetUserState(analytics: map<string, Json>): (s: UserState)
    ensures s.activeTasks == CoerceInt(Lookup(analytics, "total_tasks")) - CoerceInt(Lookup(analytics, "completed_tasks"))
    ensures s.welcomeStep == OB.COMPLETED
    ensures var total := Lookup(analytics, "total_tasks");
            s.totalTasks == if total.Some? && IsNumber(total.value) then total.value else JInt(0)
    ensures "completion_rate" in analytics && Truthy(analytics["completion_rate"]) ==>
              s.completionRate == analytics["completion_rate"]
    ensures !("completion_rate" in analytics && Truthy(analytics["completion_rate"])) ==> s.completionRate == JInt(0)
  {
    var total := Lookup(analytics, "total_tasks");
    var totalKept := match total
      case Some(JInt(i)) => JInt(i)
      case Some(JBool(b)) => JBool(b)
      case Some(JReal(r)) => JReal(r)
      case _ => JInt(0);
    var rate := Lookup(analytics, "completion_rate");
    var rateKept := if rate.Some? && Truthy(rate.value) then rate.value else JInt(0);
    UserState(totalKept, CoerceInt(total) - CoerceInt(Lookup(analytics, "completed_tasks")), rateKept, OB.COMPLETED)
  }

  /** The analytics object the store produces, as JSON. */
  function AnalyticsJson(a: DB.Analytics): (m: map<string, Json>)
    ensures Lookup(m, "total_tasks") == Some(JInt(a.totalTasks))
    ensures Lookup(m, "completed_tasks") == Some(JInt(a.completedTasks))
    ensures Lookup(m, "completion_rate") == Some(JReal(a.completionRate))
  {
    map["total_tasks" := JInt(a.totalTasks), "completed_tasks" := JInt(a.completedTasks),
        "in_progress_tasks" := JInt(a.inProgressTasks), "pending_tasks" := JInt(a.pendingTasks),
        "completion_rate" := JReal(a.completionRate), "priority_distribution" := Container(|a.priorityDistribution| == 0)]
  }

  /** On the store's own analytics the guards change nothing: the active
      count is the number of tasks not completed, which covers every
      pending and in-progress task. */
  lemma StateFromStore(a: DB.Analytics)
    requires a.pendingTasks + a.inProgressTasks + a.completedTasks <= a.totalTasks
    ensures var s := GetUserState(AnalyticsJson(a));
            && s.totalTasks == JInt(a.totalTasks)
            && s.activeTasks == a.totalTasks - a.completedTasks
            && s.activeTasks >= a.pendingTasks + a.inProgressTasks
  {
  }

  /** What `_get_user_context` hands to the mentor. */
  datatype MentorContext = MentorContext(totalTasks: int, completionRate: real, recentTasks: seq<Task>)

  /** `float(x)` after the numeric guard. */
  function CoerceReal(v: Option<Json>): (r: real)
    ensures v.Some? && v.value.JReal? ==> r == v.value.r
    ensures v.Some? && v.value.JInt? ==> r == v.value.i as real
    ensures v.Some? && v.value.JBool? ==> r == (if v.value.b then 1.0 else 0.0)
    ensures !(v.Some? && IsNumber(v.value)) ==> r == 0.0
  {
    match v
    case Some(JInt(i)) => i as real
    case Some(JBool(b)) => if b then 1.0 else 0.0
    case Some(JReal(r)) => r
    case _ => 0.0
  }

  /** `_get_user_context`: at most the five newest tasks, and the guarded
      total and rate of the analytics. */
  function GetUserContext(tasks: seq<Task>, analytics: map<string, Json>): (c: MentorContext)
    ensures c.recentTasks <= tasks
    ensures |c.recentTasks| == if |tasks| < 5 then |tasks| else 5
    ensures c.totalTasks == CoerceInt(Lookup(analytics, "total_tasks"))
    ensures c.completionRate == CoerceReal(Lookup(analytics, "completion_rate"))
  {
    MentorContext(CoerceInt(Lookup(analytics, "total_tasks")), CoerceReal(Lookup(analytics, "completion_rate")),
                  if |tasks| <= 5 then tasks else tasks[..5])
  }

  /** Over the store the mentor sees the five newest tasks and the exact
      total and rate. */
  lemma ContextFromStore(db: DB.Db, user: int)
    ensures var c := GetUserContext(DB.GetTasks(db, user, ""), AnalyticsJson(DB.GetTaskAnalytics(db, user)));
            && c.totalTasks == Count(db.tasks, OfUser(user))
            && 0.0 <= c.completionRate <= 100.0
            && forall t :: t in c.recentTasks ==> t in db.tasks && t.userId == user
  {
  }

  // ---------------------------------------------------------------------
  // Routing

  datatype Agent = Welcome | TaskManagement | NotificationsAgent | EveningTracker | Mentor

  /** `_delegate_to_agent`: the four named agents by exact name, the
      mentor for `AI_MENTOR` and for anything else. */
  function Delegate(name: Json): (a: Agent)
    ensures a == Welcome <==> name == JText("WELCOME")
    ensures a == TaskManagement <==> name == JText("TASK_MANAGEMENT")
    ensures a == NotificationsAgent <==> name == JText("NOTIFICATIONS")
    ensures a == EveningTracker <==> name == JText("EVENING_TRACKER")
  {
    match name
    case JText(s) =>
      if s == "WELCOME" then Welcome
      else if s == "TASK_MANAGEMENT" then TaskManagement
      else if s == "NOTIFICATIONS" then NotificationsAgent
      else if s == "EVENING_TRACKER" then EveningTracker
      else Mentor
    case _ => Mentor
  }

  /** What the routing model returned: nothing usable (the call or the JSON
      parsing raised, or the JSON is not an object), or an object. */
  datatype RouterAnswer = Failed | NotAnObject | Fields(fields: map<string, Json>)

  datatype Routing = Routing(agentName: Json, confidence: Json, agent: Agent)

  /** `route_request`: a missing agent name means the mentor, a missing
      confidence means 0.5; any failure falls back to the mentor with
      confidence 0.1. */
  function Route(answer: RouterAnswer): (r: Routing)
    ensures !answer.Fields? ==> r == Routing(JText("AI_MENTOR"), JReal(0.1), Mentor)
    ensures answer.Fields? && "agent" !in answer.fields ==> r.agentName == JText("AI_MENTOR") && r.agent == Mentor
    ensures answer.Fields? && "confidence" !in answer.fields ==> r.confidence == JReal(0.5)
    ensures answer.Fields? && "agent" in answer.fields ==> r.agentName == answer.fields["agent"]
    ensures answer.Fields? && "confidence" in answer.fields ==> r.confidence == answer.fields["confidence"]
    ensures r.agent == Delegate(r.agentName)
  {
    match answer
    case Fields(f) =>
      var name := if "agent" in f then f["agent"] else JText("AI_MENTOR");
      var confidence := if "confidence" in f then f["confidence"] else JReal(0.5);
      Routing(name, confidence, Delegate(name))
    case _ => Routing(JText("AI_MENTOR"), JReal(0.1), Mentor)
  }

  /** Whatever the router answers, the request reaches an agent, and it is
      the mentor unless the answer names one of the other four exactly. */
  lemma RoutingTotal(answer: RouterAnswer)
    ensures Route(answer).agent != Mentor ==>
              && answer.Fields? && "agent" in answer.fields
              && answer.fields["agent"] in {JText("WELCOME"), JText("TASK_MANAGEMENT"),
                                            JText("NOTIFICATIONS"), JText("EVENING_TRACKER")}
  {
  }

  /** The step the onboarding agent reports when the orchestrator delegates
      to it: the state's step, or the greeting when the state is empty. */
  function WelcomeDelegation(state: Option<UserState>): (r: string)
    ensures state.None? ==> r == OB.ANXIETY_INTRO
    ensures state.Some? ==> Remaining(r) == if state.value.welcomeStep == OB.COMPLETED then 0
                                            else Remaining(state.value.welcomeStep) - 1
  {
    NextStep(if state.Some? then state.value.welcomeStep else OB.GREETING)
  }

  /** With the orchestrator's own state the onboarding agent always reports
      `completed`; with an empty state (the state lookup failed) it reports
      the step after the greeting. */
  lemma WelcomeDelegationFixed(analytics: map<string, Json>)
    ensures WelcomeDelegation(Some(GetUserState(analytics))) == OB.COMPLETED
    ensures WelcomeDelegation(None) == OB.ANXIETY_INTRO
  {
  }
}

=== FILE: seqs.dfy ===
/** Small sequence toolkit shared by every part of the model: optional values,
    order-preserving filters, counting and a stable sort by an integer key. */
module Seqs {

  datatype Option<+T> = None | Some(value: T)

  /** The elements of `s` satisfying `p`, in their original order (a Python
      list comprehension with an `if` clause). */
  function Filter<T(!new)>(s: seq<T>, p: T -> bool): (r: seq<T>)
    ensures |r| <= |s|
    ensures forall i :: 0 <= i < |r| ==> p(r[i])
    ensures forall x :: x in r <==> x in s && p(x)
    ensures forall x :: multiset(r)[x] == if p(x) then multiset(s)[x] else 0
  {
    if |s| == 0 then []
    else
      assert s == [s[0]] + s[1..];
      if p(s[0]) then [s[0]] + Filter(s[1..], p) else Filter(s[1..], p)
  }

  /** Filtering distributes over concatenation: this is what "order preserved"
      means for a filter. */
  lemma {:induction false} FilterConcat<T(!new)>(a: seq<T>, b: seq<T>, p: T -> bool)
    ensures Filter(a + b, p) == Filter(a, p) + Filter(b, p)
  {
    if |a| == 0 {
      assert a + b == b;
    } else {
      assert (a + b)[1..] == a[1..] + b;
      FilterConcat(a[1..], b, p);
    }
  }

  /** A filter that keeps everything is the identity. */
  lemma {:induction false} FilterAll<T(!new)>(s: seq<T>, p: T -> bool)
    requires forall i :: 0 <= i < |s| ==> p(s[i])
    ensures Filter(s, p) == s
  {
    if |s| > 0 {
      FilterAll(s[1..], p);
    }
  }

  /** Filters with predicates that agree on every element give the same list. */
  lemma {:induction false} FilterSame<T(!new)>(s: seq<T>, p: T -> bool, q: T -> bool)
    requires forall i :: 0 <= i < |s| ==> p(s[i]) == q(s[i])
    ensures Filter(s, p) == Filter(s, q)
  {
    if |s| > 0 {
      FilterSame(s[1..], p, q);
    }
  }

  /** Two filters in a row are one filter with the conjunction. */
  lemma {:induction false} FilterFilter<T(!new)>(s: seq<T>, p: T -> bool, q: T -> bool)
    ensures Filter(Filter(s, p), q) == Filter(s, x => p(x) && q(x))
  {
    if |s| > 0 {
      FilterFilter(s[1..], p, q);
      if p(s[0]) {
        assert Filter(s, p) == [s[0]] + Filter(s[1..], p);
        assert Filter(s, p)[1..] == Filter(s[1..], p);
      }
    }
  }

  /** Rewriting only elements the filter rejects, without making them
      selected, leaves the filtered list unchanged. */
  lemma {:induction false} FilterPointwise<T(!new)>(a: seq<T>, b: seq<T>, p: T -> bool)
    requires |a| == |b|
    requires forall i :: 0 <= i < |a| ==> p(a[i]) == p(b[i])
    requires forall i :: 0 <= i < |a| && p(a[i]) ==> a[i] == b[i]
    ensures Filter(a, p) == Filter(b, p)
  {
    if |a| > 0 {
      FilterPointwise(a[1..], b[1..], p);
    }
  }

  /** A filter that rejects some element is strictly shorter. */
  lemma {:induction false} FilterDrops<T(!new)>(s: seq<T>, p: T -> bool, i: nat)
    requires i < |s| && !p(s[i])
    ensures |Filter(s, p)| < |s|
  {
    if i > 0 {
      FilterDrops(s[1..], p, i - 1);
    }
  }

  /** A filter comes back empty exactly when no element qualifies. */
  lemma FilterNone<T(!new)>(s: seq<T>, p: T -> bool)
    ensures |Filter(s, p)| == 0 <==> forall i :: 0 <= i < |s| ==> !p(s[i])
  {
    var f := Filter(s, p);
    if |f| > 0 {
      assert f[0] in s;
    } else {
      forall i | 0 <= i < |s| ensures !p(s[i]) {
        assert s[i] in s;
      }
    }
  }

  /** Number of elements of `s` satisfying `p`. */
  function Count<T(!new)>(s: seq<T>, p: T -> bool): (n: nat)
    ensures n <= |s|
  {
    |Filter(s, p)|
  }

  /** Counting over a concatenation adds up. */
  lemma CountConcat<T(!new)>(a: seq<T>, b: seq<T>, p: T -> bool)
    ensures Count(a + b, p) == Count(a, p) + Count(b, p)
  {
    FilterConcat(a, b, p);
  }

  /** Lists of equal length whose elements agree position by position on
      `p` have the same count. */
  lemma {:induction false} CountPointwise<T(!new)>(a: seq<T>, b: seq<T>, p: T -> bool)
    requires |a| == |b|
    requires forall i :: 0 <= i < |a| ==> p(a[i]) == p(b[i])
    ensures Count(a, p) == Count(b, p)
  {
    if |a| > 0 {
      CountPointwise(a[1..], b[1..], p);
    }
  }

  /** Two predicates that never hold together count at most the whole list. */
  lemma {:induction false} CountDisjoint<T(!new)>(s: seq<T>, p: T -> bool, q: T -> bool)
    requires forall x :: !(p(x) && q(x))
    ensures Count(s, p) + Count(s, q) <= |s|
  {
    if |s| > 0 {
      CountDisjoint(s[1..], p, q);
    }
  }

  /** Lists with the same elements counted with multiplicity have the same
      members. */
  lemma SameMembers<T>(a: seq<T>, b: seq<T>)
    requires multiset(a) == multiset(b)
    ensures forall x :: x in a <==> x in b
  {
    forall x ensures x in a <==> x in b {
      assert x in a <==> x in multiset(a);
      assert x in b <==> x in multiset(b);
    }
  }

  /** Non-decreasing order by `key`. */
  ghost predicate SortedBy<T>(s: seq<T>, key: T -> int)
  {
    forall i, j :: 0 <= i < j < |s| ==> key(s[i]) <= key(s[j])
  }

  /** A filter keeps a sorted list sorted. */
  lemma {:induction false} FilterSorted<T(!new)>(s: seq<T>, p: T -> bool, key: T -> int)
    requires SortedBy(s, key)
    ensures SortedBy(Filter(s, p), key)
  {
    if |s| > 0 {
      FilterSorted(s[1..], p, key);
      var rest := Filter(s[1..], p);
      forall k | 0 <= k < |rest| ensures key(s[0]) <= key(rest[k]) {
        assert rest[k] in s[1..];
      }
    }
  }

  /** A head no larger than anything after it keeps a sorted list sorted. */
  lemma SortedCons<T>(h: T, t: seq<T>, key: T -> int)
    requires SortedBy(t, key)
    requires forall k :: 0 <= k < |t| ==> key(h) <= key(t[k])
    ensures SortedBy([h] + t, key)
  {
    var r := [h] + t;
    forall i, j | 0 <= i < j < |r| ensures key(r[i]) <= key(r[j]) {
      assert r[j] == t[j - 1];
      if i > 0 {
        assert r[i] == t[i - 1];
      }
    }
  }

  /** Inserts `x` before the first element whose key is not smaller. */
  function Insert<T>(x: T, s: seq<T>, key: T -> int): (r: seq<T>)
    requires SortedBy(s, key)
    ensures SortedBy(r, key)
    ensures multiset(r) == multiset(s) + multiset{x}
    ensures forall k :: 0 <= k < |r| ==> key(r[k]) >= key(x) || (|s| > 0 && key(r[k]) >= key(s[0]))
  {
    if |s| == 0 then [x]
    else if key(x) <= key(s[0]) then
      SortedCons(x, s, key);
      [x] + s
    else
      assert s == [s[0]] + s[1..];
      var t := Insert(x, s[1..], key);
      SortedCons(s[0], t, key);
      [s[0]] + t
  }

  /** Stable insertion sort by ascending key (Python's `list.sort(key=...)`
      is stable and ascending as well). */
  function SortBy<T>(s: seq<T>, key: T -> int): (r: seq<T>)
    ensures SortedBy(r, key)
    ensures multiset(r) == multiset(s)
    ensures |r| == |s|
  {
    if |s| == 0 then []
    else
      assert s == [s[0]] + s[1..];
      Insert(s[0], SortBy(s[1..], key), key)
  }
}

=== FILE: task_database.dfy ===
/** The SQLite task store: the `tracker_users`, `tasks`, `evening_sessions`
    and `daily_summaries` tables as immutable sequences, and each store call
    as one atomic transition. Every task mutation is keyed by
    `(task id, user id)`. */
module TaskDatabase {
  import opened Seqs
  import opened Tasks

  /** A column value of `tracker_users`. */
  datatype Value = Null | Int(i: int) | Text(s: string) | Real(r: real)

  /** One row of `tracker_users`: the key and the other columns by name. */
  datatype UserRow = UserRow(userId: int, fields: map<string, Value>)

  /** One row of `evening_sessions` or `daily_summaries`, reduced to the
      columns their constraints mention. */
  datatype DayRow = DayRow(id: string, userId: int, date: string)

  datatype Db = Db(
    users: seq<UserRow>,
    tasks: seq<Task>,
    sessions: seq<DayRow>,
    summaries: seq<DayRow>)

  datatype DbError = DuplicateKey | NoSuchColumn

  datatype Result<T> = Ok(value: T) | Err(error: DbError)

  /** Result of an UPDATE/DELETE: whether a row matched, and the new store. */
  datatype Outcome = Outcome(ok: bool, db: Db)

  const EmptyDb: Db := Db([], [], [], [])

  // ---------------------------------------------------------------------
  // Row selectors

  /** The WHERE clause `id = ? AND user_id = ?`. */
  function Addressed(taskId: string, user: int): Task -> bool
  {
    (t: Task) => t.id == taskId && t.userId == user
  }

  function NotAddressed(taskId: string, user: int): Task -> bool
  {
    (t: Task) => !(t.id == taskId && t.userId == user)
  }

  /** `rowcount > 0` for the WHERE clause above. */
  predicate AnyAddressed(tasks: seq<Task>, taskId: string, user: int)
  {
    exists i :: 0 <= i < |tasks| && tasks[i].id == taskId && tasks[i].userId == user
  }

  predicate IdsUnique(tasks: seq<Task>)
  {
    forall i, j :: 0 <= i < j < |tasks| ==> tasks[i].id != tasks[j].id
  }

  predicate IdFree(tasks: seq<Task>, taskId: string)
  {
    forall i :: 0 <= i < |tasks| ==> tasks[i].id != taskId
  }

  /** What the store keeps true across all its operations: `id` is the
      primary key and `completed_at` is set exactly for completed tasks. */
  predicate Valid(db: Db)
  {
    && IdsUnique(db.tasks)
    && forall i :: 0 <= i < |db.tasks| ==> CompletionStamped(db.tasks[i])
  }

  // ---------------------------------------------------------------------
  // Tasks

  /** `create_task`: inserts one row with the column defaults `status =
      'pending'` and `completed_at = NULL`; a reused id violates the primary
      key and the call raises. */
  function CreateTask(db: Db, taskId: string, user: int, title: string, description: string,
                      priority: string, dueDate: Option<int>, now: int): (r: Result<Db>)
    ensures r.Ok? <==> IdFree(db.tasks, taskId)
    ensures r.Ok? ==>
      && |r.value.tasks| == |db.tasks| + 1
      && r.value.tasks[..|db.tasks|] == db.tasks
      && var t := r.value.tasks[|db.tasks|];
         && t.id == taskId && t.userId == user && t.title == title
         && t.description == description && t.priority == priority
         && t.dueDate == dueDate
         && t.status == PENDING && t.createdAt == now && t.updatedAt == now
         && t.completedAt == None
    ensures r.Ok? ==> r.value.users == db.users && r.value.sessions == db.sessions
                      && r.value.summaries == db.summaries
  {
    if IdFree(db.tasks, taskId) then
      var t := Task(taskId, user, title, description, priority, PENDING, now, now, dueDate, None);
      assert (db.tasks + [t])[..|db.tasks|] == db.tasks;
      Ok(db.(tasks := db.tasks + [t]))
    else Err(DuplicateKey)
  }

  /** Descending creation time, as `ORDER BY created_at DESC`. */
  function Newest(t: Task): int
  {
    -t.createdAt
  }

  /** The WHERE clause of `get_tasks`: an empty status means no status filter. */
  function Listed(user: int, status: string): Task -> bool
  {
    (t: Task) => t.userId == user && (!IsSetText(status) || t.status == status)
  }

  /** Ascending `Newest` is descending creation time. */
  lemma NewestFirst(r: seq<Task>)
    requires SortedBy(r, Newest)
    ensures forall i, j :: 0 <= i < j < |r| ==> r[i].createdAt >= r[j].createdAt
  {
    forall i, j | 0 <= i < j < |r| ensures r[i].createdAt >= r[j].createdAt {
      assert Newest(r[i]) <= Newest(r[j]);
    }
  }

  /** `get_tasks(user_id, status)`. */
  function GetTasks(db: Db, user: int, status: string): (r: seq<Task>)
    ensures forall t :: t in r <==>
      t in db.tasks && t.userId == user && (!IsSetText(status) || t.status == status)
    ensures forall t :: (multiset(r)[t] ==
      if t.userId == user && (!IsSetText(status) || t.status == status) then multiset(db.tasks)[t] else 0)
    ensures forall i, j :: 0 <= i < j < |r| ==> r[i].createdAt >= r[j].createdAt
  {
    var selected := Filter(db.tasks, Listed(user, status));
    var r := SortBy(selected, Newest);
    SameMembers(r, selected);
    NewestFirst(r);
    r
  }

  /** The row an `UPDATE ... SET status = ?` leaves behind. */
  function WithNewStatus(t: Task, status: string, now: int): Task
  {
    t.(status := status, updatedAt := now,
       completedAt := if status == COMPLETED then Some(now) else None)
  }

  /** `update_task_status`: true iff a row with that `(id, user_id)` exists;
      `completed_at` becomes now for `completed` and NULL otherwise. */
  function UpdateTaskStatus(db: Db, taskId: string, user: int, status: string, now: int): (r: Outcome)
    ensures r.ok <==> AnyAddressed(db.tasks, taskId, user)
    ensures !r.ok ==> r.db == db
    ensures r.db.users == db.users && r.db.sessions == db.sessions && r.db.summaries == db.summaries
    ensures |r.db.tasks| == |db.tasks|
    ensures forall i :: 0 <= i < |db.tasks| ==>
      var (old_, new_) := (db.tasks[i], r.db.tasks[i]);
      if old_.id == taskId && old_.userId == user then
        && new_.status == status && new_.updatedAt == now
        && (new_.completedAt == Some(now) <==> status == COMPLETED)
        && (new_.completedAt == None <==> status != COMPLETED)
        && new_ == old_.(status := new_.status, updatedAt := now, completedAt := new_.completedAt)
      else new_ == old_
  {
    if AnyAddressed(db.tasks, taskId, user) then
      var tasks := seq(|db.tasks|, i requires 0 <= i < |db.tasks| =>
        if db.tasks[i].id == taskId && db.tasks[i].userId == user
        then WithNewStatus(db.tasks[i], status, now) else db.tasks[i]);
      Outcome(true, db.(tasks := tasks))
    else Outcome(false, db)
  }

  /** `update_task_priority`: only `priority` and `updated_at` of the
      addressed row change. */
  function UpdateTaskPriority(db: Db, taskId: string, user: int, priority: string, now: int): (r: Outcome)
    ensures r.ok <==> AnyAddressed(db.tasks, taskId, user)
    ensures !r.ok ==> r.db == db
    ensures r.db.users == db.users && r.db.sessions == db.sessions && r.db.summaries == db.summaries
    ensures |r.db.tasks| == |db.tasks|
    ensures forall i :: 0 <= i < |db.tasks| ==>
      var (old_, new_) := (db.tasks[i], r.db.tasks[i]);
      if old_.id == taskId && old_.userId == user then
        new_ == old_.(priority := priority, updatedAt := now)
      else new_ == old_
  {
    if AnyAddressed(db.tasks, taskId, user) then
      var tasks := seq(|db.tasks|, i requires 0 <= i < |db.tasks| =>
        if db.tasks[i].id == taskId && db.tasks[i].userId == user
        then db.tasks[i].(priority := priority, updatedAt := now) else db.tasks[i]);
      Outcome(true, db.(tasks := tasks))
    else Outcome(false, db)
  }

  /** `delete_task`: removes the addressed row; with no match nothing of any
      user is touched. */
  function DeleteTask(db: Db, taskId: string, user: int): (r: Outcome)
    ensures r.ok <==> AnyAddressed(db.tasks, taskId, user)
    ensures !r.ok ==> r.db == db
    ensures r.db.users == db.users && r.db.sessions == db.sessions && r.db.summaries == db.summaries
    ensures forall t :: t in r.db.tasks <==> t in db.tasks && !(t.id == taskId && t.userId == user)
    ensures forall t :: (multiset(r.db.tasks)[t] ==
      if t.id == taskId && t.userId == user then 0 else multiset(db.tasks)[t])
    ensures r.ok ==> |r.db.tasks| < |db.tasks|
  {
    if AnyAddressed(db.tasks, taskId, user) then
      var kept := Filter(db.tasks, NotAddressed(taskId, user));
      var i :| 0 <= i < |db.tasks| && db.tasks[i].id == taskId && db.tasks[i].userId == user;
      FilterDrops(db.tasks, NotAddressed(taskId, user), i);
      Outcome(true, db.(tasks := kept))
    else
      FilterAll(db.tasks, NotAddressed(taskId, user));
      Outcome(false, db)
  }

  // ---------------------------------------------------------------------
  // Analytics

  /** One entry of `priority_distribution` (`GROUP BY priority`). */
  datatype PriorityCount = PriorityCount(priority: string, count: nat)

  datatype Analytics = Analytics(
    totalTasks: nat,
    completedTasks: nat,
    inProgressTasks: nat,
    pendingTasks: nat,
    completionRate: real,
    priorityDistribution: seq<PriorityCount>)

  /** Number of `tasks` of `priority`, counted from the back so that it
      follows the shape of `GroupByPriority`. */
  function CountPriority(tasks: seq<Task>, priority: string): nat
  {
    if |tasks| == 0 then 0
    else CountPriority(tasks[..|tasks| - 1], priority) + (if tasks[|tasks| - 1].priority == priority then 1 else 0)
  }

  /** A positive count has a row to show for it. */
  lemma {:induction false} CountedWitness(tasks: seq<Task>, priority: string) returns (i: nat)
    requires CountPriority(tasks, priority) > 0
    ensures i < |tasks| && tasks[i].priority == priority
  {
    if tasks[|tasks| - 1].priority == priority {
      i := |tasks| - 1;
    } else {
      i := CountedWitness(tasks[..|tasks| - 1], priority);
    }
  }

  /** The back-to-front count agrees with the generic filter count. */
  lemma {:induction false} CountPriorityIsCount(tasks: seq<Task>, priority: string)
    ensures CountPriority(tasks, priority) == Count(tasks, WithPriority(priority))
  {
    if |tasks| > 0 {
      var init := tasks[..|tasks| - 1];
      CountPriorityIsCount(init, priority);
      assert tasks == init + [tasks[|tasks| - 1]];
      CountConcat(init, [tasks[|tasks| - 1]], WithPriority(priority));
    }
  }

  predicate HasKey(g: seq<PriorityCount>, priority: string)
  {
    exists k :: 0 <= k < |g| && g[k].priority == priority
  }

  predicate KeysDistinct(g: seq<PriorityCount>)
  {
    forall i, j :: 0 <= i < j < |g| ==> g[i].priority != g[j].priority
  }

  function SumCounts(g: seq<PriorityCount>): nat
  {
    if |g| == 0 then 0 else SumCounts(g[..|g| - 1]) + g[|g| - 1].count
  }

  lemma {:induction false} SumCountsBump(g: seq<PriorityCount>, k: nat)
    requires k < |g|
    ensures SumCounts(g[k := g[k].(count := g[k].count + 1)]) == SumCounts(g) + 1
  {
    var g' := g[k := g[k].(count := g[k].count + 1)];
    if k < |g| - 1 {
      assert g'[..|g'| - 1] == g[..|g| - 1][k := g[k].(count := g[k].count + 1)];
      SumCountsBump(g[..|g| - 1], k);
    } else {
      assert g'[..|g'| - 1] == g[..|g| - 1];
    }
  }

  /** Counts one more task of `priority`. */
  function Bump(g: seq<PriorityCount>, priority: string): (r: seq<PriorityCount>)
    requires KeysDistinct(g)
    ensures |g| <= |r| <= |g| + 1
    ensures KeysDistinct(r)
    ensures SumCounts(r) == SumCounts(g) + 1
    ensures HasKey(r, priority)
    ensures forall k :: 0 <= k < |g| ==> r[k].priority == g[k].priority
    ensures |r| == |g| + 1 ==> !HasKey(g, priority) && r[|g|] == PriorityCount(priority, 1)
    ensures forall k :: 0 <= k < |g| ==>
      r[k].count == g[k].count + (if g[k].priority == priority then 1 else 0)
  {
    if HasKey(g, priority) then
      var k :| 0 <= k < |g| && g[k].priority == priority;
      BumpAt(g, k);
      g[k := g[k].(count := g[k].count + 1)]
    else
      BumpAppend(g, priority);
      g + [PriorityCount(priority, 1)]
  }

  /** Counting one more under an existing key. */
  lemma BumpAt(g: seq<PriorityCount>, k: nat)
    requires KeysDistinct(g) && k < |g|
    ensures var r := g[k := g[k].(count := g[k].count + 1)];
            && KeysDistinct(r) && SumCounts(r) == SumCounts(g) + 1 && HasKey(r, g[k].priority)
            && (forall j :: 0 <= j < |g| ==> r[j].priority == g[j].priority)
            && (forall j :: 0 <= j < |g| ==> r[j].count == g[j].count + (if g[j].priority == g[k].priority then 1 else 0))
  {
    SumCountsBump(g, k);
    var r := g[k := g[k].(count := g[k].count + 1)];
    assert r[k].priority == g[k].priority;
  }

  /** A new key starts its group at one. */
  lemma BumpAppend(g: seq<PriorityCount>, priority: string)
    requires KeysDistinct(g) && !HasKey(g, priority)
    ensures var r := g + [PriorityCount(priority, 1)];
            && KeysDistinct(r) && SumCounts(r) == SumCounts(g) + 1 && HasKey(r, priority)
  {
    var r := g + [PriorityCount(priority, 1)];
    assert r[..|r| - 1] == g;
    assert r[|g|].priority == priority;
  }

  lemma CountPrioritySnoc(tasks: seq<Task>, t: Task, p: string)
    ensures CountPriority(tasks + [t], p) == CountPriority(tasks, p) + (if t.priority == p then 1 else 0)
  {
    assert (tasks + [t])[..|tasks|] == tasks;
  }

  /** `GROUP BY priority` with `COUNT(*)`: one entry per priority present,
      counts summing to the number of rows. */
  function GroupByPriority(tasks: seq<Task>): (g: seq<PriorityCount>)
    ensures KeysDistinct(g)
    ensures SumCounts(g) == |tasks|
    ensures forall k :: 0 <= k < |g| ==> g[k].count == CountPriority(tasks, g[k].priority) > 0
    ensures forall i :: 0 <= i < |tasks| ==> HasKey(g, tasks[i].priority)
  {
    if |tasks| == 0 then []
    else
      var g0 := GroupByPriority(tasks[..|tasks| - 1]);
      var g := Bump(g0, tasks[|tasks| - 1].priority);
      GroupStep(tasks, g0, g);
      g
  }

  /** The inductive step of `GroupByPriority`: one more row bumps its group. */
  lemma GroupStep(tasks: seq<Task>, g0: seq<PriorityCount>, g: seq<PriorityCount>)
    requires |tasks| > 0
    requires KeysDistinct(g0)
    requires forall k :: 0 <= k < |g0| ==> g0[k].count == CountPriority(tasks[..|tasks| - 1], g0[k].priority) > 0
    requires forall i :: 0 <= i < |tasks| - 1 ==> HasKey(g0, tasks[i].priority)
    requires g == Bump(g0, tasks[|tasks| - 1].priority)
    ensures forall k :: 0 <= k < |g| ==> g[k].count == CountPriority(tasks, g[k].priority) > 0
    ensures forall i :: 0 <= i < |tasks| ==> HasKey(g, tasks[i].priority)
  {
    forall k | 0 <= k < |g|
      ensures g[k].count == CountPriority(tasks, g[k].priority) > 0
    {
      GroupCountAt(tasks, g0, g, k);
    }
    forall i | 0 <= i < |tasks|
      ensures HasKey(g, tasks[i].priority)
    {
      if i < |tasks| - 1 {
        var k :| 0 <= k < |g0| && g0[k].priority == tasks[i].priority;
        assert g[k].priority == tasks[i].priority;
      }
    }
  }

  /** One group of the inductive step. */
  lemma GroupCountAt(tasks: seq<Task>, g0: seq<PriorityCount>, g: seq<PriorityCount>, k: nat)
    requires |tasks| > 0
    requires KeysDistinct(g0)
    requires forall k :: 0 <= k < |g0| ==> g0[k].count == CountPriority(tasks[..|tasks| - 1], g0[k].priority) > 0
    requires forall i :: 0 <= i < |tasks| - 1 ==> HasKey(g0, tasks[i].priority)
    requires g == Bump(g0, tasks[|tasks| - 1].priority)
    requires k < |g|
    ensures g[k].count == CountPriority(tasks, g[k].priority) > 0
  {
    var init := tasks[..|tasks| - 1];
    var last := tasks[|tasks| - 1];
    if k == |g0| {
      if CountPriority(init, last.priority) > 0 {
        var i := CountedWitness(init, last.priority);
        assert false;
      }
    }
  }

  /** `get_task_analytics(user_id)`. */
  function GetTaskAnalytics(db: Db, user: int): (a: Analytics)
    ensures a.totalTasks == Count(db.tasks, OfUser(user))
    ensures var mine := Filter(db.tasks, OfUser(user));
      && a.completedTasks == Count(mine, WithStatus(COMPLETED))
      && a.inProgressTasks == Count(mine, WithStatus(IN_PROGRESS))
      && a.pendingTasks == Count(mine, WithStatus(PENDING))
    ensures a.pendingTasks + a.inProgressTasks + a.completedTasks <= a.totalTasks
    ensures a.completionRate == CompletionRate(a.completedTasks, a.totalTasks)
    ensures 0.0 <= a.completionRate <= 100.0
    ensures SumCounts(a.priorityDistribution) == a.totalTasks
    ensures KeysDistinct(a.priorityDistribution)
    ensures var mine := Filter(db.tasks, OfUser(user));
      && (forall k :: 0 <= k < |a.priorityDistribution| ==>
            a.priorityDistribution[k].count == CountPriority(mine, a.priorityDistribution[k].priority) > 0)
      && (forall i :: 0 <= i < |mine| ==> HasKey(a.priorityDistribution, mine[i].priority))
  {
    var mine := Filter(db.tasks, OfUser(user));
    var completed := Count(mine, WithStatus(COMPLETED));
    var inProgress := Count(mine, WithStatus(IN_PROGRESS));
    var pending := Count(mine, WithStatus(PENDING));
    StatusCountsBounded(mine);
    Analytics(|mine|, completed, inProgress, pending, CompletionRate(completed, |mine|), GroupByPriority(mine))
  }

  // ---------------------------------------------------------------------
  // Users

  const USER_COLUMNS: set<string> := {
    "step", "completed", "started_at", "anxiety_level", "anxiety_answers", "goals",
    "notifications", "met_ai_mentor", "ai_mentor_history", "timezone",
    "notification_time", "current_view", "evening_tracking_enabled",
    "evening_tracking_time", "created_at", "updated_at"}

  /** The row `ensure_user_exists` inserts: the explicit times plus the
      column defaults of the schema. */
  function NewUserFields(now: int): (f: map<string, Value>)
    ensures f.Keys == USER_COLUMNS
  {
    map[
      "step" := Text("greeting"), "completed" := Int(0), "started_at" := Int(now),
      "anxiety_level" := Null, "anxiety_answers" := Null, "goals" := Null,
      "notifications" := Null, "met_ai_mentor" := Int(0), "ai_mentor_history" := Null,
      "timezone" := Text("UTC"), "notification_time" := Text("09:00"),
      "current_view" := Text("main"), "evening_tracking_enabled" := Int(1),
      "evening_tracking_time" := Text("21:00"), "created_at" := Int(now), "updated_at" := Int(now)]
  }

  predicate HasUser(db: Db, user: int)
  {
    exists i :: 0 <= i < |db.users| && db.users[i].userId == user
  }

  /** `ensure_user_exists`: inserts a default row only when none exists. */
  function EnsureUserExists(db: Db, user: int, now: int): (r: Db)
    ensures HasUser(r, user)
    ensures HasUser(db, user) ==> r == db
    ensures !HasUser(db, user) ==>
      r == db.(users := db.users + [UserRow(user, NewUserFields(now))])
  {
    if HasUser(db, user) then db
    else
      var r := db.(users := db.users + [UserRow(user, NewUserFields(now))]);
      assert r.users[|db.users|].userId == user;
      r
  }

  /** A second `ensure_user_exists` changes nothing, whatever its clock. */
  lemma EnsureUserIdempotent(db: Db, user: int, now1: int, now2: int)
    ensures EnsureUserExists(EnsureUserExists(db, user, now1), user, now2)
         == EnsureUserExists(db, user, now1)
  {
  }

  /** The columns of one row after `SET c1 = ?, ..., updated_at = ?`: every
      named column takes its new value, `updated_at` takes the clock, every
      other column keeps its value. */
  function SetColumns(row: map<string, Value>, fields: map<string, Value>, now: int): (m: map<string, Value>)
    ensures m.Keys == row.Keys + fields.Keys + {"updated_at"}
    ensures m["updated_at"] == Int(now)
    ensures forall c :: c in fields && c != "updated_at" ==> m[c] == fields[c]
    ensures forall c :: c in row && c !in fields && c != "updated_at" ==> m[c] == row[c]
  {
    row + fields["updated_at" := Int(now)]
  }

  /** `update_user_data(user_id, **fields)`: no fields is a no-op returning
      true; an unknown column makes SQLite raise and the call return false;
      otherwise the named columns and `updated_at` are set on the user's row
      (and on no row when the user does not exist, still returning true). */
  function UpdateUserData(db: Db, user: int, fields: map<string, Value>, now: int): (r: Outcome)
    ensures |fields| == 0 ==> r == Outcome(true, db)
    ensures r.ok <==> (|fields| == 0 || fields.Keys <= USER_COLUMNS)
    ensures !r.ok ==> r.db == db
    ensures r.db.tasks == db.tasks && r.db.sessions == db.sessions && r.db.summaries == db.summaries
    ensures |r.db.users| == |db.users|
    ensures forall i :: 0 <= i < |db.users| ==> (r.db.users[i] ==
      if r.ok && |fields| > 0 && db.users[i].userId == user
      then UserRow(user, SetColumns(db.users[i].fields, fields, now))
      else db.users[i])
  {
    if |fields| == 0 then Outcome(true, db)
    else if !(fields.Keys <= USER_COLUMNS) then Outcome(false, db)
    else
      var users := seq(|db.users|, i requires 0 <= i < |db.users| =>
        if db.users[i].userId == user then UserRow(user, SetColumns(db.users[i].fields, fields, now))
        else db.users[i]);
      Outcome(true, db.(users := users))
  }

  // ---------------------------------------------------------------------
  // Evening sessions and daily summaries

  /** `UNIQUE(user_id, date)` together with the `id` primary key. */
  predicate OnePerDay(rows: seq<DayRow>)
  {
    forall i, j :: 0 <= i < j < |rows| ==>
      rows[i].id != rows[j].id && (rows[i].userId, rows[i].date) != (rows[j].userId, rows[j].date)
  }

  /** An INSERT into a table carrying both constraints. */
  function InsertDayRow(rows: seq<DayRow>, row: DayRow): (r: Result<seq<DayRow>>)
    ensures r.Ok? <==> forall i :: 0 <= i < |rows| ==>
      rows[i].id != row.id && (rows[i].userId, rows[i].date) != (row.userId, row.date)
    ensures r.Ok? ==> r.value == rows + [row]
    ensures OnePerDay(rows) && r.Ok? ==> OnePerDay(r.value)
  {
    if forall i :: 0 <= i < |rows| ==>
      rows[i].id != row.id && (rows[i].userId, rows[i].date) != (row.userId, row.date)
    then Ok(rows + [row])
    else Err(DuplicateKey)
  }

  function InsertEveningSession(db: Db, row: DayRow): (r: Result<Db>)
    ensures OnePerDay(db.sessions) && r.Ok? ==> OnePerDay(r.value.sessions)
    ensures r.Ok? <==> forall i :: 0 <= i < |db.sessions| ==>
      db.sessions[i].id != row.id && (db.sessions[i].userId, db.sessions[i].date) != (row.userId, row.date)
  {
    match InsertDayRow(db.sessions, row)
    case Ok(rows) => Ok(db.(sessions := rows))
    case Err(e) => Err(e)
  }

  function InsertDailySummary(db: Db, row: DayRow): (r: Result<Db>)
    ensures OnePerDay(db.summaries) && r.Ok? ==> OnePerDay(r.value.summaries)
    ensures r.Ok? <==> forall i :: 0 <= i < |db.summaries| ==>
      db.summaries[i].id != row.id && (db.summaries[i].userId, db.summaries[i].date) != (row.userId, row.date)
  {
    match InsertDayRow(db.summaries, row)
    case Ok(rows) => Ok(db.(summaries := rows))
    case Err(e) => Err(e)
  }

  /** A second session for the same user and date is refused. */
  lemma SecondSessionSameDayRefused(db: Db, a: DayRow, b: DayRow)
    requires InsertEveningSession(db, a).Ok?
    requires a.userId == b.userId && a.date == b.date
    ensures InsertEveningSession(InsertEveningSession(db, a).value, b).Err?
  {
    var db1 := InsertEveningSession(db, a).value;
    assert db1.sessions[|db1.sessions| - 1] == a;
  }
}

=== FILE: task_database_facts.dfy ===
/** Properties of the SQLite task store that relate several calls: the store
    invariant is kept, a create is undone by the matching delete, one user's
    calls never change what another user sees, and the analytics follow the
    rows. */
module TaskDatabaseFacts {
  import opened Seqs
  import opened Tasks
  import opened TaskDatabase

  lemma CreateKeepsValid(db: Db, taskId: string, user: int, title: string, description: string,
                         priority: string, dueDate: Option<int>, now: int)
    requires Valid(db)
    requires CreateTask(db, taskId, user, title, description, priority, dueDate, now).Ok?
    ensures Valid(CreateTask(db, taskId, user, title, description, priority, dueDate, now).value)
  {
  }

  lemma UpdateStatusKeepsValid(db: Db, taskId: string, user: int, status: string, now: int)
    requires Valid(db)
    ensures Valid(UpdateTaskStatus(db, taskId, user, status, now).db)
  {
    var r := UpdateTaskStatus(db, taskId, user, status, now).db;
    forall i | 0 <= i < |r.tasks|
      ensures CompletionStamped(r.tasks[i])
    {
    }
  }

  lemma UpdatePriorityKeepsValid(db: Db, taskId: string, user: int, priority: string, now: int)
    requires Valid(db)
    ensures Valid(UpdateTaskPriority(db, taskId, user, priority, now).db)
  {
  }

  /** Dropping rows never makes two ids collide. */
  lemma {:induction false} FilterKeepsIdsUnique(tasks: seq<Task>, p: Task -> bool)
    requires IdsUnique(tasks)
    ensures IdsUnique(Filter(tasks, p))
  {
    if |tasks| > 0 {
      FilterKeepsIdsUnique(tasks[1..], p);
      var rest := Filter(tasks[1..], p);
      if p(tasks[0]) {
        var r := [tasks[0]] + rest;
        assert Filter(tasks, p) == r;
        forall j | 0 < j < |r|
          ensures r[0].id != r[j].id
        {
          assert rest[j - 1] in tasks[1..];
        }
      }
    }
  }

  lemma DeleteKeepsValid(db: Db, taskId: string, user: int)
    requires Valid(db)
    ensures Valid(DeleteTask(db, taskId, user).db)
  {
    FilterKeepsIdsUnique(db.tasks, NotAddressed(taskId, user));
  }

  /** Deleting the task just created gives back the very same store. */
  lemma CreateThenDelete(db: Db, taskId: string, user: int, title: string, description: string,
                         priority: string, dueDate: Option<int>, now: int)
    requires CreateTask(db, taskId, user, title, description, priority, dueDate, now).Ok?
    ensures DeleteTask(CreateTask(db, taskId, user, title, description, priority, dueDate, now).value,
                       taskId, user) == Outcome(true, db)
  {
    var db1 := CreateTask(db, taskId, user, title, description, priority, dueDate, now).value;
    var t := db1.tasks[|db.tasks|];
    assert db1.tasks == db.tasks + [t];
    assert AnyAddressed(db1.tasks, taskId, user);
    RemoveAppended(db.tasks, t, taskId, user);
    assert db1.(tasks := db.tasks) == db;
  }

  /** Removing the rows of a key that only the appended row has gives the
      old rows back. */
  lemma RemoveAppended(tasks: seq<Task>, t: Task, taskId: string, user: int)
    requires IdFree(tasks, taskId) && t.id == taskId && t.userId == user
    ensures Filter(tasks + [t], NotAddressed(taskId, user)) == tasks
  {
    FilterConcat(tasks, [t], NotAddressed(taskId, user));
    FilterAll(tasks, NotAddressed(taskId, user));
    assert Filter([t], NotAddressed(taskId, user)) == [];
  }

  /** What `other` sees through `get_tasks` is not changed by `user`'s
      status update. */
  lemma StatusUpdateIsolated(db: Db, taskId: string, user: int, status: string, now: int,
                             other: int, filter: string)
    requires other != user
    ensures GetTasks(UpdateTaskStatus(db, taskId, user, status, now).db, other, filter)
         == GetTasks(db, other, filter)
  {
    var r := UpdateTaskStatus(db, taskId, user, status, now).db;
    FilterPointwise(db.tasks, r.tasks, Listed(other, filter));
  }

  lemma PriorityUpdateIsolated(db: Db, taskId: string, user: int, priority: string, now: int,
                               other: int, filter: string)
    requires other != user
    ensures GetTasks(UpdateTaskPriority(db, taskId, user, priority, now).db, other, filter)
         == GetTasks(db, other, filter)
  {
    var r := UpdateTaskPriority(db, taskId, user, priority, now).db;
    FilterPointwise(db.tasks, r.tasks, Listed(other, filter));
  }

  lemma DeleteIsolated(db: Db, taskId: string, user: int, other: int, filter: string)
    requires other != user
    ensures GetTasks(DeleteTask(db, taskId, user).db, other, filter) == GetTasks(db, other, filter)
  {
    var r := DeleteTask(db, taskId, user).db;
    DeleteFilterIsolated(db.tasks, taskId, user, other, filter);
    assert Filter(r.tasks, Listed(other, filter)) == Filter(db.tasks, Listed(other, filter));
  }

  lemma {:induction false} DeleteFilterIsolated(tasks: seq<Task>, taskId: string, user: int,
                                                other: int, filter: string)
    requires other != user
    ensures Filter(Filter(tasks, NotAddressed(taskId, user)), Listed(other, filter))
         == Filter(tasks, Listed(other, filter))
  {
    if |tasks| > 0 {
      DeleteFilterIsolated(tasks[1..], taskId, user, other, filter);
      var kept := Filter(tasks, NotAddressed(taskId, user));
      if NotAddressed(taskId, user)(tasks[0]) {
        assert kept == [tasks[0]] + Filter(tasks[1..], NotAddressed(taskId, user));
        assert kept[1..] == Filter(tasks[1..], NotAddressed(taskId, user));
      }
    }
  }

  lemma CreateIsolated(db: Db, taskId: string, user: int, title: string, description: string,
                       priority: string, dueDate: Option<int>, now: int, other: int, filter: string)
    requires other != user
    requires CreateTask(db, taskId, user, title, description, priority, dueDate, now).Ok?
    ensures GetTasks(CreateTask(db, taskId, user, title, description, priority, dueDate, now).value,
                     other, filter) == GetTasks(db, other, filter)
  {
    var db1 := CreateTask(db, taskId, user, title, description, priority, dueDate, now).value;
    var t := db1.tasks[|db.tasks|];
    assert db1.tasks == db.tasks + [t];
    SnocFilterIsolated(db.tasks, t, other, filter);
    assert Filter(db1.tasks, Listed(other, filter)) == Filter(db.tasks, Listed(other, filter));
  }

  lemma SnocFilterIsolated(tasks: seq<Task>, t: Task, other: int, filter: string)
    requires t.userId != other
    ensures Filter(tasks + [t], Listed(other, filter)) == Filter(tasks, Listed(other, filter))
  {
    FilterConcat(tasks, [t], Listed(other, filter));
    assert Filter([t], Listed(other, filter)) == [];
  }

  /** A create adds one pending task to its user's analytics. */
  lemma CreateCounted(db: Db, taskId: string, user: int, title: string, description: string,
                      priority: string, dueDate: Option<int>, now: int)
    requires CreateTask(db, taskId, user, title, description, priority, dueDate, now).Ok?
    ensures var before := GetTaskAnalytics(db, user);
            var after := GetTaskAnalytics(CreateTask(db, taskId, user, title, description, priority, dueDate, now).value, user);
            && after.totalTasks == before.totalTasks + 1
            && after.pendingTasks == before.pendingTasks + 1
            && after.completedTasks == before.completedTasks
            && after.inProgressTasks == before.inProgressTasks
  {
    var db1 := CreateTask(db, taskId, user, title, description, priority, dueDate, now).value;
    var t := db1.tasks[|db.tasks|];
    assert db1.tasks == db.tasks + [t];
    FilterConcat(db.tasks, [t], OfUser(user));
    var mine := Filter(db.tasks, OfUser(user));
    assert Filter([t], OfUser(user)) == [t];
    CountConcat(mine, [t], WithStatus(PENDING));
    CountConcat(mine, [t], WithStatus(COMPLETED));
    CountConcat(mine, [t], WithStatus(IN_PROGRESS));
    assert Filter([t], WithStatus(PENDING)) == [t];
    assert Filter([t], WithStatus(COMPLETED)) == [];
    assert Filter([t], WithStatus(IN_PROGRESS)) == [];
  }

  /** A user with no tasks gets zeros everywhere and no priority groups,
      never a missing value. */
  lemma EmptyUserAnalytics(db: Db, user: int)
    requires forall i :: 0 <= i < |db.tasks| ==> db.tasks[i].userId != user
    ensures var a := GetTaskAnalytics(db, user);
            && a.totalTasks == 0 && a.completedTasks == 0 && a.inProgressTasks == 0
            && a.pendingTasks == 0 && a.completionRate == 0.0 && a.priorityDistribution == []
  {
    assert Filter(db.tasks, OfUser(user)) == [];
  }

  /** For a fixed number of tasks, completing more never lowers the rate,
      and completing strictly more raises it. */
  lemma RateMonotone(c1: nat, c2: nat, total: nat)
    requires c1 <= c2
    ensures CompletionRate(c1, total) <= CompletionRate(c2, total)
    ensures total > 0 && c1 < c2 ==> CompletionRate(c1, total) < CompletionRate(c2, total)
  {
    if total > 0 {
      var t := total as real;
      assert CompletionRate(c2, total) - CompletionRate(c1, total) == (c2 - c1) as real / t * 100.0;
    }
  }
}

=== FILE: task_manager.dfy ===
/** The task manager agent of the YAML-backed assistant: the same task
    operations as the SQLite store, but over one user's list in the file,
    addressed by task id alone once the user has been looked up. */
module TaskManagerAgent {
  import opened Seqs
  import opened Tasks
  import opened AgentStore

  /** The three answers of a mutating tool call. */
  datatype Outcome = Done(store: Store) | UserNotFound | TaskNotFound

  /** The user's record, or the record a first task creates. */
  function UserOrNew(store: Store, user: int): AgentUser
  {
    if user in store then store[user] else NewAgentUser
  }

  /** `_create_task`: appends one pending task, creating the user's record
      when there is none. */
  function CreateTask(store: Store, user: int, taskId: string, title: string, description: string,
                      priority: string, now: int): (r: Store)
    ensures r.Keys == store.Keys + {user}
    ensures forall u :: u in store && u != user ==> r[u] == store[u]
    ensures var before := UserOrNew(store, user);
            && |r[user].tasks| == |before.tasks| + 1
            && r[user].tasks[..|before.tasks|] == before.tasks
            && r[user].session == before.session && r[user].summaries == before.summaries
    ensures var t := r[user].tasks[|r[user].tasks| - 1];
            && t.id == taskId && t.title == title && t.description == description
            && t.priority == priority && t.status == PENDING
            && t.createdAt == now && t.updatedAt == now && t.completedAt == None
  {
    var before := UserOrNew(store, user);
    var t := Task(taskId, user, title, description, priority, PENDING, now, now, None, None);
    assert (before.tasks + [t])[..|before.tasks|] == before.tasks;
    SaveRecord(store, user, WithNewTask(store, user, taskId, title, description, priority, now)).store
  }

  /** The user's record with the new pending task appended. */
  function WithNewTask(store: Store, user: int, taskId: string, title: string, description: string,
                       priority: string, now: int): AgentUser
  {
    var before := UserOrNew(store, user);
    before.(tasks := before.tasks + [Task(taskId, user, title, description, priority, PENDING, now, now, None, None)])
  }

  /** The answer of `_create_task`: the new task's id, or "Ошибка сохранения". */
  datatype Created = Created(taskId: string) | SaveFailed

  /** `_create_task` with the save as written: the answer is always the save
      error and the file is left empty, so no user has any task. */
  function CreateTaskAsWritten(store: Store, user: int, taskId: string, title: string, description: string,
                               priority: string, now: int): (r: (Created, Store))
    ensures r.0 == SaveFailed
    ensures forall u :: u !in r.1
  {
    var saved := SaveAsWritten(store, user, WithNewTask(store, user, taskId, title, description, priority, now));
    (if saved.ok then Created(taskId) else SaveFailed, saved.store)
  }

  /** `_get_tasks`: the stored list in stored order, narrowed to one status
      when a non-empty status is given; no user means no tasks. */
  function GetTasks(store: Store, user: int, status: string): (r: seq<Task>)
    ensures user !in store ==> r == []
    ensures user in store && !IsSetText(status) ==> r == store[user].tasks
    ensures user in store && IsSetText(status) ==>
      && (forall i :: 0 <= i < |r| ==> r[i].status == status)
      && (forall t :: (multiset(r)[t] == if t.status == status then multiset(store[user].tasks)[t] else 0))
      && r == Filter(store[user].tasks, WithStatus(status))
  {
    if user !in store then []
    else if IsSetText(status) then Filter(store[user].tasks, WithStatus(status))
    else store[user].tasks
  }

  /** `next(t for t in tasks if t.id == task_id)`: the first task with the id. */
  function FindTask(tasks: seq<Task>, taskId: string): (r: Option<nat>)
    ensures r.None? <==> forall i :: 0 <= i < |tasks| ==> tasks[i].id != taskId
    ensures r.Some? ==> r.value < |tasks| && tasks[r.value].id == taskId
    ensures r.Some? ==> forall j :: 0 <= j < r.value ==> tasks[j].id != taskId
  {
    if |tasks| == 0 then None
    else if tasks[0].id == taskId then Some(0)
    else match FindTask(tasks[1..], taskId)
      case None => None
      case Some(i) => Some(i + 1)
  }

  /** Replaces the user's task list, keeping the rest of the record. */
  function WithTasks(store: Store, user: int, tasks: seq<Task>): Store
    requires user in store
  {
    SaveRecord(store, user, store[user].(tasks := tasks)).store
  }

  /** `_update_task_status`: the first task with the id takes the status and
      the clock; `completed_at` is stamped on completion and otherwise left
      as it was, so reopening a task keeps its old stamp. */
  function UpdateTaskStatus(store: Store, user: int, taskId: string, status: string, now: int): (r: Outcome)
    ensures user !in store <==> r.UserNotFound?
    ensures r.TaskNotFound? <==> user in store && FindTask(store[user].tasks, taskId).None?
    ensures r.Done? ==>
      && r.store.Keys == store.Keys
      && (forall u :: u in store && u != user ==> r.store[u] == store[u])
      && r.store[user].session == store[user].session
      && r.store[user].summaries == store[user].summaries
      && var (before, after) := (store[user].tasks, r.store[user].tasks);
         var i := FindTask(before, taskId).value;
         && |after| == |before|
         && (forall j :: 0 <= j < |before| && j != i ==> after[j] == before[j])
         && after[i].status == status && after[i].updatedAt == now
         && after[i].completedAt == (if status == COMPLETED then Some(now) else before[i].completedAt)
         && after[i] == before[i].(status := status, updatedAt := now, completedAt := after[i].completedAt)
  {
    if user !in store then UserNotFound
    else match FindTask(store[user].tasks, taskId)
      case None => TaskNotFound
      case Some(i) =>
        var t := store[user].tasks[i];
        var t' := t.(status := status, updatedAt := now,
                     completedAt := if status == COMPLETED then Some(now) else t.completedAt);
        Done(WithTasks(store, user, store[user].tasks[i := t']))
  }

  /** `_update_task_priority`: only the first matching task's priority and
      update time change. */
  function UpdateTaskPriority(store: Store, user: int, taskId: string, priority: string, now: int): (r: Outcome)
    ensures user !in store <==> r.UserNotFound?
    ensures r.TaskNotFound? <==> user in store && FindTask(store[user].tasks, taskId).None?
    ensures r.Done? ==>
      && r.store.Keys == store.Keys
      && (forall u :: u in store && u != user ==> r.store[u] == store[u])
      && r.store[user].session == store[user].session
      && r.store[user].summaries == store[user].summaries
      && var (before, after) := (store[user].tasks, r.store[user].tasks);
         var i := FindTask(before, taskId).value;
         && |after| == |before|
         && (forall j :: 0 <= j < |before| && j != i ==> after[j] == before[j])
         && after[i] == before[i].(priority := priority, updatedAt := now)
  {
    if user !in store then UserNotFound
    else match FindTask(store[user].tasks, taskId)
      case None => TaskNotFound
      case Some(i) =>
        var t := store[user].tasks[i];
        Done(WithTasks(store, user, store[user].tasks[i := t.(priority := priority, updatedAt := now)]))
  }

  function WithoutId(taskId: string): Task -> bool
  {
    (t: Task) => t.id != taskId
  }

  /** `_delete_task`: every task carrying the id goes, the others keep their
      order. */
  function DeleteTask(store: Store, user: int, taskId: string): (r: Outcome)
    ensures user !in store <==> r.UserNotFound?
    ensures r.TaskNotFound? <==> user in store && FindTask(store[user].tasks, taskId).None?
    ensures r.Done? ==>
      && r.store.Keys == store.Keys
      && (forall u :: u in store && u != user ==> r.store[u] == store[u])
      && r.store[user].session == store[user].session
      && r.store[user].summaries == store[user].summaries
      && |r.store[user].tasks| < |store[user].tasks|
      && (forall t :: t in r.store[user].tasks <==> t in store[user].tasks && t.id != taskId)
      && r.store[user].tasks == Filter(store[user].tasks, WithoutId(taskId))
  {
    if user !in store then UserNotFound
    else match FindTask(store[user].tasks, taskId)
      case None => TaskNotFound
      case Some(i) =>
        FilterDrops(store[user].tasks, WithoutId(taskId), i);
        Done(WithTasks(store, user, Filter(store[user].tasks, WithoutId(taskId))))
  }

  /** The analytics dictionary of `_get_task_analytics`; the priority
      histogram always has exactly the four standard keys. */
  datatype AgentAnalytics = AgentAnalytics(
    totalTasks: nat,
    completedTasks: nat,
    inProgressTasks: nat,
    pendingTasks: nat,
    completionRate: real,
    urgent: nat,
    high: nat,
    medium: nat,
    low: nat)

  /** The four standard priorities together never outnumber the tasks. */
  lemma {:induction false} PriorityCountsBounded(s: seq<Task>)
    ensures Count(s, WithPriority(URGENT)) + Count(s, WithPriority(HIGH))
            + Count(s, WithPriority(MEDIUM)) + Count(s, WithPriority(LOW)) <= |s|
  {
    if |s| > 0 {
      PriorityCountsBounded(s[1..]);
    }
  }

  /** `_get_task_analytics`: nothing for an unknown user. */
  function GetTaskAnalytics(store: Store, user: int): (r: Option<AgentAnalytics>)
    ensures r.None? <==> user !in store
    ensures r.Some? ==>
      var a := r.value;
      && a.totalTasks == |store[user].tasks|
      && a.completedTasks + a.inProgressTasks + a.pendingTasks <= a.totalTasks
      && a.urgent + a.high + a.medium + a.low <= a.totalTasks
      && a.completedTasks == Count(store[user].tasks, WithStatus(COMPLETED))
      && a.inProgressTasks == Count(store[user].tasks, WithStatus(IN_PROGRESS))
      && a.pendingTasks == Count(store[user].tasks, WithStatus(PENDING))
      && a.urgent == Count(store[user].tasks, WithPriority(URGENT))
      && a.high == Count(store[user].tasks, WithPriority(HIGH))
      && a.medium == Count(store[user].tasks, WithPriority(MEDIUM))
      && a.low == Count(store[user].tasks, WithPriority(LOW))
      && a.completionRate == CompletionRate(a.completedTasks, a.totalTasks)
      && 0.0 <= a.completionRate <= 100.0
  {
    if user !in store then None
    else
      var tasks := store[user].tasks;
      StatusCountsBounded(tasks);
      PriorityCountsBounded(tasks);
      var completed := Count(tasks, WithStatus(COMPLETED));
      Some(AgentAnalytics(
        |tasks|, completed, Count(tasks, WithStatus(IN_PROGRESS)), Count(tasks, WithStatus(PENDING)),
        CompletionRate(completed, |tasks|),
        Count(tasks, WithPriority(URGENT)), Count(tasks, WithPriority(HIGH)),
        Count(tasks, WithPriority(MEDIUM)), Count(tasks, WithPriority(LOW))))
  }
}

=== FILE: task_manager_facts.dfy ===
/** Properties of the YAML task manager across calls, and the one point on
    which it and the SQLite store disagree. */
module TaskManagerFacts {
  import opened Seqs
  import opened Tasks
  import opened AgentStore
  import TM = TaskManagerAgent
  import DB = TaskDatabase

  /** Reopening a completed task in the YAML store keeps its completion
      stamp, so the task no longer satisfies `CompletionStamped`. */
  lemma {:induction false} ReopenKeepsStamp(store: Store, user: int, taskId: string, status: string,
                                            now: int, stamp: int)
    requires user in store
    requires TM.FindTask(store[user].tasks, taskId).Some?
    requires store[user].tasks[TM.FindTask(store[user].tasks, taskId).value].completedAt == Some(stamp)
    requires status != COMPLETED
    ensures var r := TM.UpdateTaskStatus(store, user, taskId, status, now);
            var i := TM.FindTask(store[user].tasks, taskId).value;
            && r.Done?
            && r.store[user].tasks[i].completedAt == Some(stamp)
            && !CompletionStamped(r.store[user].tasks[i])
  {
  }

  /** The same reopening in both stores: for a completed task present with
      the same id and user in each, the SQLite store clears the stamp of every
      addressed row while the YAML store keeps the old one. */
  lemma StoresDisagreeOnReopen(db: DB.Db, store: Store, user: int, taskId: string, status: string,
                               now: int, stamp: int)
    requires status != COMPLETED
    requires DB.AnyAddressed(db.tasks, taskId, user)
    requires user in store && TM.FindTask(store[user].tasks, taskId).Some?
    requires store[user].tasks[TM.FindTask(store[user].tasks, taskId).value].completedAt == Some(stamp)
    ensures var sqlite := DB.UpdateTaskStatus(db, taskId, user, status, now);
            && sqlite.ok
            && forall k :: 0 <= k < |db.tasks| && db.tasks[k].id == taskId && db.tasks[k].userId == user ==>
                 sqlite.db.tasks[k].completedAt == None
    ensures var yaml := TM.UpdateTaskStatus(store, user, taskId, status, now);
            var i := TM.FindTask(store[user].tasks, taskId).value;
            && yaml.Done? && yaml.store[user].tasks[i].completedAt == Some(stamp)
  {
    ReopenKeepsStamp(store, user, taskId, status, now, stamp);
  }

  /** Deleting the task just created gives the user back the list they had. */
  lemma {:induction false} CreateThenDelete(store: Store, user: int, taskId: string, title: string,
                                            description: string, priority: string, now: int)
    requires forall t :: t in TM.UserOrNew(store, user).tasks ==> t.id != taskId
    ensures var created := TM.CreateTask(store, user, taskId, title, description, priority, now);
            var deleted := TM.DeleteTask(created, user, taskId);
            && deleted.Done?
            && deleted.store == store[user := TM.UserOrNew(store, user)]
  {
    var before := TM.UserOrNew(store, user);
    var created := TM.CreateTask(store, user, taskId, title, description, priority, now);
    var t := created[user].tasks[|before.tasks|];
    assert created[user].tasks == before.tasks + [t];
    assert TM.FindTask(created[user].tasks, taskId).Some? by {
      assert created[user].tasks[|before.tasks|].id == taskId;
    }
    assert Filter(created[user].tasks, TM.WithoutId(taskId)) == before.tasks by {
      FilterConcat(before.tasks, [t], TM.WithoutId(taskId));
      forall i | 0 <= i < |before.tasks|
        ensures TM.WithoutId(taskId)(before.tasks[i])
      {
        assert before.tasks[i] in before.tasks;
      }
      FilterAll(before.tasks, TM.WithoutId(taskId));
      assert Filter([t], TM.WithoutId(taskId)) == [];
    }
    var deleted := TM.DeleteTask(created, user, taskId);
    assert deleted.store[user] == before;
  }

  /** A new task shows up last in its user's pending list; nothing before it
      moves. */
  lemma {:induction false} CreatedTaskListedLast(store: Store, user: int, taskId: string, title: string,
                                                 description: string, priority: string, now: int)
    ensures var created := TM.CreateTask(store, user, taskId, title, description, priority, now);
            var listed := TM.GetTasks(created, user, PENDING);
            && |listed| > 0
            && listed[..|listed| - 1] == TM.GetTasks(store, user, PENDING)
            && listed[|listed| - 1].id == taskId
  {
    var before := TM.UserOrNew(store, user);
    var created := TM.CreateTask(store, user, taskId, title, description, priority, now);
    var t := created[user].tasks[|before.tasks|];
    assert created[user].tasks == before.tasks + [t];
    FilterConcat(before.tasks, [t], WithStatus(PENDING));
    assert Filter([t], WithStatus(PENDING)) == [t];
    if user !in store {
      assert Filter(before.tasks, WithStatus(PENDING)) == [];
    }
  }

  /** The create with the save as written answers with the save error and
      leaves the file empty: the task is not listed and the next update of it
      finds no user. The intended create lists it last. */
  lemma CreateLostAsWritten(store: Store, user: int, taskId: string, title: string,
                            description: string, priority: string, status: string, now: int, later: int)
    ensures var (answer, after) := TM.CreateTaskAsWritten(store, user, taskId, title, description, priority, now);
            && answer == TM.SaveFailed
            && TM.GetTasks(after, user, "") == []
            && TM.UpdateTaskStatus(after, user, taskId, status, later).UserNotFound?
    ensures var listed := TM.GetTasks(TM.CreateTask(store, user, taskId, title, description, priority, now), user, "");
            |listed| > 0 && listed[|listed| - 1].id == taskId
  {
  }

  /** A priority update leaves the user's status counts and total as they
      were: only the priority histogram can move. */
  lemma PriorityUpdateKeepsStatusCounts(store: Store, user: int, taskId: string, priority: string, now: int)
    requires TM.UpdateTaskPriority(store, user, taskId, priority, now).Done?
    ensures var before := TM.GetTaskAnalytics(store, user).value;
            var after := TM.GetTaskAnalytics(TM.UpdateTaskPriority(store, user, taskId, priority, now).store, user).value;
            && after.totalTasks == before.totalTasks
            && after.completedTasks == before.completedTasks
            && after.inProgressTasks == before.inProgressTasks
            && after.pendingTasks == before.pendingTasks
            && after.completionRate == before.completionRate
  {
    var a := store[user].tasks;
    var b := TM.UpdateTaskPriority(store, user, taskId, priority, now).store[user].tasks;
    assert |b| == |a| && forall i :: 0 <= i < |a| ==> b[i].status == a[i].status;
    CountPointwise(a, b, WithStatus(COMPLETED));
    CountPointwise(a, b, WithStatus(IN_PROGRESS));
    CountPointwise(a, b, WithStatus(PENDING));
  }

  /** A create adds one pending task to its user's analytics. */
  lemma {:induction false} CreateCounted(store: Store, user: int, taskId: string, title: string,
                                         description: string, priority: string, now: int)
    requires user in store
    ensures var before := TM.GetTaskAnalytics(store, user).value;
            var after := TM.GetTaskAnalytics(TM.CreateTask(store, user, taskId, title, description, priority, now), user).value;
            && after.totalTasks == before.totalTasks + 1
            && after.pendingTasks == before.pendingTasks + 1
            && after.completedTasks == before.completedTasks
  {
    var tasks := store[user].tasks;
    var created := TM.CreateTask(store, user, taskId, title, description, priority, now);
    var t := created[user].tasks[|tasks|];
    assert created[user].tasks == tasks + [t];
    CountConcat(tasks, [t], WithStatus(PENDING));
    CountConcat(tasks, [t], WithStatus(COMPLETED));
    assert Filter([t], WithStatus(PENDING)) == [t];
    assert Filter([t], WithStatus(COMPLETED)) == [];
  }
}

=== FILE: tasks.dfy ===
/** The task record shared by both task stores and the notification jobs.
    Status and priority are free strings in the source (any string is stored
    and compared by equality); the constants below are the values the rest
    of the program uses. */
module Tasks {
  import opened Seqs

  const PENDING: string := "pending"
  const IN_PROGRESS: string := "in_progress"
  const COMPLETED: string := "completed"
  const CANCELLED: string := "cancelled"

  const LOW: string := "low"
  const MEDIUM: string := "medium"
  const HIGH: string := "high"
  const URGENT: string := "urgent"

  /** One row of the `tasks` table. Times are Unix seconds. */
  datatype Task = Task(
    id: string,
    userId: int,
    title: string,
    description: string,
    priority: string,
    status: string,
    createdAt: int,
    updatedAt: int,
    dueDate: Option<int>,
    completedAt: Option<int>)

  /** Pending or in progress: the tasks an evening review and a deadline
      sweep look at. */
  predicate IsActive(t: Task)
  {
    t.status == PENDING || t.status == IN_PROGRESS
  }

  /** The data-model invariant: `completed_at` is set exactly when the task
      is completed. */
  predicate CompletionStamped(t: Task)
  {
    t.completedAt.Some? <==> t.status == COMPLETED
  }

  /** Python truthiness of an optional timestamp: neither `None` nor `0`. */
  predicate IsSetTime(o: Option<int>)
  {
    o.Some? && o.value != 0
  }

  /** Python truthiness of a string: `if status:` skips the empty string. */
  predicate IsSetText(s: string)
  {
    |s| > 0
  }

  // ---------------------------------------------------------------------
  // Selectors and counts shared by both stores

  function OfUser(user: int): Task -> bool
  {
    (t: Task) => t.userId == user
  }

  function WithStatus(status: string): Task -> bool
  {
    (t: Task) => t.status == status
  }

  function WithPriority(priority: string): Task -> bool
  {
    (t: Task) => t.priority == priority
  }

  /** `completed / total * 100`, defined as exactly 0 for no tasks. */
  function CompletionRate(completed: nat, total: nat): (rate: real)
    ensures total == 0 ==> rate == 0.0
    ensures total > 0 ==> rate * total as real == completed as real * 100.0
    ensures completed <= total ==> 0.0 <= rate <= 100.0
  {
    if total > 0 then completed as real / total as real * 100.0 else 0.0
  }

  /** The three status counts never exceed the number of rows. */
  lemma {:induction false} StatusCountsBounded(s: seq<Task>)
    ensures Count(s, WithStatus(COMPLETED)) + Count(s, WithStatus(IN_PROGRESS))
            + Count(s, WithStatus(PENDING)) <= |s|
  {
    if |s| > 0 {
      StatusCountsBounded(s[1..]);
    }
  }
}

=== FILE: text.dfy ===
/** String helpers standing in for the Python `str` methods the core relies
    on: `lower`, `in`, `startswith`, `split`, `replace`, `strip`, slicing and
    decimal `int`/`str` conversion. */
module Text {
  import opened Seqs

  /** `c.lower()` for ASCII and the Cyrillic block U+0400..U+042F. */
  function LowerChar(c: char): (d: char)
    ensures 'A' <= c <= 'Z' ==> d as int == c as int + 32
    ensures 'А' <= c <= 'Я' ==> d as int == c as int + 32
    ensures 'Ѐ' <= c <= 'Џ' ==> d as int == c as int + 80
    ensures !('A' <= c <= 'Z' || 'Ѐ' <= c <= 'Я') ==> d == c
  {
    if 'A' <= c <= 'Z' || 'А' <= c <= 'Я' then (c as int + 32) as char
    else if 'Ѐ' <= c <= 'Џ' then (c as int + 80) as char
    else c
  }

  function Lower(s: string): (r: string)
    ensures |r| == |s|
    ensures forall i :: 0 <= i < |s| ==> r[i] == LowerChar(s[i])
  {
    seq(|s|, i requires 0 <= i < |s| => LowerChar(s[i]))
  }

  /** `sub in s` for Python strings: `sub` occurs at some position of `s`. */
  predicate Contains(s: string, sub: string)
  {
    sub <= s || (|s| > 0 && Contains(s[1..], sub))
  }

  /** The declarative reading of `Contains`. */
  lemma {:induction false} ContainsAt(s: string, sub: string)
    ensures Contains(s, sub) <==> exists i :: 0 <= i <= |s| && sub <= s[i..]
  {
    assert s[0..] == s;
    if |s| > 0 {
      ContainsAt(s[1..], sub);
      if Contains(s[1..], sub) {
        var i :| 0 <= i <= |s[1..]| && sub <= s[1..][i..];
        assert s[1..][i..] == s[i + 1..];
        assert sub <= s[i + 1..];
      }
      if exists i :: 0 <= i <= |s| && sub <= s[i..] {
        var i :| 0 <= i <= |s| && sub <= s[i..];
        if i > 0 {
          assert s[1..][i - 1..] == s[i..];
          assert Contains(s[1..], sub);
        }
      }
    } else {
      if exists i :: 0 <= i <= |s| && sub <= s[i..] {
        var i :| 0 <= i <= |s| && sub <= s[i..];
        assert i == 0;
      }
    }
  }

  /** `s[:n]` for a non-negative `n`. */
  function Take(s: string, n: nat): (r: string)
    ensures |r| == if n < |s| then n else |s|
    ensures r <= s
  {
    if n < |s| then s[..n] else s
  }

  /** `s[-n:]` for a list: the last `n` elements (all of them when shorter). */
  function KeepLast<T>(s: seq<T>, n: nat): (r: seq<T>)
    ensures |r| == if |s| <= n then |s| else n
    ensures forall i :: 0 <= i < |r| ==> r[i] == s[|s| - |r| + i]
  {
    if |s| <= n then s else s[|s| - n..]
  }

  /** `c * n` for a one-character string. */
  function Repeat(c: char, n: int): (r: string)
    ensures |r| == if n < 0 then 0 else n
    ensures forall i :: 0 <= i < |r| ==> r[i] == c
  {
    if n <= 0 then [] else seq(n, _ => c)
  }

  predicate IsDigit(c: char) { '0' <= c <= '9' }

  function DigitChar(d: nat): (c: char)
    requires d < 10
    ensures IsDigit(c)
  {
    ('0' as int + d) as char
  }

  function DigitValue(c: char): (d: nat)
    requires IsDigit(c)
    ensures d < 10 && DigitChar(d) == c
  {
    c as int - '0' as int
  }

  /** `str(n)` for a natural number. */
  function NatToString(n: nat): (r: string)
    ensures |r| > 0
    ensures forall i :: 0 <= i < |r| ==> IsDigit(r[i])
  {
    if n < 10 then [DigitChar(n)] else NatToString(n / 10) + [DigitChar(n % 10)]
  }

  /** `str(i)` for any integer. */
  function IntToString(i: int): (r: string)
    ensures |r| > 0
    ensures (r[0] == '-') <==> i < 0
  {
    if i < 0 then "-" + NatToString(-i) else NatToString(i)
  }

  /** Value of a string of decimal digits. */
  function DigitsValue(s: string): nat
    requires forall i :: 0 <= i < |s| ==> IsDigit(s[i])
  {
    if |s| == 0 then 0 else DigitsValue(s[..|s| - 1]) * 10 + DigitValue(s[|s| - 1])
  }

  /** `int(s)` restricted to plain decimal digits; `None` where Python raises. */
  function ParseNat(s: string): (r: Option<nat>)
    ensures r.Some? <==> |s| > 0 && forall i :: 0 <= i < |s| ==> IsDigit(s[i])
  {
    if |s| > 0 && forall i :: 0 <= i < |s| ==> IsDigit(s[i]) then Some(DigitsValue(s)) else None
  }

  /** Decimal printing and parsing are inverse. */
  lemma {:induction false} ParsePrinted(n: nat)
    ensures ParseNat(NatToString(n)) == Some(n)
  {
    var s := NatToString(n);
    if n >= 10 {
      ParsePrinted(n / 10);
      assert s[..|s| - 1] == NatToString(n / 10);
      assert DigitValue(s[|s| - 1]) == n % 10;
    } else {
      assert s == [DigitChar(n)];
      assert s[..0] == [];
      assert DigitValue(s[0]) == n;
      assert DigitsValue(s) == n;
    }
  }

  /** `int(s)` for a decimal literal: surrounding whitespace, an optional
      sign and at least one digit; `None` where Python raises. */
  function ParseInt(s: string): (r: Option<int>)
    ensures var t := Strip(s);
            r.Some? <==> (if |t| > 0 && (t[0] == '-' || t[0] == '+') then ParseNat(t[1..]).Some?
                          else ParseNat(t).Some?)
    ensures var t := Strip(s);
            r.Some? ==> r.value == (if t[0] == '-' then -(DigitsValue(t[1..]) as int)
                                   else if t[0] == '+' then DigitsValue(t[1..]) as int
                                   else DigitsValue(t) as int)
  {
    ParseSigned(Strip(s))
  }

  /** `int()` of an already stripped literal. */
  function ParseSigned(t: string): Option<int>
  {
    if |t| > 0 && (t[0] == '-' || t[0] == '+') then
      match ParseNat(t[1..])
      case None => None
      case Some(n) =>
        var v: int := if t[0] == '-' then -(n as int) else n;
        Some(v)
    else
      match ParseNat(t)
      case None => None
      case Some(n) =>
        var v: int := n;
        Some(v)
  }

  /** `int(str(i)) == i`. */
  lemma ParseIntPrinted(i: int)
    ensures ParseInt(IntToString(i)) == Some(i)
  {
    var s := IntToString(i);
    if i < 0 {
      var d := NatToString(-i);
      assert s == "-" + d;
      assert Strip(s) == s;
      assert s[1..] == d;
      ParsePrinted(-i);
    } else {
      assert Strip(s) == s;
      ParsePrinted(i);
    }
  }

  /** Leading zeros add nothing to a digit string's value. */
  lemma {:induction false} LeadingZeros(k: nat, d: string)
    requires forall i :: 0 <= i < |d| ==> IsDigit(d[i])
    ensures forall i :: 0 <= i < |Repeat('0', k) + d| ==> IsDigit((Repeat('0', k) + d)[i])
    ensures DigitsValue(Repeat('0', k) + d) == DigitsValue(d)
    decreases |d| + k
  {
    var z := Repeat('0', k);
    if |d| > 0 {
      LeadingZeros(k, d[..|d| - 1]);
      assert (z + d)[..|z + d| - 1] == z + d[..|d| - 1];
    } else if k > 0 {
      LeadingZeros(k - 1, d);
      assert z + d == z;
      assert z[..k - 1] == Repeat('0', k - 1) + d;
    } else {
      assert z + d == d;
    }
  }

  /** Surrounding whitespace is what `strip` removes. */
  lemma {:induction false} StripSurrounded(pre: string, t: string, post: string)
    requires IsBlank(pre) && IsBlank(post)
    requires |t| > 0 && !IsSpace(t[0]) && !IsSpace(t[|t| - 1])
    ensures Strip(pre + t + post) == t
    decreases |pre| + |post|
  {
    var s := pre + t + post;
    if |pre| > 0 {
      var rest := pre[1..] + t + post;
      assert pre == [pre[0]] + pre[1..];
      assert s == [pre[0]] + rest;
      StripSurrounded(pre[1..], t, post);
    } else if |post| > 0 {
      var rest := pre + t + post[..|post| - 1];
      assert post == post[..|post| - 1] + [post[|post| - 1]];
      assert s == rest + [post[|post| - 1]];
      StripSurrounded(pre, t, post[..|post| - 1]);
    } else {
      assert s == t;
    }
  }

  /** `int()` accepts whitespace around the literal, an explicit sign and
      leading zeros: `int(" +007 ") == 7` and `int("-007") == -7`. */
  lemma ParseIntPadded(pre: string, sign: char, k: nat, n: nat, post: string)
    requires IsBlank(pre) && IsBlank(post)
    requires sign == '+' || sign == '-'
    ensures ParseInt(pre + [sign] + Repeat('0', k) + NatToString(n) + post)
         == Some(if sign == '-' then -(n as int) else n)
  {
    var t := [sign] + (Repeat('0', k) + NatToString(n));
    SignedLiteral(sign, k, n);
    Regroup(pre, [sign], Repeat('0', k), NatToString(n), post);
    StripSurrounded(pre, t, post);
  }

  lemma Regroup(a: string, b: string, c: string, d: string, e: string)
    ensures a + b + c + d + e == a + (b + (c + d)) + e
  {
  }

  /** A signed, zero-padded literal has no whitespace at its ends and
      parses to its signed value. */
  lemma SignedLiteral(sign: char, k: nat, n: nat)
    requires sign == '+' || sign == '-'
    ensures var t := [sign] + (Repeat('0', k) + NatToString(n));
            && |t| > 0 && !IsSpace(t[0]) && !IsSpace(t[|t| - 1])
            && ParseSigned(t) == Some(if sign == '-' then -(n as int) else n)
  {
    var d := NatToString(n);
    var t := [sign] + (Repeat('0', k) + d);
    assert t[|t| - 1] == d[|d| - 1];
    assert t[1..] == Repeat('0', k) + d;
    ParseNumberPadded(k, n);
  }

  /** Zero-padded digits parse to the number they print. */
  lemma ParseNumberPadded(k: nat, n: nat)
    ensures ParseNat(Repeat('0', k) + NatToString(n)) == Some(n)
  {
    LeadingZeros(k, NatToString(n));
    ParsePrinted(n);
  }

  /** `s.split(sep)`: never empty; separators at the ends give empty parts. */
  function Split(s: string, sep: char): (r: seq<string>)
    ensures |r| > 0
  {
    if |s| == 0 then [""]
    else
      var rest := Split(s[1..], sep);
      if s[0] == sep then [""] + rest else [[s[0]] + rest[0]] + rest[1..]
  }

  /** `sep.join(parts)`. */
  function Join(parts: seq<string>, sep: char): string
    requires |parts| > 0
  {
    if |parts| == 1 then parts[0] else parts[0] + [sep] + Join(parts[1..], sep)
  }

  /** Splitting a piece without separators followed by more text. */
  lemma {:induction false} SplitPiece(a: string, b: string, sep: char)
    requires sep !in a
    ensures Split(a + b, sep) == [a + Split(b, sep)[0]] + Split(b, sep)[1..]
  {
    if |a| > 0 {
      assert (a + b)[1..] == a[1..] + b;
      SplitPiece(a[1..], b, sep);
      var r := Split(b, sep);
      var rest := Split((a + b)[1..], sep);
      assert rest == [a[1..] + r[0]] + r[1..];
      assert (a + b)[0] == a[0] && a[0] != sep;
      assert Split(a + b, sep) == [[a[0]] + rest[0]] + rest[1..];
      assert [a[0]] + (a[1..] + r[0]) == a + r[0];
    } else {
      var r := Split(b, sep);
      assert a + b == b;
      assert a + r[0] == r[0];
      assert r == [r[0]] + r[1..];
    }
  }

  /** Splitting undoes joining when no part holds the separator. */
  lemma {:induction false} SplitJoin(parts: seq<string>, sep: char)
    requires |parts| > 0
    requires forall k :: 0 <= k < |parts| ==> sep !in parts[k]
    ensures Split(Join(parts, sep), sep) == parts
  {
    if |parts| == 1 {
      SplitPiece(parts[0], "", sep);
      assert parts[0] + "" == parts[0];
    } else {
      var tail := Join(parts[1..], sep);
      SplitJoin(parts[1..], sep);
      assert Split([sep] + tail, sep) == [""] + parts[1..];
      SplitPiece(parts[0], [sep] + tail, sep);
      assert parts[0] + [sep] + tail == parts[0] + ([sep] + tail);
      assert parts[0] + "" == parts[0];
    }
  }

  /** `s.replace(pat, "")`: every non-overlapping occurrence of `pat`,
      scanning left to right, is removed. */
  function RemoveAll(s: string, pat: string): string
    requires |pat| > 0
    decreases |s|
  {
    if |s| == 0 then ""
    else if pat <= s then RemoveAll(s[|pat|..], pat)
    else [s[0]] + RemoveAll(s[1..], pat)
  }

  /** Removing a pattern that does not occur changes nothing. */
  lemma {:induction false} RemoveAbsent(s: string, pat: string)
    requires |pat| > 0
    requires !Contains(s, pat)
    ensures RemoveAll(s, pat) == s
    decreases |s|
  {
    if |s| > 0 {
      RemoveAbsent(s[1..], pat);
    }
  }

  /** `c.isspace()`: the characters `str.strip()` and `int()` discard. */
  predicate IsSpace(c: char)
  {
    || '\t' <= c <= '\r'
    || '\U{1C}' <= c <= ' '
    || c == '\U{85}' || c == '\U{A0}' || c == '\U{1680}'
    || '\U{2000}' <= c <= '\U{200A}'
    || c == '\U{2028}' || c == '\U{2029}' || c == '\U{202F}' || c == '\U{205F}' || c == '\U{3000}'
  }

  /** `s.strip()` is empty exactly when `s` is all whitespace. */
  predicate IsBlank(s: string)
  {
    forall i :: 0 <= i < |s| ==> IsSpace(s[i])
  }

  /** `s.strip()`. */
  function Strip(s: string): (r: string)
    ensures |r| <= |s|
    ensures |r| == 0 <==> IsBlank(s)
    ensures |r| > 0 ==> !IsSpace(r[0]) && !IsSpace(r[|r| - 1])
    decreases |s|
  {
    if |s| == 0 then s
    else if IsSpace(s[0]) then Strip(s[1..])
    else if IsSpace(s[|s| - 1]) then Strip(s[..|s| - 1])
    else s
  }
}
